=== FILE: README.md ===
# Answer engine core, modelled in Dafny

This project models the core of an AI answer engine. The engine has an
Express/WebSocket back end and a Next.js front end.

- A browser opens a WebSocket. The connection handler picks a chat model and
  an embedding model from the provider registry and the connection URL's
  query parameters.
- Every chat message is checked, stored in the chat history, and handed to
  the search agent of its focus mode. The agent's event stream (answer
  chunks, sources, end, error) is relayed to the client. The finished answer
  is stored as an assistant message.
- The HTTP routes start a search without a socket (`/api/search`), and serve
  the chat history (`/api/chats`), the model catalogue (`/api/models`) and
  the settings (`/api/config`). The search route answers 200 as soon as the
  agent has started. That reply is the serialised event emitter, so it
  carries none of the answer's events.
- The helpers are also modelled: the link loader, the similarity measure,
  the SearxNG query builder, the list and line output parsers, and the error
  message extractor.
- On the client side, the model covers:
  - the message box, which turns citation markers `[n]` into links, strips
    them for speech and for the PDF export, and numbers the exported sources;
  - the navigation-bar title;
  - the company onboarding form, with competitor cleaning, selection and the
    sequential analysis;
  - the six-step professional-analysis wizard.

Each component is one module in one file:

- `Wrappers`: `Option` and `Result`.
- `Strings`: JavaScript whitespace and `trim`, split and join, `indexOf`, and
  decimal digits.
- `JsObjects`: plain JavaScript objects, as insertion-ordered lists of
  distinct string keys. Assigning to an existing key keeps its place; spread
  is modelled too.
- `Store`: the `chats` and `messages` tables.
- `Providers`, `ModelSelection`, `FocusModes`, `Session`, `Connection`,
  `SearchRoute`, `ChatRoutes`, `ModelsRoute`, `ConfigRoute`, `Documents`,
  `Similarity`, `Searxng`, `OutputParsers`, `Errors`: the server.
- `MessageBox`, `Navbar`, `CompanyForm`, `ProMode`: the client.

Things outside the program are parameters of the functions that use them:

- every network call: model loaders, the Ollama tags request, page and PDF
  fetches, SearxNG, the analysis services and the LLM;
- the answering pipeline `searchAndAnswer`;
- which awaited database call of the message handler throws, and whether
  the un-awaited insert of the finished answer rejects;
- the company form's database inserts that can fail, and JSON parsing;
- random ids and the clock.

A call that throws is modelled as `Failure` (or `None`). An absent field is
`None`, and JavaScript truthiness of an optional string is `Truthy`.

## Model

| member | source | states |
|---|---|---|
| Errors.GetErrorMessage | src/utils/errors.ts:11-22 | An `Error` gives its message, and a value with a `message` property gives that property converted with `String`. An array property gives its elements joined with commas. A string gives itself, and anything else gives the fixed unknown-error text. |
| Errors.UnknownExactlyWithoutMessage | src/utils/errors.ts:11-22 | The unknown-error text comes back exactly for a value that has no message and is not a string, or for one whose own message is that very text. |
| Errors.StringMessagePassesThrough | src/utils/errors.ts:15-20 | A plain object whose `message` is a string, and a bare string, both yield that string unchanged. |
| Errors.JoinElements | src/utils/errors.ts:15-20 | `String` of an array is its elements' strings, `null` and `undefined` as empty, joined with commas. |
| Errors.ArrayMessageJoined | src/utils/errors.ts:15-20 | A `message` of `[1, 2]` gives `1,2`, one of `[null, "x"]` gives `,x`, and a thrown array gives the unknown-error text. |
| Errors.ArrayMessageSplits | src/utils/errors.ts:15-20 | A `message` that is an array of comma-free strings comes back as those strings when the text is split at commas. |
| Similarity.ComputeSimilarity | src/utils/computeSimilarity.ts:12-51 | A non-array, a length mismatch, a missing element or an unknown measure scores 0. With `dot` the score is the dot product. With `cosine` it is the library's value, and 0 when the library fails or gives a non-number. |
| Similarity.DotSymmetric | src/utils/computeSimilarity.ts:36-42 | The dot product is symmetric. |
| Similarity.DotScoreSymmetric | src/utils/computeSimilarity.ts:36-42 | The `dot` score of two vectors does not depend on their order. |
| Similarity.DotScoreUnbounded | src/utils/computeSimilarity.ts:10-42 | The `dot` score is not confined to the documented range [0, 1]. For example, [2] and [3] score 6. |
| Searxng.QueryParams | src/lib/searxng.ts:29-40 | The query string is `format=json`, then `q`, then one parameter per option in the option's order, with list values comma-joined. |
| Searxng.OptionParams | src/lib/searxng.ts:32-40 | Each option becomes exactly one parameter with its own name and encoded value. |
| Searxng.ListOptionRecoverable | src/lib/searxng.ts:34-35 | A list option whose items contain no comma is recovered from its parameter by splitting at commas. |
| Searxng.SearchSearxng | src/lib/searxng.ts:23-48 | The request carries exactly those parameters, and the reply's results and suggestions are passed through. |
| Searxng.Search | src/lib/searxng.ts:58-65 | The call's options win over the client's defaults key by key. Every key of either is sent, with the defaults' keys first. |
| Searxng.SearchWithoutOverrides | src/lib/searxng.ts:53-64 | With no call options, the client's defaults are sent as they are. |
| OutputParsers.NewListLineParser | src/lib/outputParsers/listLineOutputParser.ts:9-12 | The key is the given one, or `suggestions` when there is none. |
| OutputParsers.ParseList | src/lib/outputParsers/listLineOutputParser.ts:46-65 | Every item is a trimmed, non-empty line. Without both tags, the items are the lines of the whole text. |
| OutputParsers.ParseListBetweenTags | src/lib/outputParsers/listLineOutputParser.ts:46-65 | For any text `pre <key> mid </key> post` where `pre` and `mid` hold no `<`, the items are the lines of the trimmed `mid`, whatever `post` holds. |
| OutputParsers.ParseListAt | src/lib/outputParsers/listLineOutputParser.ts:47-64 | When the first opening tag ends before the first closing tag, the items are the lines of the trimmed text between them. |
| OutputParsers.ParseListCloseBeforeOpen | src/lib/outputParsers/listLineOutputParser.ts:58-64 | A closing tag before the opening tag gives an empty slice, and so no items. |
| OutputParsers.NonEmptyTrimmedOfItems | src/lib/outputParsers/listLineOutputParser.ts:52-55 | Filtering trimmed non-empty pieces leaves a list of items unchanged. |
| OutputParsers.ParseFormattedList | src/lib/outputParsers/listLineOutputParser.ts:46-69 | Round trip: items written between the tags, one per line, parse back to the same items. |
| OutputParsers.LinesOfJoin | src/lib/outputParsers/listLineOutputParser.ts:61-64 | Splitting items joined by newlines, trimming and dropping empty lines gives back the items. |
| OutputParsers.ExtractText | src/lib/outputParsers/listLineOutputParser.ts:28-44 | A string is itself. A list without text parts gives the empty string, and a list with one text part gives its text. A single text part gives its text, and any other single part gives the empty string. |
| OutputParsers.ExtractTextSplitsIntoParts | src/lib/outputParsers/listLineOutputParser.ts:33-37 | Splitting the joined text at newlines gives back the text parts, provided they hold no newline. |
| OutputParsers.Invoke | src/lib/outputParsers/listLineOutputParser.ts:18-21 | Invoking the parser on any input yields trimmed, non-empty items. |
| OutputParsers.FormatInstructions | src/lib/outputParsers/listLineOutputParser.ts:67-69 | The instructions name the opening tag of the parser's key. |
| OutputParsers.NewLineParser | src/lib/outputParsers/lineOutputParser.ts:10-13 | Construction fails exactly when no argument object is given. The key defaults to `questions`. |
| OutputParsers.ParseLine | src/lib/outputParsers/lineOutputParser.ts:21-23 | The result is trimmed. It is the slice of the text that starts after the leading white space and is followed only by white space, and it keeps every non-space character of the text in order. |
| OutputParsers.ParseLineIdempotent | src/lib/outputParsers/lineOutputParser.ts:21-23 | Parsing a parsed line changes nothing. |
| Documents.NormaliseLink | src/utils/documents.ts:15-18 | The link always starts with `http://` or `https://`. A link that already does is unchanged, and any other link gets `https://` in front. |
| Documents.NormaliseLinkIdempotent | src/utils/documents.ts:15-18 | Normalising twice is normalising once. |
| Documents.ReplaceLineBreaks | src/utils/documents.ts:30 | No line break remains, text without one is unchanged, the text does not grow, and the non-space characters are kept in order. |
| Documents.Collapse | src/utils/documents.ts:31 | No two whitespace characters are adjacent, and only the plain space remains. It is empty exactly when the input is. It starts and ends with whitespace exactly when the input does, it does not grow, and its non-space characters are the input's, in order. |
| Documents.CollapseOfCollapsed | src/utils/documents.ts:31 | Collapsing collapsed text changes nothing. |
| Documents.NormalisePdfText | src/utils/documents.ts:29-32 | PDF text comes out trimmed and with single spaces, and its non-space characters are the input's, in order. |
| Documents.NormalisePdfTextIdempotent | src/utils/documents.ts:29-32 | Normalising PDF text twice is normalising it once. |
| Documents.LinkDocuments | src/utils/documents.ts:14-73 | Every document of a link carries the normalised link as its url. A failed fetch yields none, and the documents of an HTML page are titled with the link. A PDF or HTML page whose parse, conversion or split throws yields none. |
| Documents.PdfDocuments | src/utils/documents.ts:25-46 | A PDF's documents are exactly the chunks of its cleaned text, in order. Each is titled with the PDF's title, or with the link when the PDF has none. |
| Documents.HtmlDocuments | src/utils/documents.ts:47-68 | An HTML page's documents are exactly the splitter's chunks of its text, in order, each with the link as url and title. |
| Documents.GetDocumentsFromLinks | src/utils/documents.ts:8-78 | For every completion order of the parallel fetches, a document is in the result exactly when some link yields it. Every document's url is one of the normalised links. |
| Store.FilterWellFormed | src/routes/chats.ts:51-55 | Deleting rows by a predicate keeps ids unique, increasing and below the next id. |
| Store.First | src/routes/chats.ts:22-24 | `findFirst`: a row is found exactly when some row has the key, and what is found has the key, is in the table, and has no earlier row with that key. |
| Store.FindChat | src/routes/chats.ts:22-24 | A chat is found exactly when one has the id, and what is found has that id and is in the table. |
| Store.FindMessage | src/websocket/messageHandler.ts:256-260 | A message row is found exactly when one has the message id. |
| Store.InsertChat | src/routes/chats.ts:66-75 | The chat is appended, the message table is untouched, and the tables stay well formed. |
| Store.InsertMessage | src/websocket/messageHandler.ts:120-135 | The row is appended under the next id, nothing else changes, and the tables stay well formed. |
| Store.MessagesOf | src/routes/chats.ts:30-32 | A row is listed exactly when it belongs to the chat. In a well-formed table the listed ids increase, so the rows keep their insertion order. |
| Store.DeleteMessagesAfter | src/websocket/messageHandler.ts:272-280 | Exactly the chat's rows with a larger id are removed. |
| Store.DeleteChat | src/routes/chats.ts:51-55 | Exactly the chat and its messages are removed, and the tables stay well formed. |
| ChatRoutes.ListChats | src/routes/chats.ts:9-18 | The chats are listed newest first: position i holds the i-th chat from the end. A store failure is a 500. |
| ChatRoutes.Reverse | src/routes/chats.ts:12 | `reverse()`: position i holds the i-th element from the end, and the length is kept. |
| ChatRoutes.ListTwiceReversed | src/routes/chats.ts:12 | Reversing twice gives the chats back in insertion order. |
| ChatRoutes.GetChat | src/routes/chats.ts:20-39 | An unknown id is a 404. Otherwise the reply holds the chat and exactly its messages. In a well-formed store the messages come in insertion order. |
| ChatRoutes.DeleteChatRoute | src/routes/chats.ts:41-62 | An unknown id is a 404 and the store is untouched. Otherwise the chat and its messages are deleted. |
| ChatRoutes.DeleteChatWithFault | src/routes/chats.ts:41-62 | Without a fault it is the delete route. A throwing lookup or chat delete answers 500 and changes nothing. A throwing message delete answers 500 with exactly the chat row gone and every message kept. |
| ChatRoutes.OrphanedMessages | src/routes/chats.ts:51-55 | After a throwing message delete the chat answers 404 while its messages stay stored. |
| ChatRoutes.CreateChat | src/routes/chats.ts:64-82 | The chat is appended with focus mode `default` and no files when those are absent. Messages are untouched, and the reply is a 201. |
| ChatRoutes.CreateThenGet | src/routes/chats.ts:20-39 | A chat created under a fresh id is then found, with its defaults and no messages. |
| ChatRoutes.FirstAppended | src/routes/chats.ts:22-24 | A row appended under a key no earlier row has is what `findFirst` returns for that key. |
| ChatRoutes.DeleteThenGet | src/routes/chats.ts:41-62 | After a delete, fetching the chat answers 404. |
| Providers.Gather | src/lib/providers/index.ts:41-49 | The registry loads exactly when every loader does, and an error is some loader's error. The keys are the providers with models, in order, each holding its loader's models. |
| Providers.GetAvailableChatModelProviders | src/lib/providers/index.ts:41-54 | The keys are the chat providers with models, then `custom_openai` with no models. Every provider with models holds them. |
| Providers.GetAvailableEmbeddingModelProviders | src/lib/providers/index.ts:56-67 | The keys are the embedding providers with models. Every provider with models holds them. |
| Providers.NoModelsRegistries | src/lib/providers/index.ts:41-67 | When no loader yields a model, the chat registry is only `custom_openai` and the embedding registry is empty. |
| Providers.GatherHas | src/lib/providers/index.ts:44-48 | A provider with models appears with exactly those models. |
| Providers.GetEmbeddingModel | src/lib/providers/index.ts:69-82 | An unknown provider and an unknown model each throw their own message. Otherwise the result is the named model's object. |
| Providers.EmbeddingModelListed | src/lib/providers/index.ts:56-82 | A model resolved by name is listed by the registry under the same provider. |
| Providers.ReduceTags | src/lib/providers/ollama.ts:41-53 | The keys are exactly the tags' model names. |
| Providers.ReduceTagsLastWins | src/lib/providers/ollama.ts:41-53 | A repeated model name ends up with the entry of its last tag. |
| Providers.ReduceTagsEntries | src/lib/providers/ollama.ts:41-53 | Every tag that is the last with its model name supplies that name's entry. |
| Providers.LoadOllamaChatModels | src/lib/providers/ollama.ts:26-60 | With no endpoint, or a failed request, there are no models. Otherwise there is one `ChatOllama` per tagged model, at the endpoint, with temperature 0.7 and the keep-alive. Its display name is the `name` of the last tag with that model. |
| Providers.LoadOllamaEmbeddingsModels | src/lib/providers/ollama.ts:62-93 | As the chat loader, but with an `OllamaEmbeddings` per tagged model. Its display name is the `name` of the last tag with that model. |
| Providers.NewOllamaProvider | src/lib/providers/ollama.ts:13-14 | A new `OllamaProvider` holds no models. |
| Providers.GetAvailableModels | src/lib/providers/ollama.ts:16-19 | The model is appended after the accumulator. |
| Providers.FoldAvailableCopies | src/lib/providers/ollama.ts:16-19 | Reducing a list with the appender copies it. |
| ModelSelection.PickProvider | src/websocket/connectionManager.ts:45-47 | A truthy requested name wins, otherwise the first key. The result is absent exactly when there is neither. |
| ModelSelection.PickModel | src/websocket/connectionManager.ts:48-50 | A truthy requested name wins. Otherwise the first model of the provider is taken, and this throws when the provider is absent. |
| ModelSelection.Lookup | src/websocket/connectionManager.ts:62-64 | The entry is found exactly when both names are present and listed. |
| ModelSelection.DefaultModelFound | src/websocket/connectionManager.ts:48-50 | A model picked by default is found by the lookup. |
| Connection.Selected | src/websocket/connectionManager.ts:45-64 | Both names given select the looked-up entry. Neither given selects the first model of the first provider. An empty registry with no provider named selects nothing. |
| Connection.ChooseLlm | src/websocket/connectionManager.ts:62-84 | A listed model is used only for a provider other than `custom_openai`. That provider needs a key and a URL, and throws without them. |
| Connection.Connect | src/websocket/connectionManager.ts:32-126 | Failing registries close the socket silently. An open connection sends one `open` signal. Its chat model is the entry the parameters select (the named one, or the first provider's first model), unless it is the custom endpoint with a key and URL. Its embedding model is the selected embedding entry. An embedding selection that finds nothing closes the socket. |
| Connection.HandleConnection | src/websocket/connectionManager.ts:32-126 | With separate chat and embedding loaders: failing registries close the socket silently. Otherwise it closes with at most the invalid-selection error, or opens with the signal. |
| Connection.NoProvidersClosesSilently | src/websocket/connectionManager.ts:45-74 | With no models anywhere and no parameters, the socket closes and no error message is sent. |
| Connection.DefaultCustomWithoutKeyCloses | src/websocket/connectionManager.ts:45-74 | The default `custom_openai` chat entry, with no key or URL, closes the socket without a message. |
| Connection.UnknownChatModelReported | src/websocket/connectionManager.ts:62-103 | An unlisted chat model is reported as an invalid selection. |
| Connection.UnknownEmbeddingModelReported | src/websocket/connectionManager.ts:86-103 | A listed chat model with an unlisted embedding model is reported as an invalid selection. |
| Connection.ListedModelsOpen | src/websocket/connectionManager.ts:62-119 | Listed models open the connection with exactly those models. |
| Connection.DefaultModelsOpen | src/websocket/connectionManager.ts:45-119 | Without query parameters the connection opens with the first model of the first chat provider and of the first embedding provider. |
| Connection.NewConnectionManager | src/websocket/connectionManager.ts:128-134 | A new manager has no model. |
| Connection.SetModel | src/websocket/connectionManager.ts:136-138 | The model is set and nothing else changes. |
| Connection.ProcessMessage | src/websocket/connectionManager.ts:140-148 | A missing model is reported before a closed socket. Processing succeeds exactly when both are there. |
| Connection.SetModelThenProcess | src/websocket/connectionManager.ts:136-148 | Once a model is set, processing fails exactly when the socket is closed. |
| FocusModes.HandlerFor | src/websocket/messageHandler.ts:32-87 | An agent exists exactly for the six focus-mode names. |
| FocusModes.HandlerTableShape | src/websocket/messageHandler.ts:32-87 | Only the writing assistant skips the web, and it has no query prompt and no engines. Only Wolfram Alpha skips reranking, only web search summarises, and every threshold is 0 or 0.3. |
| FocusModes.EntryShape | src/websocket/messageHandler.ts:32-87 | The same table facts, stated by position. |
| FocusModes.HandlersDistinct | src/websocket/messageHandler.ts:32-87 | The table is a valid object: no focus mode is listed twice. |
| Session.ToTurns | src/websocket/messageHandler.ts:222-226 | Each history pair becomes one turn with its content. The turn is human exactly when the role is `human`. |
| Session.RelaySent | src/websocket/messageHandler.ts:89-146 | The client receives, event by event, a message per chunk, the sources, `messageEnd`, or the chain error. |
| Session.Relay | src/websocket/messageHandler.ts:89-146 | The relay only ever adds messages: what was sent before stays sent, in order. |
| Session.RelayReceived | src/websocket/messageHandler.ts:98-119 | The accumulated answer is the chunks concatenated in order. The sources are those of the last sources event. |
| Session.RelayNoEndNoWrite | src/websocket/messageHandler.ts:120-135 | Nothing is written before the end event. |
| Session.StoredAnswer | src/websocket/messageHandler.ts:120-135 | A stream ending once stores exactly one assistant row with the whole answer and the latest sources. |
| Session.FailedInsertStoresNothing | src/websocket/messageHandler.ts:120-135 | When the answer insert rejects, the client still receives every message and the store is unchanged. |
| Session.RelaySplit | src/websocket/messageHandler.ts:89-146 | Relaying two streams one after the other is relaying their concatenation. |
| Session.RelayWellFormed | src/websocket/messageHandler.ts:120-135 | The relay keeps the tables well formed. |
| Session.ChainErrorsOnly | src/websocket/messageHandler.ts:136-145 | Every error the relay sends is a chain error. |
| Session.RelayGrows | src/websocket/messageHandler.ts:120-135 | The relay never removes message rows. |
| Session.Agent | src/websocket/messageHandler.ts:212-220 | An agent is found exactly for a present, known focus mode. |
| Session.Reconcile | src/websocket/messageHandler.ts:239-283 | Afterwards the chat exists. An existing chat leaves the chat table as it was. A new one is appended with the message as title and the focus mode, files and time, and the other chats are kept. A new message id appends the user's row. A known one keeps the row and deletes that chat's later rows. The tables stay well formed. |
| Session.ReconcileWithFault | src/websocket/messageHandler.ts:239-283 | Without a fault the calls reconcile as usual. They fail exactly when the faulty call is reached (the chat insert only for a new chat). A failure writes no message row and keeps the tables well formed. |
| Session.HandleMessage | src/websocket/messageHandler.ts:184-292 | Undecodable input, or missing files or message, is the processing error. Empty content is `INVALID_FORMAT` with nothing written. An unknown focus mode is the invalid-focus error. The tables stay well formed. |
| Session.RunAgent | src/websocket/messageHandler.ts:222-291 | The accepted path keeps the tables well formed. The events are relayed whether or not a later database call throws. |
| Session.RunRelay | src/websocket/messageHandler.ts:89-146 | The client receives exactly the relayed events and no row is lost. When the answer insert rejects, the store is untouched. |
| Session.FileDetailsOf | src/websocket/messageHandler.ts:239-254 | One file-details entry per file id, in order. |
| Session.AcceptedMessage | src/websocket/messageHandler.ts:184-283 | An accepted message with a fresh id, when no database call throws, sends exactly the relayed events and stores at least the user's row. |
| Session.StoreFaultReported | src/websocket/messageHandler.ts:237-291 | A database call that throws after the agent starts sends the processing error, followed by the relayed events. No message row is written. |
| Session.FilesKeepRequestedMode | src/websocket/messageHandler.ts:192-237 | A message with files and a known focus mode runs that mode's agent with its content, history, mode and file ids, and the client gets the processing error or the relayed events. That agent is not web search's unless the mode is web search. |
| Session.NewMessageHandler | src/websocket/messageHandler.ts:155-165 | A new handler has the given agents and no sources. |
| Session.ClearSources | src/websocket/messageHandler.ts:167-169 | No sources remain, and the agents are unchanged. |
| Session.AddSource | src/websocket/messageHandler.ts:171-173 | The source is appended. |
| Session.AddSourcesInOrder | src/websocket/messageHandler.ts:171-173 | Adding sources one by one collects them in order. |
| Session.HandleSearch | src/websocket/messageHandler.ts:175-181 | An unknown search type throws with its name. Otherwise nothing changes. |
| SearchRoute.SelectModels | src/routes/search.ts:89-141 | A custom model needs the body to name `custom_openai` and to give both endpoint fields, and is refused without them. A listed model is used only otherwise. Failures are a 500, the missing-custom 400 or the invalid-model 400. |
| SearchRoute.Search | src/routes/search.ts:61-164 | Missing focus mode or query comes first, and failing registries are a 500. An answer is a 200 for a known focus mode. Every other reply is a 400 or a 500. |
| SearchRoute.Dispatch | src/routes/search.ts:69-158 | An unknown focus mode is exactly the invalid-focus reply. Otherwise a started agent is answered with the bare 200, and a throw with the 500. |
| SearchRoute.HandleSearch | src/routes/search.ts:61-164 | With separate chat and embedding loaders: missing fields are reported first, and every error is a 400 or a 500. |
| SearchRoute.ModelCheckedBeforeFocusMode | src/routes/search.ts:139-147 | An unlisted model is reported even when the focus mode is also unknown. |
| SearchRoute.UnlistedChatModel | src/routes/search.ts:122-141 | An unlisted chat model is an invalid selection. |
| SearchRoute.AcceptedSearch | src/routes/search.ts:61-158 | A valid request calls its focus mode's agent with the query, the named models, an empty history, `balanced` and no files. The reply is the bare 200 when the agent starts and the 500 when it throws. |
| SearchRoute.DispatchDefaults | src/routes/search.ts:69-158 | Without history and mode, the agent gets an empty history, `balanced` and no files. The reply is the bare 200 or the 500. |
| SearchRoute.ReplyIgnoresEvents | src/routes/search.ts:149-158 | The reply does not depend on the agent's events: two agents that start on the same calls give the same reply. |
| SearchRoute.SelectListed | src/routes/search.ts:122-137 | Naming listed models selects exactly those models. |
| SearchRoute.NoProvidersInvalidModel | src/routes/search.ts:95-99 | With no models anywhere and none named, the reply is the generic 500: picking the embedding model throws. |
| SearchRoute.NoEmbeddingsThrows | src/routes/search.ts:95-99 | An empty embedding registry with no model named throws. |
| SearchRoute.DefaultCustomIsInvalid | src/routes/search.ts:89-140 | The default `custom_openai` chat entry, not named in the body, is an invalid model selection. |
| ModelsRoute.GetModels | src/routes/models.ts:23-59 | Either registry failing is a 500. Otherwise both registries are sanitised. |
| ModelsRoute.HandleGetModels | src/routes/models.ts:23-59 | With separate chat and embedding loaders, the catalogue is answered exactly when both registries load. |
| ModelsRoute.SanitiseProviderGet | src/routes/models.ts:36-39 | Stripping keeps every model, in order, with its display name. |
| ModelsRoute.SanitiseGet | src/routes/models.ts:34-40 | Sanitising keeps every provider, in order. |
| ModelsRoute.ModelsReachClient | src/routes/models.ts:23-54 | Every model a loaded provider lists reaches the client with its display name, and `custom_openai` is listed with no models. |
| ConfigRoute.Infos | src/routes/config.ts:57-66 | One `{name, displayName}` per model, in key order. Each name is looked up to its own display name. |
| ConfigRoute.GetConfig | src/routes/config.ts:45-90 | A failing registry is exactly the 500. Otherwise the five settings are passed through. |
| ConfigRoute.HandleGetConfig | src/routes/config.ts:45-90 | With separate chat and embedding loaders, the config is answered exactly when both registries load. |
| ConfigRoute.CatalogueGet | src/routes/config.ts:57-77 | The catalogue keeps the providers in order, each with the list of its models. |
| ConfigRoute.ConfigListsModel | src/routes/config.ts:45-90 | Every listed chat model appears in the settings view under its provider with its display name. |
| ConfigRoute.PostConfig | src/routes/config.ts:92-110 | Each body field lands in its section and key, and the reply is 200 `Config updated`. |
| ConfigRoute.PostBackRoundTrip | src/routes/config.ts:45-110 | Posting back what `GET` showed writes the same five settings. |
| ConfigRoute.PostOfReadBack | src/routes/config.ts:92-110 | Reading an update back and posting it gives the same update. |
| MessageBox.RemoveMarkdownChars | ui/components/MessageBox.tsx:26 | No emphasis character remains, every other character keeps its count, and the text does not grow. |
| MessageBox.RemoveMarkdownCharsSubseq | ui/components/MessageBox.tsx:26 | Removing emphasis characters only deletes characters. |
| MessageBox.TokensRoundTrip | ui/components/MessageBox.tsx:54-65 | The marker scanner loses nothing: its tokens spell out the text. |
| MessageBox.RemoveCitationsSubseq | ui/components/MessageBox.tsx:27 | Removing markers only deletes characters. |
| MessageBox.RemoveCitationsKeepsCount | ui/components/MessageBox.tsx:27 | Removing markers keeps the count of every character that is not a digit or a bracket. |
| MessageBox.CitationsAreDigits | ui/components/MessageBox.tsx:54-65 | Every marker the scanner finds is made of digits. |
| MessageBox.NoBracketUnchanged | ui/components/MessageBox.tsx:54-70 | Text without `[` is left as it is by any replacement. |
| MessageBox.RemoveCitations | ui/components/MessageBox.tsx:27 | Text without `[` is left as it is. |
| MessageBox.Linkify | ui/components/MessageBox.tsx:61-66 | Text without `[` is left as it is. |
| MessageBox.RemoveCitationsNotIdempotent | ui/components/MessageBox.tsx:27 | One pass can create a new marker: `[[1]2]` becomes `[2]`. |
| MessageBox.StripMarkdownAndCitations | ui/components/MessageBox.tsx:25-29 | The exported text has no emphasis character and is obtained by deleting characters. Every character other than emphasis, digits and brackets keeps its count. Text without `[` only loses its emphasis characters. |
| MessageBox.StripMarkdownAtMarker | ui/components/MessageBox.tsx:25-29 | At the first marker, the export keeps the text before it minus emphasis characters, deletes the marker, and strips the rest the same way. |
| MessageBox.RenderPlainPrefix | ui/components/MessageBox.tsx:27 | Text before the first `[` is scanned as plain characters and kept by every replacement. |
| MessageBox.RenderAtFirstMarker | ui/components/MessageBox.tsx:27 | The first marker is replaced by the callback's text for its digits, and the scan carries on after its `]`. |
| MessageBox.RemoveCitationsAtMarker | ui/components/MessageBox.tsx:27 | A marker inside text is deleted: the text before it is kept and the text after it is processed the same way. |
| MessageBox.RemoveMarkdownAppend | ui/components/MessageBox.tsx:26 | Removing emphasis characters works piecewise over a concatenation. |
| MessageBox.MarkdownFreeUnchanged | ui/components/MessageBox.tsx:26 | Text without emphasis characters is left as it is. |
| MessageBox.SourceHref | ui/components/MessageBox.tsx:65 | Marker n links to source n's url. A missing source, or one without a url, gives `undefined`. |
| MessageBox.CitationLinksSource | ui/components/MessageBox.tsx:61-66 | The link for `[n]` points at source n's url and is labelled with the digits. |
| MessageBox.MarkerLinks | ui/components/MessageBox.tsx:61-66 | A marker on its own becomes exactly the link for its digits. |
| MessageBox.LinkifyAtMarker | ui/components/MessageBox.tsx:54-67 | A marker inside text becomes the link for its digits in place. The text before it is kept and the text after it is linked the same way. |
| MessageBox.EffectAsWritten | ui/components/MessageBox.tsx:53-72 | An answer with sources keeps its previous speech text. Any other message is shown as is and spoken without markers. |
| MessageBox.SpeechKeepsMarkers | ui/components/MessageBox.tsx:56-68 | An answer with sources is read aloud with its markers. |
| MessageBox.Effect | ui/components/MessageBox.tsx:53-72 | Corrected effect: the speech text is always stripped of markers, and the display text is as before. |
| MessageBox.EffectAgrees | ui/components/MessageBox.tsx:53-72 | The correction changes only the speech text of answers with sources. |
| MessageBox.SourceLines | ui/components/MessageBox.tsx:104-112 | One line `i. url` per source (`N/A` without a url), in order. |
| MessageBox.ExportMatchesCitation | ui/components/MessageBox.tsx:65-110 | The export's line for source n carries number n and the url that marker `[n]` links to. |
| Navbar.TitleOf | ui/components/Navbar.tsx:26-28 | A content of up to 20 characters is the title. A longer one gives its first 20 characters trimmed, followed by `...`. |
| Navbar.NextTitle | ui/components/Navbar.tsx:23-29 | No messages leaves the title alone. Otherwise the title comes from the first message. |
| Navbar.TruncatedTitleShape | ui/components/Navbar.tsx:26-28 | A shortened title is at most 23 characters, ends with `...`, and before that holds a trimmed piece of the first 20 characters. |
| Navbar.TitleBounded | ui/components/Navbar.tsx:26-28 | Every title, short or shortened, is at most 23 characters long. |
| CompanyForm.AnalyzeRequestFor | ui/app/company-form/page.js:37-55 | A request is sent exactly when name and url are non-empty. It carries `quick`, the url, the name and the industry. |
| CompanyForm.AnalyzeWebsite | ui/app/company-form/page.js:33-72 | Missing fields show the required-fields error. An ok reply moves to step 2 with the data. A failed reply shows its message, the default text, or the error of reading a `null` body. A throw shows its message, and the step is kept. |
| CompanyForm.ReplyErrorMessage | ui/app/company-form/page.js:57-60 | A `null` body throws a `TypeError` whose message is shown. Otherwise the body's truthy message is used, or `Failed to analyze website`. |
| CompanyForm.CleanContent | ui/app/company-form/page.js:177 | The cleaned reply is trimmed. |
| CompanyForm.RemoveFences | ui/app/company-form/page.js:177 | Removing fences never lengthens the text. |
| CompanyForm.NoBacktickUnchanged | ui/app/company-form/page.js:177 | Text without a backtick has no fence to remove. |
| CompanyForm.FencedJsonUnwrapped | ui/app/company-form/page.js:177 | A reply wrapped in a json fence is unwrapped to its trimmed body. |
| CompanyForm.ValidCompetitors | ui/app/company-form/page.js:191-193 | An item is kept exactly when its name, url and comparison are truthy, whatever their JSON type. |
| CompanyForm.ValidCompetitorsOrder | ui/app/company-form/page.js:191-193 | The filter distributes over concatenation, so it keeps order. |
| CompanyForm.AllValidKept | ui/app/company-form/page.js:191-193 | A list of valid items is kept whole. |
| CompanyForm.ParseCompetitors | ui/app/company-form/page.js:181-200 | An array without `null` elements gives its valid items. Anything else, a throw, or a `null` element is the parse error. |
| CompanyForm.FilterByTruthiness | ui/app/company-form/page.js:186-199 | An item whose name is a number is kept, an empty url drops an item, and an array with a `null` element is the parse error. |
| CompanyForm.AnalyzeCompetitors | ui/app/company-form/page.js:127-208 | A failed request is reported with its message. Otherwise the cleaned content is parsed. |
| CompanyForm.WithoutUrl | ui/app/company-form/page.js:213 | Exactly the entries with other urls remain. |
| CompanyForm.WithoutUrlOrder | ui/app/company-form/page.js:213 | The filter works piecewise over a concatenation, so the remaining entries keep their order and repeats. |
| CompanyForm.Toggle | ui/app/company-form/page.js:210-217 | A selected url is removed entirely by the order-keeping filter, and an unselected competitor is appended. |
| CompanyForm.ToggleTwice | ui/app/company-form/page.js:210-217 | Toggling an unselected competitor twice restores the selection. |
| CompanyForm.CompetitorRows | ui/app/company-form/page.js:102-109 | One row per selected competitor, with its name, url, comparison and stored analysis. |
| CompanyForm.SaveAll | ui/app/company-form/page.js:74-125 | The company row holds the trimmed fields. Competitor rows are written exactly when the company insert succeeds and competitors are selected. The page moves on exactly when there is no error. A failed company insert shows `Failed to save data: ` and its error; otherwise a failed competitor insert shows its error the same way; otherwise no error is shown. |
| CompanyForm.SaveAllNavigates | ui/app/company-form/page.js:96-121 | The page moves on exactly when the company insert succeeds and, with competitors selected, so does the competitor insert. |
| CompanyForm.AnalyzeOne | ui/app/company-form/page.js:261-284 | A request succeeds exactly when the reply is ok, and its data is stored. A failure carries the thrown message, or the competitor's name. |
| CompanyForm.AnalyzeSelected | ui/app/company-form/page.js:252-298 | Competitors are analysed in order. The first failure stops the loop with that competitor's error. Every earlier reply is stored under its url. |
| CompanyForm.StoredHas | ui/app/company-form/page.js:281-284 | Each analysed competitor's reply ends up under its url when no later competitor shares it. |
| CompanyForm.StoredKeeps | ui/app/company-form/page.js:281-284 | A url no competitor has keeps its earlier entry. |
| ProMode.Next | ui/app/pro-mode/ProModeContent.js:85-629 | While a request is pending, only its completion changes anything, and a completion ends the loading. |
| ProMode.UserStep | ui/app/pro-mode/ProModeContent.js:85-578 | A user event moves at most one step (Continue forward, Back backward), or Start New to step 1. Starting a request clears the error. Only Start New touches the analysis, questions and report, and only Answer or Start New touches the answers. |
| ProMode.CompletionStep | ui/app/pro-mode/ProModeContent.js:98-109 | A reply with no request pending changes nothing. A reply that changes the state ends the loading and moves, if at all, to step 4, 5 or 6. The choices, form and answers are kept. |
| ProMode.NextKeepsInv | ui/app/pro-mode/ProModeContent.js:49-629 | Every event keeps the invariant: a step of 1..6 with its earlier choices made, a pending request belonging to its step, and step 6 only after a successful report. |
| ProMode.ReachableInv | ui/app/pro-mode/ProModeContent.js:49-65 | Every reachable state satisfies the invariant. |
| ProMode.StartNewRestoresInit | ui/app/pro-mode/ProModeContent.js:564-578 | Start New Analysis restores exactly the initial state from any reachable report. |
| ProMode.ContinueGuards | ui/app/pro-mode/ProModeContent.js:150-152 | Continue leaves step 1 exactly when a detail level was chosen, and step 2 exactly when a report type was chosen. |
| ProMode.BackStep | ui/app/pro-mode/ProModeContent.js:195-558 | Back moves from step k to k-1 and changes nothing else. |
| ProMode.AnalysisCompletion | ui/app/pro-mode/ProModeContent.js:98-109 | Success moves to step 4 with the analysis. Failure keeps the step and shows the message. Either way loading ends. |
| ProMode.QuestionsCompletion | ui/app/pro-mode/ProModeContent.js:311-322 | Success moves to step 5 with the questions. Failure keeps the step and shows the message. |
| ProMode.ReportCompletion | ui/app/pro-mode/ProModeContent.js:390-401 | Success moves to step 6 with the report. Failure keeps the step and shows the message. |
| ProMode.LoadingEndsAfterRequest | ui/app/pro-mode/ProModeContent.js:107-109 | A request's completion always ends the loading and keeps the invariant. |
| ProMode.RequestReportGuard | ui/app/pro-mode/ProModeContent.js:434 | A report is requested exactly when the number of answers equals the number of questions. |
| ProMode.AnswerSetsOneKey | ui/app/pro-mode/ProModeContent.js:77-82 | Answering sets exactly one answer and leaves the others alone. |
| ProMode.StaleAnswersEnableReport | ui/app/pro-mode/ProModeContent.js:312-313 | An answer kept from an earlier question list enables the report button even though the current question is unanswered. |
| JsObjects.PutAllGetLast | src/lib/providers/ollama.ts:41-53 | After a run of assignments, a key holds its last assigned value, or its earlier value when it is never assigned. |
| Strings.SplitJoin | src/lib/outputParsers/listLineOutputParser.ts:52 | Splitting a join of separator-free pieces gives back the pieces. |
| Strings.TrimIdempotent | src/lib/outputParsers/lineOutputParser.ts:22 | Trimming trimmed text changes nothing. |
| Strings.TrimKeepsNonSpace | src/lib/outputParsers/lineOutputParser.ts:22 | Trimming keeps every non-space character, in order, and is a slice between white-space ends. |
| Strings.Trim | src/lib/outputParsers/lineOutputParser.ts:22 | `trim()`: the result has no white space at either end and is the slice of the text between its leading and trailing white space. |
| Strings.NonSpaceDropSpaces | src/utils/documents.ts:30-31 | Dropping leading white space keeps the non-space characters. |

## Left out

- The answering pipeline (`searchAndAnswer`) and the search agents' internals are parameters. So are the LLM, the embeddings and all networking (model loaders, axios, fetch, SearxNG, Supabase). The prompt texts are referred to by name only.
- Asynchrony is not modelled. `Promise.all` is treated as sequential. The order in which link fetches complete is a parameter of `Documents.GetDocumentsFromLinks`.
- The `setInterval` that sends the `open` signal is modelled as one `signal` message sent when the socket opens.
- src/routes/uploads.ts and src/routes/discover.ts are context, not core. File details are a parameter of `Session.HandleMessage`.
- The following are not modelled: rendering, markdown formatting (`formatMarkdown`), jsPDF page layout, text-to-speech, clipboard, routing, and the time-ago text of the navigation bar.
- String lengths count Unicode scalar values. JavaScript counts UTF-16 code units, so the 20-character limit of the navigation-bar title differs for text outside the Basic Multilingual Plane.
- The following JavaScript object details are not modelled:
  - integer-like keys, which JavaScript enumerates first;
  - keys inherited from `Object.prototype`;
  - the JSON encoding of replies.
- The following are left out: the logger, secrets in the source, timestamps, and the chat id returned by `POST /api/chats`. The latter is the insert's result, and the model answers with the status only.
- `Similarity.ComputeSimilarity`: the cosine measure is the library's, and it is a parameter. Floating point is modelled as exact reals.
- The getters and `updateConfig` of src/config.ts are not part of this model. The settings are a parameter, and the update is returned.
- The fire-and-forget `storeCompetitorData` (page.js:219-250) is not modelled. Only the analysis map it runs next to is modelled.
- The company form never wires `analyzeSelectedCompetitors` to a button. It is modelled as the function it is.
- `ProMode`: a missing `message` in a failed reply shows no error, the same as `null`. The URL input's browser validation is not modelled.
- `Documents.GetDocumentsFromLinks`: states which documents are present, not how many times each occurs.
- `Connection.HandleConnection`: an unusable model selection is reported with `INVALID_MODEL_SELECTED` only when picking the models does not throw. With no provider that has models, the default chat provider is `custom_openai`. Without a key and URL in the query it throws, and the socket is closed without any message (`Connection.NoProvidersClosesSilently`, `Connection.DefaultCustomWithoutKeyCloses`).
- `Session.RunAgent`: the relay's listeners are attached before the database calls. The model sends the relayed events after the handler's own messages, such as the processing error when a database call throws. The real interleaving depends on when the agent emits.
- `Session.HandleMessage`: a throw inside the relay's own `JSON.parse` of an event is not modelled. The events are parsed data.
- `CompanyForm.ParseCompetitors`: any element of the parsed array that is not `null` is a `Record` whose three properties are known by their JSON type and truthiness. A string, number or array element is a `Record` with every property absent. The selection and saving functions take the three properties as strings.
- `ChatRoutes.DeleteChatRoute`: a failing store throws before any write. The partial delete, where the message delete throws after the chat row is gone, is stated by `ChatRoutes.DeleteChatWithFault`.
- `Errors.GetErrorMessage`: an array that carries its own `message` property, and holes in sparse arrays, are not modelled. Nested objects inside an array are rendered as `[object Object]`.

## Findings

| source | as written | input that shows it | evidently intended | confidence | as-written member | corrected member |
|---|---|---|---|---|---|---|
| ui/components/MessageBox.tsx:56-71 | The effect returns early after linking the markers of an answer with sources, so the speech text keeps the raw content with its `[n]` markers. | An assistant message `[1]` with one source: it is spoken as "[1]", not as the empty text. | Speech text stripped of markers for every message, as on the other branch. | not executed | MessageBox.SpeechKeepsMarkers | MessageBox.Effect |

=== FILE: chat_routes.dfy ===
/**
 * The chat-history endpoints under `/api/chats` (src/routes/chats.ts):
 * list, fetch, delete and create. A store access that throws is modelled
 * by passing `Failure` for the store.
 */
module ChatRoutes {
  import opened Wrappers
  import opened Store

  datatype Reply =
    | ChatList(status: nat, chats: seq<Chat>)
    | ChatWithMessages(status: nat, chat: Chat, messages: seq<MessageRow>)
    | Message(status: nat, message: string)
    | ErrorReply(status: nat, error: string)
    | Created(status: nat)

  /** A reply and the store after the request. */
  datatype Outcome = Outcome(reply: Reply, db: Result<Db, string>)

  const ChatNotFound := ErrorReply(404, "Chat not found")

  function Reverse<T>(xs: seq<T>): (r: seq<T>)
    ensures |r| == |xs|
    ensures forall i :: 0 <= i < |xs| ==> r[i] == xs[|xs| - 1 - i]
  {
    if |xs| == 0 then [] else Reverse(xs[1..]) + [xs[0]]
  }

  /** `GET /`: every chat, newest (last inserted) first. */
  function ListChats(db: Result<Db, string>): (r: Reply)
    ensures db.Failure? ==> r == ErrorReply(500, "Failed to get chats")
    ensures db.Success? ==> r.ChatList? && r.status == 200 && |r.chats| == |db.value.chats|
    ensures db.Success? ==> forall i :: 0 <= i < |r.chats| ==> r.chats[i] == db.value.chats[|r.chats| - 1 - i]
  {
    if db.Failure? then ErrorReply(500, "Failed to get chats") else ChatList(200, Reverse(db.value.chats))
  }

  /** Listing shows the chats in insertion order when read back to front. */
  lemma ListTwiceReversed<T>(xs: seq<T>)
    ensures Reverse(Reverse(xs)) == xs
  {
  }

  /** `GET /:id`: the chat and its messages, or 404. */
  function GetChat(db: Result<Db, string>, id: string): (r: Reply)
    ensures db.Failure? ==> r == ErrorReply(500, "Failed to get chat")
    ensures db.Success? && FindChat(db.value, id).None? ==> r == ChatNotFound
    ensures db.Success? && FindChat(db.value, id).Some? ==>
              r.ChatWithMessages? && r.status == 200 && r.chat.id == id && r.chat in db.value.chats
              && (forall m :: m in r.messages <==> m in db.value.messages && m.chatId == id)
    ensures db.Success? && WellFormed(db.value) && r.ChatWithMessages? ==> IdsIncreasing(r.messages)
  {
    if db.Failure? then ErrorReply(500, "Failed to get chat")
    else
      match FindChat(db.value, id)
      case None => ChatNotFound
      case Some(c) => ChatWithMessages(200, c, MessagesOf(db.value, id))
  }

  /** `DELETE /:id`: removes the chat and its messages, or answers 404 and leaves the store alone. */
  function DeleteChatRoute(db: Result<Db, string>, id: string): (r: Outcome)
    ensures db.Failure? ==> r.reply == ErrorReply(500, "Failed to delete chat") && r.db == db
    ensures db.Success? && FindChat(db.value, id).None? ==> r == Outcome(ChatNotFound, db)
    ensures db.Success? && FindChat(db.value, id).Some? ==>
              r.reply == Message(200, "Chat deleted successfully") && r.db == Success(DeleteChat(db.value, id))
  {
    if db.Failure? then Outcome(ErrorReply(500, "Failed to delete chat"), db)
    else if FindChat(db.value, id).None? then Outcome(ChatNotFound, db)
    else Outcome(Message(200, "Chat deleted successfully"), Success(DeleteChat(db.value, id)))
  }

  /** Which of the delete route's three awaited store calls throws, if any. */
  datatype DeleteFault = NoDeleteFault | LookupThrows | ChatDeleteThrows | MessageDeleteThrows

  const DeleteFailed := ErrorReply(500, "Failed to delete chat")

  /**
   * `DELETE /:id` with its awaited calls one by one: the lookup, the chat
   * delete and the message delete. A call that throws writes nothing, but
   * the calls before it stay done, so a throwing message delete answers
   * 500 with the chat row already gone.
   */
  function DeleteChatWithFault(db: Db, id: string, fault: DeleteFault): (r: Outcome)
    ensures fault == NoDeleteFault ==> r == DeleteChatRoute(Success(db), id)
    ensures fault == LookupThrows ==> r == Outcome(DeleteFailed, Success(db))
    ensures fault != LookupThrows && FindChat(db, id).None? ==> r == Outcome(ChatNotFound, Success(db))
    ensures FindChat(db, id).Some? && fault == ChatDeleteThrows ==> r == Outcome(DeleteFailed, Success(db))
    ensures FindChat(db, id).Some? && fault == MessageDeleteThrows ==>
              r.reply == DeleteFailed && r.db.Success? && r.db.value.messages == db.messages
              && (forall c :: c in r.db.value.chats <==> c in db.chats && c.id != id)
  {
    if fault == LookupThrows then Outcome(DeleteFailed, Success(db))
    else if FindChat(db, id).None? then Outcome(ChatNotFound, Success(db))
    else if fault == ChatDeleteThrows then Outcome(DeleteFailed, Success(db))
    else if fault == MessageDeleteThrows then
      Outcome(DeleteFailed, Success(db.(chats := Filter(db.chats, (c: Chat) => c.id != id))))
    else Outcome(Message(200, "Chat deleted successfully"), Success(DeleteChat(db, id)))
  }

  /**
   * When the message delete throws, the chat is no longer found but its
   * messages are still stored.
   */
  lemma OrphanedMessages(db: Db, id: string, m: MessageRow)
    requires FindChat(db, id).Some? && m in db.messages && m.chatId == id
    ensures GetChat(DeleteChatWithFault(db, id, MessageDeleteThrows).db, id) == ChatNotFound
    ensures m in DeleteChatWithFault(db, id, MessageDeleteThrows).db.value.messages
  {
  }

  /** The body of `POST /`; an absent optional field is `None`. */
  datatype NewChatBody = NewChatBody(chatId: string, title: string, focusMode: Option<string>, files: Option<seq<FileDetails>>)

  /** `POST /`: inserts the chat, the focus mode defaulting to `default` and the files to none. */
  function CreateChat(db: Result<Db, string>, body: NewChatBody, now: string): (r: Outcome)
    ensures db.Failure? ==> r.reply == ErrorReply(500, "Failed to create chat")
    ensures db.Success? ==> r.reply == Created(201) && r.db.Success?
    ensures db.Success? ==> r.db.value.chats == db.value.chats + [Chat(body.chatId, body.title, now,
                                  body.focusMode.GetOr("default"), body.files.GetOr([]))]
    ensures db.Success? ==> r.db.value.messages == db.value.messages
  {
    if db.Failure? then Outcome(ErrorReply(500, "Failed to create chat"), db)
    else
      var c := Chat(body.chatId, body.title, now, body.focusMode.GetOr("default"), body.files.GetOr([]));
      Outcome(Created(201), Success(InsertChat(db.value, c)))
  }

  /** A chat created under a fresh id is then found, with the defaults filled in and no messages of its own. */
  lemma CreateThenGet(db: Db, body: NewChatBody, now: string)
    requires FindChat(db, body.chatId).None?
    requires forall m :: m in db.messages ==> m.chatId != body.chatId
    ensures GetChat(CreateChat(Success(db), body, now).db, body.chatId)
            == ChatWithMessages(200, Chat(body.chatId, body.title, now, body.focusMode.GetOr("default"), body.files.GetOr([])), [])
  {
    var db1 := CreateChat(Success(db), body, now).db.value;
    var c := Chat(body.chatId, body.title, now, body.focusMode.GetOr("default"), body.files.GetOr([]));
    assert db1.chats == db.chats + [c];
    FirstAppended(db.chats, ChatId, c);
  }

  /** A row appended under a key no earlier row has is the one found by that key. */
  lemma {:induction false} FirstAppended<T>(xs: seq<T>, key: T -> string, x: T)
    requires forall i :: 0 <= i < |xs| ==> key(xs[i]) != key(x)
    ensures First(xs + [x], key, key(x)) == Some(x)
  {
    if |xs| > 0 {
      assert (xs + [x])[1..] == xs[1..] + [x];
      FirstAppended(xs[1..], key, x);
    } else {
      assert xs + [x] == [x];
    }
  }

  /** After a delete the chat is gone: fetching it answers 404. */
  lemma DeleteThenGet(db: Db, id: string)
    ensures GetChat(DeleteChatRoute(Success(db), id).db, id) == ChatNotFound
  {
  }
}

=== FILE: company_form.dfy ===
/**
 * The client-side logic of the company onboarding form
 * (ui/app/company-form/page.js): the website-analysis precondition, the
 * cleaning and validation of the competitor list an LLM returns, the
 * competitor selection toggle, what "save" writes, and the sequential
 * analysis of the selected competitors. Every network or database call is
 * a parameter; JSON parsing is a parameter too.
 */
module CompanyForm {
  import opened Wrappers
  import opened Strings
  import opened JsObjects

  // ---------------------------------------------------------------------
  // website analysis

  /** The three text inputs; each starts as the empty string. */
  datatype FormData = FormData(companyName: string, industry: string, websiteUrl: string)

  /** The body posted to the analysis service. */
  datatype AnalyzeRequest = AnalyzeRequest(detailLevel: string, websiteUrl: string, companyName: string, industry: string)

  /**
   * A reply of the analysis service: `ok`, the decoded body (`None` for a
   * `null` body) and the body's `message` field.
   */
  datatype ServiceReply = ServiceReply(ok: bool, data: Option<string>, message: Option<string>)

  /** The part of the form's state a step changes. */
  datatype FormState = FormState(step: nat, scraped: Option<Option<string>>, error: string)

  /** A call of the analysis service; `Failure(message)` when the request or decoding throws. */
  type AnalyzeCall = AnalyzeRequest -> Result<ServiceReply, string>

  const RequiredFieldsError := "Company name and website URL are required"

  /** The message of the `TypeError` that reading `message` off a `null` body throws. */
  const NullBodyMessage := "Cannot read properties of null (reading 'message')"

  /** `handleAnalyzeWebsite`: the request it sends, when it sends one. */
  function AnalyzeRequestFor(form: FormData): (r: Option<AnalyzeRequest>)
    ensures r.None? <==> form.companyName == "" || form.websiteUrl == ""
    ensures r.Some? ==> r.value == AnalyzeRequest("quick", form.websiteUrl, form.companyName, form.industry)
  {
    if form.companyName == "" || form.websiteUrl == "" then None
    else Some(AnalyzeRequest("quick", form.websiteUrl, form.companyName, form.industry))
  }

  /**
   * `handleAnalyzeWebsite`: a missing name or url is an error and no
   * request; a successful reply moves to step 2 with the data; anything
   * else is an error and the step stays. A failed reply with a `null` body
   * throws while reading its message, and that error is the one shown.
   */
  function AnalyzeWebsite(form: FormData, st: FormState, call: AnalyzeCall): (r: FormState)
    ensures AnalyzeRequestFor(form).None? ==> r == st.(error := RequiredFieldsError)
    ensures r.step == 2 || r.step == st.step
    ensures r.step == 2 && st.step != 2 ==>
              (AnalyzeRequestFor(form).Some? && call(AnalyzeRequestFor(form).value).Success?
               && call(AnalyzeRequestFor(form).value).value.ok)
    ensures AnalyzeRequestFor(form).Some? && call(AnalyzeRequestFor(form).value).Success?
              && call(AnalyzeRequestFor(form).value).value.ok ==>
              r == FormState(2, Some(call(AnalyzeRequestFor(form).value).value.data), "")
    ensures AnalyzeRequestFor(form).Some? && call(AnalyzeRequestFor(form).value).Success?
              && !call(AnalyzeRequestFor(form).value).value.ok ==>
              r == st.(error := "Failed to analyze website: " + ReplyErrorMessage(call(AnalyzeRequestFor(form).value).value))
    ensures AnalyzeRequestFor(form).Some? && call(AnalyzeRequestFor(form).value).Failure? ==>
              r == st.(error := "Failed to analyze website: " + call(AnalyzeRequestFor(form).value).error)
  {
    match AnalyzeRequestFor(form)
    case None => st.(error := RequiredFieldsError)
    case Some(req) =>
      match call(req)
      case Failure(msg) => st.(error := "Failed to analyze website: " + msg)
      case Success(reply) =>
        if !reply.ok then st.(error := "Failed to analyze website: " + ReplyErrorMessage(reply))
        else FormState(2, Some(reply.data), "")
  }

  /**
   * The message of the error thrown for a reply that is not `ok`:
   * `data.message || 'Failed to analyze website'`, where reading the field
   * of a `null` body throws a `TypeError` first.
   */
  function ReplyErrorMessage(reply: ServiceReply): (m: string)
    ensures reply.data.None? ==> m == NullBodyMessage
    ensures reply.data.Some? && Truthy(reply.message) ==> m == reply.message.value
    ensures reply.data.Some? && !Truthy(reply.message) ==> m == "Failed to analyze website"
  {
    if reply.data.None? then NullBodyMessage
    else if Truthy(reply.message) then reply.message.value
    else "Failed to analyze website"
  }

  // ---------------------------------------------------------------------
  // the competitor list returned by the LLM

  /** `/```json\n?|\n?```/g` matches at the start of `s`; the length it removes. */
  function FenceAt(s: string): nat {
    if StartsWith(s, "```json") then
      if |s| > 7 && s[7] == '\n' then 8 else 7
    else if StartsWith(s, "\n```") then 4
    else if StartsWith(s, "```") then 3
    else 0
  }

  /** `content.replace(/```json\n?|\n?```/g, '')`, scanning left to right. */
  function RemoveFences(s: string): (r: string)
    ensures |r| <= |s|
    decreases |s|
  {
    if |s| == 0 then []
    else if FenceAt(s) > 0 then
      assert FenceAt(s) <= |s|;
      RemoveFences(s[FenceAt(s)..])
    else [s[0]] + RemoveFences(s[1..])
  }

  /** The cleaned reply: fences removed, then trimmed. */
  function CleanContent(content: string): (r: string)
    ensures IsTrimmed(r)
  {
    Trim(RemoveFences(content))
  }

  /** A prefix differs from `s` once one of its characters does. */
  lemma NotStartsWith(s: string, prefix: string, k: nat)
    requires k < |prefix| && k < |s| && s[k] != prefix[k]
    ensures !StartsWith(s, prefix)
  {
    if |prefix| <= |s| {
      assert s[..|prefix|][k] == s[k];
    }
  }

  /** No fence starts at a character other than a backtick, or a newline not followed by one. */
  lemma NoFenceAt(s: string)
    requires |s| > 0 && s[0] != '`'
    requires s[0] == '\n' && |s| >= 2 ==> s[1] != '`'
    ensures FenceAt(s) == 0
  {
    NotStartsWith(s, "```json", 0);
    NotStartsWith(s, "```", 0);
    if s[0] != '\n' {
      NotStartsWith(s, "\n```", 0);
    } else if |s| >= 2 {
      NotStartsWith(s, "\n```", 1);
    }
  }

  /** Text without a backtick has no fence, so cleaning only trims it. */
  lemma {:induction false} NoBacktickUnchanged(s: string)
    requires '`' !in s
    ensures RemoveFences(s) == s
    decreases |s|
  {
    if |s| > 0 {
      assert s[0] in s;
      if |s| >= 2 { assert s[1] in s; }
      NoFenceAt(s);
      NoBacktickUnchanged(s[1..]);
      assert s == [s[0]] + s[1..];
    }
  }

  /** A reply wrapped in a ```json fence is unwrapped to its trimmed body. */
  lemma FencedJsonUnwrapped(body: string)
    requires '`' !in body
    ensures CleanContent("```json\n" + body + "\n```") == Trim(body)
  {
    var s := "```json\n" + body + "\n```";
    assert s[..7] == "```json";
    assert FenceAt(s) == 8;
    assert s[8..] == body + "\n```";
    BodyThenFence(body);
  }

  lemma {:induction false} BodyThenFence(body: string)
    requires '`' !in body
    ensures RemoveFences(body + "\n```") == body
    decreases |body|
  {
    var s := body + "\n```";
    if |body| == 0 {
      assert s == "\n```";
      assert s[..4] == "\n```";
      assert FenceAt(s) == 4;
      assert s[4..] == [];
    } else {
      assert s[0] == body[0] && body[0] in body;
      assert s[1] != '`' by {
        if |body| >= 2 { assert s[1] == body[1] && body[1] in body; } else { assert s[1] == '\n'; }
      }
      NoFenceAt(s);
      assert s[1..] == body[1..] + "\n```";
      BodyThenFence(body[1..]);
    }
  }

  /**
   * A property of a parsed item: missing, a string, or any other JSON value
   * (number, boolean, object, array, `null`), known by its truthiness.
   */
  datatype Field = Absent | Text(s: string) | NonText(truthy: bool)

  predicate FieldTruthy(f: Field) {
    match f
    case Absent => false
    case Text(s) => s != ""
    case NonText(t) => t
  }

  /**
   * One element of the parsed array: `null`, or a value whose three
   * properties are read. A string, number, boolean or array element has
   * none of them, so it is a `Record` with every field `Absent`.
   */
  datatype JsonItem = NullItem | Record(name: Field, url: Field, comparison: Field)

  /** What `JSON.parse` gives: an array of items, some other value, or a throw (`None` from the parser). */
  datatype Parsed = ArrayOf(items: seq<JsonItem>) | NotArray

  /** `comp.name && comp.url && comp.comparison`, for an element that is not `null`. */
  predicate IsValidCompetitor(c: JsonItem) {
    c.Record? && FieldTruthy(c.name) && FieldTruthy(c.url) && FieldTruthy(c.comparison)
  }

  /** `competitorData.filter(...)` over an array without `null` elements. */
  function ValidCompetitors(items: seq<JsonItem>): (r: seq<JsonItem>)
    ensures forall c :: c in r <==> c in items && IsValidCompetitor(c)
    ensures |r| <= |items|
  {
    if |items| == 0 then []
    else
      var t := ValidCompetitors(items[1..]);
      assert forall c :: c in items <==> c == items[0] || c in items[1..];
      if IsValidCompetitor(items[0]) then [items[0]] + t else t
  }

  /** The filter keeps order: it is the identity on an all-valid list and drops invalid items wherever they are. */
  lemma {:induction false} ValidCompetitorsOrder(a: seq<JsonItem>, b: seq<JsonItem>)
    ensures ValidCompetitors(a + b) == ValidCompetitors(a) + ValidCompetitors(b)
    decreases |a|
  {
    if |a| > 0 {
      assert (a + b)[1..] == a[1..] + b;
      ValidCompetitorsOrder(a[1..], b);
    } else {
      assert a + b == b;
    }
  }

  lemma {:induction false} AllValidKept(items: seq<JsonItem>)
    requires forall i :: 0 <= i < |items| ==> IsValidCompetitor(items[i])
    ensures ValidCompetitors(items) == items
  {
    if |items| > 0 {
      AllValidKept(items[1..]);
      assert items == [items[0]] + items[1..];
    }
  }

  datatype CompetitorsOutcome = Found(competitors: seq<JsonItem>) | CompetitorsError(message: string)

  const ParseFailed := "Failed to parse competitor data. Please try again."

  /**
   * The cleaned reply parsed: an array gives its valid entries; anything
   * else, a throw, or a `null` element (reading a property of which throws
   * inside the filter) is unparsable.
   */
  function ParseCompetitors(cleaned: string, parse: string -> Option<Parsed>): (r: CompetitorsOutcome)
    ensures r.Found? <==> parse(cleaned).Some? && parse(cleaned).value.ArrayOf? && NullItem !in parse(cleaned).value.items
    ensures r.Found? ==> r.competitors == ValidCompetitors(parse(cleaned).value.items)
    ensures r.CompetitorsError? ==> r.message == ParseFailed
  {
    var parsed := parse(cleaned);
    if parsed.Some? && parsed.value.ArrayOf? && NullItem !in parsed.value.items then Found(ValidCompetitors(parsed.value.items))
    else CompetitorsError(ParseFailed)
  }

  /**
   * Truthiness is all the filter asks for: an item whose name is a number
   * is kept, and an array with a `null` element is unparsable.
   */
  lemma FilterByTruthiness(parse: string -> Option<Parsed>, cleaned: string)
    ensures ValidCompetitors([Record(NonText(true), Text("u"), Text("c"))]) == [Record(NonText(true), Text("u"), Text("c"))]
    ensures ValidCompetitors([Record(Text("n"), Text(""), Text("c"))]) == []
    ensures parse(cleaned) == Some(ArrayOf([Record(Text("n"), Text("u"), Text("c")), NullItem])) ==>
              ParseCompetitors(cleaned, parse) == CompetitorsError(ParseFailed)
  {
    var ok := Record(NonText(true), Text("u"), Text("c"));
    assert IsValidCompetitor(ok);
    assert ValidCompetitors([ok]) == [ok] + ValidCompetitors([]);
    var bad := Record(Text("n"), Text(""), Text("c"));
    assert !IsValidCompetitor(bad);
    assert ValidCompetitors([bad]) == ValidCompetitors([]);
  }

  /**
   * `analyzeCompetitors` once the LLM replied (`Failure` when the request
   * throws): the content, with fences removed and trimmed, is parsed.
   */
  function AnalyzeCompetitors(reply: Result<string, string>, parse: string -> Option<Parsed>): (r: CompetitorsOutcome)
    ensures reply.Failure? ==> r == CompetitorsError("Failed to analyze competitors: " + reply.error)
    ensures reply.Success? ==> r == ParseCompetitors(CleanContent(reply.value), parse)
  {
    match reply
    case Failure(msg) => CompetitorsError("Failed to analyze competitors: " + msg)
    case Success(content) => ParseCompetitors(CleanContent(content), parse)
  }

  // ---------------------------------------------------------------------
  // selection

  /** A competitor shown in the list; all three fields are present after validation. */
  datatype Competitor = Competitor(name: string, url: string, comparison: string)

  predicate Selected(sel: seq<Competitor>, url: string) {
    exists i :: 0 <= i < |sel| && sel[i].url == url
  }

  /** `prev.filter(c => c.url !== url)`. */
  function WithoutUrl(sel: seq<Competitor>, url: string): (r: seq<Competitor>)
    ensures forall c :: c in r <==> c in sel && c.url != url
    ensures !Selected(r, url)
    ensures |r| <= |sel|
  {
    if |sel| == 0 then []
    else
      var t := WithoutUrl(sel[1..], url);
      assert forall c :: c in sel <==> c == sel[0] || c in sel[1..];
      if sel[0].url != url then [sel[0]] + t else t
  }

  /** `toggleCompetitorSelection`: drops every entry with the url, or appends the competitor. */
  function Toggle(sel: seq<Competitor>, c: Competitor): (r: seq<Competitor>)
    ensures Selected(sel, c.url) ==> !Selected(r, c.url) && (forall x :: x in r <==> x in sel && x.url != c.url)
    ensures Selected(sel, c.url) ==> r == WithoutUrl(sel, c.url)
    ensures !Selected(sel, c.url) ==> r == sel + [c]
  {
    if Selected(sel, c.url) then WithoutUrl(sel, c.url) else sel + [c]
  }

  /** The filter keeps order and repeats: it works piecewise over a concatenation. */
  lemma {:induction false} WithoutUrlOrder(a: seq<Competitor>, b: seq<Competitor>, url: string)
    ensures WithoutUrl(a + b, url) == WithoutUrl(a, url) + WithoutUrl(b, url)
    decreases |a|
  {
    if |a| > 0 {
      var t := a[1..];
      var h := if a[0].url != url then [a[0]] else [];
      var whole, rest, front, back, left := WithoutUrl(a + b, url), WithoutUrl(t + b, url),
                                            WithoutUrl(t, url), WithoutUrl(b, url), WithoutUrl(a, url);
      assert whole == h + rest by {
        WithoutUrlFront(a + b, url);
        ConcatTail(a, b);
      }
      assert rest == front + back by {
        WithoutUrlOrder(t, b, url);
      }
      assert left == h + front by {
        WithoutUrlFront(a, url);
      }
      JoinPieces(whole, h, rest, front, back, left);
    } else {
      assert a + b == b;
    }
  }

  /** One unfolding of the filter at the head of a non-empty list. */
  lemma WithoutUrlFront(s: seq<Competitor>, url: string)
    requires |s| > 0
    ensures WithoutUrl(s, url) == (if s[0].url != url then [s[0]] else []) + WithoutUrl(s[1..], url)
  {
  }

  lemma ConcatTail<T>(a: seq<T>, b: seq<T>)
    requires |a| > 0
    ensures (a + b)[0] == a[0] && (a + b)[1..] == a[1..] + b
  {
  }

  /** Regrouping step of the induction above, kept apart from the filter's own facts. */
  lemma JoinPieces<T>(whole: seq<T>, h: seq<T>, rest: seq<T>, front: seq<T>, back: seq<T>, left: seq<T>)
    requires whole == h + rest && rest == front + back && left == h + front
    ensures whole == left + back
  {
  }

  lemma {:induction false} WithoutAbsentUrl(sel: seq<Competitor>, url: string)
    requires !Selected(sel, url)
    ensures WithoutUrl(sel, url) == sel
  {
    if |sel| > 0 {
      assert sel[0].url != url;
      forall i | 0 <= i < |sel| - 1 ensures sel[1..][i].url != url {
        assert sel[1..][i] == sel[i + 1];
      }
      WithoutAbsentUrl(sel[1..], url);
      assert sel == [sel[0]] + sel[1..];
    }
  }

  lemma {:induction false} WithoutUrlAppended(sel: seq<Competitor>, c: Competitor)
    ensures WithoutUrl(sel + [c], c.url) == WithoutUrl(sel, c.url)
    decreases |sel|
  {
    if |sel| > 0 {
      assert (sel + [c])[1..] == sel[1..] + [c];
      WithoutUrlAppended(sel[1..], c);
    } else {
      assert sel + [c] == [c];
      assert [c][1..] == [];
    }
  }

  /** Toggling a competitor that is not selected, twice, gives back the selection. */
  lemma ToggleTwice(sel: seq<Competitor>, c: Competitor)
    requires !Selected(sel, c.url)
    ensures Toggle(Toggle(sel, c), c) == sel
  {
    assert (sel + [c])[|sel|].url == c.url;
    WithoutUrlAppended(sel, c);
    WithoutAbsentUrl(sel, c.url);
  }

  // ---------------------------------------------------------------------
  // saving

  /** The row written to the company table; the JSON `data` and the timestamp are not modelled. */
  datatype CompanyRow = CompanyRow(name: string, industrie: string, website: string)

  /** A row of the competitors table; `data` is the analysis stored for the competitor's url. */
  datatype CompetitorRow = CompetitorRow(name: string, website: string, data: Option<string>, comparison: string)

  datatype SaveOutcome = SaveOutcome(company: CompanyRow, competitorRows: Option<seq<CompetitorRow>>, error: Option<string>, navigated: bool)

  function CompetitorRows(sel: seq<Competitor>, analysis: Obj<string>): (rows: seq<CompetitorRow>)
    ensures |rows| == |sel|
    ensures forall i :: 0 <= i < |sel| ==>
              rows[i] == CompetitorRow(sel[i].name, sel[i].url, Get(analysis, sel[i].url), sel[i].comparison)
  {
    seq(|sel|, i requires 0 <= i < |sel| => CompetitorRow(sel[i].name, sel[i].url, Get(analysis, sel[i].url), sel[i].comparison))
  }

  /**
   * `handleSaveAll`: the company row with trimmed fields is inserted;
   * then, only when competitors are selected, one competitor row each;
   * the first insert error stops it, otherwise the page moves on.
   */
  function SaveAll(form: FormData, sel: seq<Competitor>, analysis: Obj<string>,
                   insertCompany: CompanyRow -> Option<string>,
                   insertCompetitors: seq<CompetitorRow> -> Option<string>): (r: SaveOutcome)
    ensures r.company == CompanyRow(Trim(form.companyName), Trim(form.industry), Trim(form.websiteUrl))
    ensures r.competitorRows.Some? <==> insertCompany(r.company).None? && |sel| > 0
    ensures r.competitorRows.Some? ==> r.competitorRows.value == CompetitorRows(sel, analysis)
    ensures r.navigated <==> r.error.None?
    ensures r.error.Some? ==> exists e :: r.error.value == "Failed to save data: " + e
    ensures insertCompany(r.company).Some? ==> r.error == Some("Failed to save data: " + insertCompany(r.company).value)
    ensures insertCompany(r.company).None? && |sel| > 0 && insertCompetitors(CompetitorRows(sel, analysis)).Some? ==>
              r.error == Some("Failed to save data: " + insertCompetitors(CompetitorRows(sel, analysis)).value)
    ensures insertCompany(r.company).None? && (|sel| == 0 || insertCompetitors(CompetitorRows(sel, analysis)).None?) ==>
              r.error.None?
  {
    var company := CompanyRow(Trim(form.companyName), Trim(form.industry), Trim(form.websiteUrl));
    match insertCompany(company)
    case Some(e) => SaveOutcome(company, None, Some("Failed to save data: " + e), false)
    case None =>
      if |sel| == 0 then SaveOutcome(company, None, None, true)
      else
        var rows := CompetitorRows(sel, analysis);
        match insertCompetitors(rows)
        case Some(e) => SaveOutcome(company, Some(rows), Some("Failed to save data: " + e), false)
        case None => SaveOutcome(company, Some(rows), None, true)
  }
  /** The page moves on exactly when the company insert and, with competitors selected, the competitor insert both succeed. */
  lemma SaveAllNavigates(form: FormData, sel: seq<Competitor>, analysis: Obj<string>,
                         insertCompany: CompanyRow -> Option<string>,
                         insertCompetitors: seq<CompetitorRow> -> Option<string>)
    ensures var company := CompanyRow(Trim(form.companyName), Trim(form.industry), Trim(form.websiteUrl));
            SaveAll(form, sel, analysis, insertCompany, insertCompetitors).navigated
            <==> insertCompany(company).None? && (|sel| == 0 || insertCompetitors(CompetitorRows(sel, analysis)).None?)
  {
    var r := SaveAll(form, sel, analysis, insertCompany, insertCompetitors);
    assert r.company == CompanyRow(Trim(form.companyName), Trim(form.industry), Trim(form.websiteUrl));
  }


  // ---------------------------------------------------------------------
  // analysing the selected competitors

  function CompetitorRequest(c: Competitor, form: FormData): AnalyzeRequest {
    AnalyzeRequest("quick", c.url, c.name, form.industry)
  }

  /** The call succeeded with an `ok` reply. */
  predicate Analysed(call: AnalyzeCall, c: Competitor, form: FormData) {
    call(CompetitorRequest(c, form)).Success? && call(CompetitorRequest(c, form)).value.ok
  }

  /** Every competitor of `sel` was analysed. */
  predicate AllAnalysed(call: AnalyzeCall, sel: seq<Competitor>, form: FormData) {
    forall i :: 0 <= i < |sel| ==> Analysed(call, sel[i], form)
  }

  /** What is stored for an analysed competitor: the reply's `data`, `null` when absent. */
  function AnalysisOf(call: AnalyzeCall, c: Competitor, form: FormData): string
    requires Analysed(call, c, form)
  {
    call(CompetitorRequest(c, form)).value.data.GetOr("null")
  }

  /** `setCompetitorAnalysis(prev => ({ ...prev, [competitor.url]: data }))`. */
  function StoreOne(analysis: Obj<string>, c: Competitor, call: AnalyzeCall, form: FormData): Obj<string>
    requires Analysed(call, c, form)
  {
    Put(analysis, c.url, AnalysisOf(call, c, form))
  }

  /** The analysis map after storing each competitor's reply in order. */
  function Stored(analysis: Obj<string>, sel: seq<Competitor>, call: AnalyzeCall, form: FormData): Obj<string>
    requires AllAnalysed(call, sel, form)
    decreases |sel|
  {
    if |sel| == 0 then analysis
    else
      assert Analysed(call, sel[0], form);
      Stored(StoreOne(analysis, sel[0], call, form), sel[1..], call, form)
  }

  /** One iteration's request: the data to store, or the message of the error it throws. */
  function AnalyzeOne(call: AnalyzeCall, c: Competitor, form: FormData): (r: Result<string, string>)
    ensures r.Success? <==> Analysed(call, c, form)
    ensures r.Success? ==> r.value == AnalysisOf(call, c, form)
    ensures r.Failure? && call(CompetitorRequest(c, form)).Failure? ==> r.error == call(CompetitorRequest(c, form)).error
    ensures r.Failure? && call(CompetitorRequest(c, form)).Success? ==> r.error == "Failed to analyze " + c.name + "'s website"
  {
    var reply := call(CompetitorRequest(c, form));
    if reply.Failure? then Failure(reply.error)
    else if !reply.value.ok then Failure("Failed to analyze " + c.name + "'s website")
    else Success(reply.value.data.GetOr("null"))
  }

  /**
   * `analyzeSelectedCompetitors`: the competitors are analysed one at a
   * time in selection order, each reply stored under its url; the first
   * failure stops the loop with an error naming that competitor.
   * `done` is the number of competitors analysed.
   */
  method AnalyzeSelected(sel: seq<Competitor>, analysis: Obj<string>, call: AnalyzeCall, form: FormData)
    returns (result: Obj<string>, done: nat, error: Option<string>)
    ensures done <= |sel|
    ensures AllAnalysed(call, sel[..done], form)
    ensures error.None? <==> done == |sel|
    ensures error.Some? ==> !Analysed(call, sel[done], form)
    ensures error.Some? ==> error.value == "Failed to analyze competitor websites: " + AnalyzeOne(call, sel[done], form).error
    ensures result == Stored(analysis, sel[..done], call, form)
  {
    result, done, error := analysis, 0, None;
    while done < |sel|
      invariant done <= |sel|
      invariant AllAnalysed(call, sel[..done], form)
      invariant result == Stored(analysis, sel[..done], call, form)
    {
      var one := AnalyzeOne(call, sel[done], form);
      if one.Failure? {
        error := Some("Failed to analyze competitor websites: " + one.error);
        return;
      }
      PrefixStep(analysis, sel, done, call, form);
      result := StoreOne(result, sel[done], call, form);
      done := done + 1;
    }
  }

  /** The loop's step: one more competitor analysed extends the stored prefix by one. */
  lemma PrefixStep(analysis: Obj<string>, sel: seq<Competitor>, k: nat, call: AnalyzeCall, form: FormData)
    requires k < |sel| && AllAnalysed(call, sel[..k], form) && Analysed(call, sel[k], form)
    ensures AllAnalysed(call, sel[..k + 1], form)
    ensures Stored(analysis, sel[..k + 1], call, form) == StoreOne(Stored(analysis, sel[..k], call, form), sel[k], call, form)
  {
    assert sel[..k + 1] == sel[..k] + [sel[k]];
    StoredSnoc(analysis, sel[..k], sel[k], call, form);
  }

  lemma AllAnalysedSnoc(call: AnalyzeCall, sel: seq<Competitor>, c: Competitor, form: FormData)
    requires AllAnalysed(call, sel, form) && Analysed(call, c, form)
    ensures AllAnalysed(call, sel + [c], form)
  {
    forall i | 0 <= i < |sel + [c]| ensures Analysed(call, (sel + [c])[i], form) {
      if i < |sel| { assert (sel + [c])[i] == sel[i]; }
    }
  }

  /** Storing one more reply extends the stored list by one. */
  lemma {:induction false} StoredSnoc(analysis: Obj<string>, sel: seq<Competitor>, c: Competitor, call: AnalyzeCall, form: FormData)
    requires AllAnalysed(call, sel, form) && Analysed(call, c, form)
    ensures AllAnalysed(call, sel + [c], form)
    ensures Stored(analysis, sel + [c], call, form) == StoreOne(Stored(analysis, sel, call, form), c, call, form)
    decreases |sel|
  {
    AllAnalysedSnoc(call, sel, c, form);
    if |sel| == 0 {
      assert sel + [c] == [c];
      assert [c][1..] == [];
    } else {
      var s := sel + [c];
      assert s[0] == sel[0] && Analysed(call, sel[0], form);
      var a1 := StoreOne(analysis, sel[0], call, form);
      assert s[1..] == sel[1..] + [c];
      assert AllAnalysed(call, sel[1..], form) by {
        forall i | 0 <= i < |sel[1..]| ensures Analysed(call, sel[1..][i], form) { assert sel[1..][i] == sel[i + 1]; }
      }
      assert Stored(analysis, s, call, form) == Stored(a1, s[1..], call, form);
      assert Stored(analysis, sel, call, form) == Stored(a1, sel[1..], call, form);
      StoredSnoc(a1, sel[1..], c, call, form);
    }
  }

  /** Each competitor analysed ends up with its reply in the map. */
  lemma {:induction false} StoredHas(analysis: Obj<string>, sel: seq<Competitor>, call: AnalyzeCall, form: FormData, j: nat)
    requires AllAnalysed(call, sel, form)
    requires j < |sel| && forall i :: j < i < |sel| ==> sel[i].url != sel[j].url
    ensures Get(Stored(analysis, sel, call, form), sel[j].url) == Some(AnalysisOf(call, sel[j], form))
    decreases |sel|
  {
    assert Analysed(call, sel[0], form);
    var a1 := Put(analysis, sel[0].url, AnalysisOf(call, sel[0], form));
    if j == 0 {
      StoredKeeps(a1, sel[1..], call, form, sel[0].url);
    } else {
      StoredHas(a1, sel[1..], call, form, j - 1);
    }
  }

  /** A url none of the competitors has keeps its entry. */
  lemma {:induction false} StoredKeeps(analysis: Obj<string>, sel: seq<Competitor>, call: AnalyzeCall, form: FormData, url: string)
    requires AllAnalysed(call, sel, form)
    requires forall i :: 0 <= i < |sel| ==> sel[i].url != url
    ensures Get(Stored(analysis, sel, call, form), url) == Get(analysis, url)
    decreases |sel|
  {
    if |sel| > 0 {
      assert Analysed(call, sel[0], form);
      var a1 := Put(analysis, sel[0].url, AnalysisOf(call, sel[0], form));
      StoredKeeps(a1, sel[1..], call, form, url);
    }
  }
}

=== FILE: config_route.dfy ===
/**
 * `GET` and `POST /api/config` (src/routes/config.ts): the settings page's
 * view of the model catalogue and the API keys, and the update it posts
 * back. The settings getters and `updateConfig` live in src/config.ts,
 * which is not part of this model: the getters' values are a parameter
 * and the update is returned rather than written.
 */
module ConfigRoute {
  import opened Wrappers
  import opened JsObjects
  import opened Providers

  /** `{ name, displayName }` of one model. */
  datatype ModelInfo = ModelInfo(name: string, displayName: string)

  /** What the settings getters return; `None` for `undefined`. */
  datatype Settings = Settings(
    openaiApiKey: Option<string>, ollamaApiUrl: Option<string>, anthropicApiKey: Option<string>,
    groqApiKey: Option<string>, geminiApiKey: Option<string>)

  datatype ConfigView = ConfigView(
    chatModelProviders: Obj<seq<ModelInfo>>, embeddingModelProviders: Obj<seq<ModelInfo>>, settings: Settings)

  datatype Reply =
    | ConfigJson(config: ConfigView)
    | Message(status: nat, message: string)
    | ErrorReply(status: nat, error: string)

  /** `Object.keys(models).map(model => ({ name: model, displayName: models[model].displayName }))`. */
  function Infos(models: ModelProvider): (r: seq<ModelInfo>)
    ensures |r| == |models|
    ensures forall i :: 0 <= i < |r| ==> r[i].name == Keys(models)[i]
    ensures ValidObj(models) ==> forall i :: 0 <= i < |r| ==>
              (Get(models, r[i].name).Some? && Get(models, r[i].name).value.displayName == r[i].displayName)
  {
    forall i | 0 <= i < |models| && ValidObj(models) ensures Get(models, models[i].0) == Some(models[i].1) {
      GetAt(models, i);
    }
    seq(|models|, i requires 0 <= i < |models| => ModelInfo(models[i].0, models[i].1.displayName))
  }

  /** The `for ... in` loop: each provider assigned its model list. */
  function Catalogue(registry: Obj<ModelProvider>): Obj<seq<ModelInfo>> {
    PutAll([], MapValues(registry, Infos))
  }

  /** `GET /`: the catalogue of both registries and the five settings; a throw is a 500. */
  function GetConfig(chatsR: Result<Obj<ModelProvider>, string>, embsR: Result<Obj<ModelProvider>, string>, settings: Settings): (r: Reply)
    ensures r.ErrorReply? <==> chatsR.Failure? || embsR.Failure?
    ensures r.ErrorReply? ==> r == ErrorReply(500, "Failed to get config")
    ensures r.ConfigJson? ==> r.config.settings == settings
  {
    if chatsR.Failure? || embsR.Failure? then ErrorReply(500, "Failed to get config")
    else ConfigJson(ConfigView(Catalogue(chatsR.value), Catalogue(embsR.value), settings))
  }

  function HandleGetConfig(chatLoad: Loader, embLoad: Loader, settings: Settings): (r: Reply)
    ensures r.ConfigJson? <==> GetAvailableChatModelProviders(chatLoad).Success? && GetAvailableEmbeddingModelProviders(embLoad).Success?
  {
    GetConfig(GetAvailableChatModelProviders(chatLoad), GetAvailableEmbeddingModelProviders(embLoad), settings)
  }

  /** The catalogue keeps the registry's providers in order, each with the list of its models. */
  lemma CatalogueGet(registry: Obj<ModelProvider>, p: string)
    requires ValidObj(registry)
    ensures Keys(Catalogue(registry)) == Keys(registry)
    ensures Get(Catalogue(registry), p) == if HasKey(registry, p) then Some(Infos(Get(registry, p).value)) else None
  {
    CopyLoop(MapValues(registry, Infos));
    MapValuesGet(registry, Infos, p);
  }

  /**
   * Every chat model a loaded provider lists appears in the settings view
   * under its provider, by name, with its display name.
   */
  lemma ConfigListsModel(chatLoad: Loader, embLoad: Loader, settings: Settings, p: string, m: string)
    requires HandleGetConfig(chatLoad, embLoad, settings).ConfigJson?
    requires p in ChatProviderNames && |chatLoad(p).value| > 0 && ValidObj(chatLoad(p).value) && HasKey(chatLoad(p).value, m)
    ensures HasKey(HandleGetConfig(chatLoad, embLoad, settings).config.chatModelProviders, p)
    ensures exists info :: info in Get(HandleGetConfig(chatLoad, embLoad, settings).config.chatModelProviders, p).value
              && info == ModelInfo(m, Get(chatLoad(p).value, m).value.displayName)
  {
    var models := chatLoad(p).value;
    CatalogueGet(GetAvailableChatModelProviders(chatLoad).value, p);
    var i :| 0 <= i < |Keys(models)| && Keys(models)[i] == m;
    var infos := Infos(models);
    assert infos[i].name == m;
    assert infos[i] in infos;
  }

  /** The body of `POST /`; `None` for a missing field. */
  datatype ConfigBody = ConfigBody(
    openaiApiKey: Option<string>, groqApiKey: Option<string>, anthropicApiKey: Option<string>,
    geminiApiKey: Option<string>, ollamaApiUrl: Option<string>)

  datatype ApiKeys = ApiKeys(openai: Option<string>, groq: Option<string>, anthropic: Option<string>, gemini: Option<string>)
  datatype ApiEndpoints = ApiEndpoints(ollama: Option<string>)
  /** The object handed to `updateConfig`. */
  datatype UpdatedConfig = UpdatedConfig(apiKeys: ApiKeys, apiEndpoints: ApiEndpoints)

  /** `POST /`: the update passed to `updateConfig`, and the reply; nothing in the body is checked. */
  function PostConfig(body: ConfigBody): (r: (UpdatedConfig, Reply))
    ensures r.1 == Message(200, "Config updated")
    ensures r.0.apiKeys.openai == body.openaiApiKey && r.0.apiKeys.groq == body.groqApiKey
    ensures r.0.apiKeys.anthropic == body.anthropicApiKey && r.0.apiKeys.gemini == body.geminiApiKey
    ensures r.0.apiEndpoints.ollama == body.ollamaApiUrl
  {
    (UpdatedConfig(ApiKeys(body.openaiApiKey, body.groqApiKey, body.anthropicApiKey, body.geminiApiKey),
                   ApiEndpoints(body.ollamaApiUrl)),
     Message(200, "Config updated"))
  }

  /** The settings an update holds, each read from the section and key its getter uses. */
  function SettingsOf(u: UpdatedConfig): Settings {
    Settings(u.apiKeys.openai, u.apiEndpoints.ollama, u.apiKeys.anthropic, u.apiKeys.groq, u.apiKeys.gemini)
  }

  /** The body the settings page sends back for the settings `GET` showed. */
  function BodyOf(s: Settings): ConfigBody {
    ConfigBody(s.openaiApiKey, s.groqApiKey, s.anthropicApiKey, s.geminiApiKey, s.ollamaApiUrl)
  }

  /**
   * Posting back what `GET` showed writes those same settings: each of the
   * five fields lands under the section and key it is read from.
   */
  lemma PostBackRoundTrip(view: ConfigView)
    ensures SettingsOf(PostConfig(BodyOf(view.settings)).0) == view.settings
  {
  }

  /** Conversely, reading back an update posts the very same update again. */
  lemma PostOfReadBack(body: ConfigBody)
    ensures BodyOf(SettingsOf(PostConfig(body).0)) == body
  {
  }
}

=== FILE: connection.dfy ===
/**
 * The WebSocket connection handler (src/websocket/connectionManager.ts):
 * how `handleConnection` picks the chat and embedding models from the
 * connection URL's query parameters and the provider registry, and what
 * the client sees when that fails; and the `ConnectionManager` class.
 */
module Connection {
  import opened Wrappers
  import opened JsObjects
  import opened Providers
  import opened ModelSelection
  import opened Session

  /** The query parameters of the connection URL; `None` when absent. */
  datatype ConnParams = ConnParams(
    chatModelProvider: Option<string>, chatModel: Option<string>,
    embeddingModelProvider: Option<string>, embeddingModel: Option<string>,
    openAIApiKey: Option<string>, openAIBaseURL: Option<string>)

  const NoParams := ConnParams(None, None, None, None, None, None)

  const InvalidModelSelected :=
    ErrorOut("Invalid LLM or embeddings model selected, please refresh the page and try again.", "INVALID_MODEL_SELECTED")

  const CustomOpenAITemperature := 0.7

  /**
   * What the connection ends as: closed, after the messages sent; or open,
   * with the `signal`/`open` message sent once and incoming frames handed to
   * the message handler with the resolved models.
   */
  datatype ConnectionOutcome =
    | Closed(sent: seq<Outbound>)
    | Open(llm: Llm, embeddings: ModelHandle, sent: seq<Outbound>)

  /** The chat model: a listed one, a custom OpenAI-compatible one, none (`Success(None)`), or a throw. */
  function ChooseLlm(chats: Obj<ModelProvider>, provider: Option<string>, model: Option<string>, p: ConnParams): (r: Result<Option<Llm>, string>)
    ensures r.Success? && r.value.Some? && r.value.value.Listed? ==>
              provider.Some? && provider.value != CustomOpenAI && Lookup(chats, provider, model).Some?
              && r.value.value.handle == Lookup(chats, provider, model).value.model
    ensures r.Success? && r.value.Some? && r.value.value.CustomOpenAIModel? ==>
              provider == Some(CustomOpenAI) && Truthy(p.openAIApiKey) && Truthy(p.openAIBaseURL)
    ensures r.Failure? <==> provider == Some(CustomOpenAI) && (!Truthy(p.openAIApiKey) || !Truthy(p.openAIBaseURL))
  {
    if Lookup(chats, provider, model).Some? && provider.value != CustomOpenAI then
      Success(Some(Listed(Lookup(chats, provider, model).value.model)))
    else if provider == Some(CustomOpenAI) then
      if !Truthy(p.openAIApiKey) || !Truthy(p.openAIBaseURL) then Failure("Missing OpenAI API key or base URL")
      else Success(Some(CustomOpenAIModel(model, p.openAIApiKey.value, p.openAIBaseURL.value, CustomOpenAITemperature)))
    else Success(None)
  }

  /**
   * The entry the connection parameters select from a registry: the named
   * provider and model, each defaulting to the first one listed; `None`
   * when picking throws or the registry has no such entry.
   */
  function Selected(registry: Obj<ModelProvider>, provider: Option<string>, model: Option<string>): (r: Option<ModelEntry>)
    ensures Truthy(provider) && Truthy(model) ==> r == Lookup(registry, provider, model)
    ensures !Truthy(provider) && !Truthy(model) && |registry| > 0 && |registry[0].1| > 0 ==>
              r == Some(registry[0].1[0].1)
    ensures !Truthy(provider) && |registry| == 0 ==> r.None?
  {
    var prov := PickProvider(provider, registry);
    match PickModel(model, registry, prov)
    case Failure(_) => None
    case Success(m) => Lookup(registry, prov, m)
  }

  /**
   * `handleConnection(ws, request)` once both registries have been loaded
   * (`Failure` when loading throws). Anything that throws closes the
   * socket without a message.
   */
  function Connect(p: ConnParams, chatsR: Result<Obj<ModelProvider>, string>, embsR: Result<Obj<ModelProvider>, string>): (r: ConnectionOutcome)
    ensures chatsR.Failure? || embsR.Failure? ==> r == Closed([])
    ensures r.Closed? ==> r.sent == [] || r.sent == [InvalidModelSelected]
    ensures r.Open? ==> r.sent == [SignalOpen]
    ensures r.Open? && r.llm.CustomOpenAIModel? ==> Truthy(p.openAIApiKey) && Truthy(p.openAIBaseURL)
    ensures r.Open? && r.llm.Listed? ==>
              Selected(chatsR.value, p.chatModelProvider, p.chatModel).Some?
                && Selected(chatsR.value, p.chatModelProvider, p.chatModel).value.model == r.llm.handle
    ensures r.Open? ==>
              Selected(embsR.value, p.embeddingModelProvider, p.embeddingModel).Some?
                && Selected(embsR.value, p.embeddingModelProvider, p.embeddingModel).value.model == r.embeddings
    ensures (chatsR.Success? && embsR.Success? && Selected(embsR.value, p.embeddingModelProvider, p.embeddingModel).None?)
              ==> r.Closed?
  {
    if chatsR.Failure? || embsR.Failure? then Closed([])
    else
      var chats := chatsR.value;
      var embs := embsR.value;
      var chatProvider := PickProvider(p.chatModelProvider, chats);
      var chatModelR := PickModel(p.chatModel, chats, chatProvider);
      if chatModelR.Failure? then Closed([])
      else
        var embProvider := PickProvider(p.embeddingModelProvider, embs);
        var embModelR := PickModel(p.embeddingModel, embs, embProvider);
        if embModelR.Failure? then Closed([])
        else
          match ChooseLlm(chats, chatProvider, chatModelR.value, p)
          case Failure(_) => Closed([])
          case Success(llm) =>
            var emb := Lookup(embs, embProvider, embModelR.value);
            if llm.None? || emb.None? then Closed([InvalidModelSelected])
            else Open(llm.value, emb.value.model, [SignalOpen])
  }

  /** `handleConnection(ws, request)`, with the chat and embedding loaders as parameters. */
  function HandleConnection(p: ConnParams, chatLoad: Loader, embLoad: Loader): (r: ConnectionOutcome)
    ensures GetAvailableChatModelProviders(chatLoad).Failure? || GetAvailableEmbeddingModelProviders(embLoad).Failure? ==> r == Closed([])
    ensures r.Closed? ==> r.sent == [] || r.sent == [InvalidModelSelected]
    ensures r.Open? ==> r.sent == [SignalOpen]
  {
    Connect(p, GetAvailableChatModelProviders(chatLoad), GetAvailableEmbeddingModelProviders(embLoad))
  }

  /**
   * With no provider that has models and no query parameters the default
   * chat provider is `custom_openai`, which needs a key and URL that are
   * absent: the socket is closed and the client gets no error message.
   */
  lemma NoProvidersClosesSilently(chatLoad: Loader, embLoad: Loader)
    requires forall n :: chatLoad(n) == Success([])
    requires forall n :: embLoad(n) == Success([])
    ensures HandleConnection(NoParams, chatLoad, embLoad) == Closed([])
  {
    NoModelsRegistries(chatLoad, embLoad);
    DefaultCustomWithoutKeyCloses();
  }

  /** The default `custom_openai` entry without a key or URL closes the socket silently. */
  lemma DefaultCustomWithoutKeyCloses()
    ensures Connect(NoParams, Success([(CustomOpenAI, [])]), Success([])) == Closed([])
  {
    var chats: Obj<ModelProvider> := [(CustomOpenAI, [])];
    assert Keys(chats) == [CustomOpenAI];
    assert FirstKey(chats) == Some(CustomOpenAI);
  }

  /**
   * Naming a chat model that the named provider does not list (and an
   * embedding model) is reported as an invalid selection.
   */
  lemma UnknownChatModelReported(p: ConnParams, chats: Obj<ModelProvider>, embs: Obj<ModelProvider>)
    requires Truthy(p.chatModelProvider) && p.chatModelProvider.value != CustomOpenAI && Truthy(p.chatModel)
    requires Lookup(chats, p.chatModelProvider, p.chatModel).None?
    requires Truthy(p.embeddingModelProvider) && Truthy(p.embeddingModel)
    ensures Connect(p, Success(chats), Success(embs)) == Closed([InvalidModelSelected])
  {
  }

  /**
   * Naming a listed chat model and an embedding model that the named
   * provider does not list is reported as an invalid selection.
   */
  lemma UnknownEmbeddingModelReported(p: ConnParams, chats: Obj<ModelProvider>, embs: Obj<ModelProvider>)
    requires Truthy(p.chatModelProvider) && p.chatModelProvider.value != CustomOpenAI && Truthy(p.chatModel)
    requires Lookup(chats, p.chatModelProvider, p.chatModel).Some?
    requires Truthy(p.embeddingModelProvider) && Truthy(p.embeddingModel)
    requires Lookup(embs, p.embeddingModelProvider, p.embeddingModel).None?
    ensures Connect(p, Success(chats), Success(embs)) == Closed([InvalidModelSelected])
  {
  }

  /**
   * Without query parameters the connection opens with the first model of
   * the first chat provider and the first model of the first embedding
   * provider, when the first chat provider is not the custom endpoint.
   */
  lemma DefaultModelsOpen(chats: Obj<ModelProvider>, embs: Obj<ModelProvider>)
    requires |chats| > 0 && chats[0].0 != CustomOpenAI && |chats[0].1| > 0
    requires |embs| > 0 && |embs[0].1| > 0
    ensures Connect(NoParams, Success(chats), Success(embs)) ==
              Open(Listed(chats[0].1[0].1.model), embs[0].1[0].1.model, [SignalOpen])
  {
    var cm := chats[0].1;
    assert Get(chats, chats[0].0) == Some(cm);
    assert Get(cm, cm[0].0) == Some(cm[0].1);
    var em := embs[0].1;
    assert Get(embs, embs[0].0) == Some(em);
    assert Get(em, em[0].0) == Some(em[0].1);
  }

  /** Naming models the registries list opens the connection with exactly those models. */
  lemma ListedModelsOpen(p: ConnParams, chats: Obj<ModelProvider>, embs: Obj<ModelProvider>)
    requires Truthy(p.chatModelProvider) && p.chatModelProvider.value != CustomOpenAI && Truthy(p.chatModel)
    requires Lookup(chats, p.chatModelProvider, p.chatModel).Some?
    requires Truthy(p.embeddingModelProvider) && Truthy(p.embeddingModel)
    requires Lookup(embs, p.embeddingModelProvider, p.embeddingModel).Some?
    ensures Connect(p, Success(chats), Success(embs)) ==
              Open(Listed(Lookup(chats, p.chatModelProvider, p.chatModel).value.model),
                   Lookup(embs, p.embeddingModelProvider, p.embeddingModel).value.model,
                   [SignalOpen])
  {
  }

  // ---------------------------------------------------------------------
  // ConnectionManager class

  /** The class's state: the model set so far and whether its socket is open. */
  datatype ConnectionManager = ConnectionManager(url: string, model: Option<Llm>, socketOpen: bool)

  function NewConnectionManager(url: string, socketOpen: bool): (c: ConnectionManager)
    ensures c.url == url && c.model.None?
  {
    ConnectionManager(url, None, socketOpen)
  }

  function SetModel(c: ConnectionManager, m: Llm): (r: ConnectionManager)
    ensures r.model == Some(m) && r.url == c.url && r.socketOpen == c.socketOpen
  {
    c.(model := Some(m))
  }

  /** `processMessage`: the missing model is reported before the closed socket. */
  function ProcessMessage(c: ConnectionManager): (r: Result<(), string>)
    ensures c.model.None? ==> r == Failure("Model not set")
    ensures c.model.Some? && !c.socketOpen ==> r == Failure("WebSocket not connected")
    ensures r.Success? <==> c.model.Some? && c.socketOpen
  {
    if c.model.None? then Failure("Model not set")
    else if !c.socketOpen then Failure("WebSocket not connected")
    else Success(())
  }

  /** Once a model is set, processing fails only for a closed socket. */
  lemma SetModelThenProcess(c: ConnectionManager, m: Llm)
    ensures ProcessMessage(SetModel(c, m)).Success? <==> c.socketOpen
  {
  }
}

=== FILE: documents.dfy ===
/**
 * `getDocumentsFromLinks` (src/utils/documents.ts): each link is
 * normalised, fetched, turned into text (PDF or HTML), split into chunks
 * and tagged with its URL and title; a link whose processing throws adds
 * nothing. The fetch, the PDF parser, the HTML-to-text converter, the text
 * splitter and the order in which the concurrent fetches complete are
 * parameters.
 */
module Documents {
  import opened Wrappers
  import opened Strings

  // ---------------------------------------------------------------------
  // links

  /** A link without an `http://` or `https://` scheme gets `https://` in front. */
  function NormaliseLink(link: string): (r: string)
    ensures StartsWith(r, "http://") || StartsWith(r, "https://")
    ensures StartsWith(link, "http://") || StartsWith(link, "https://") ==> r == link
    ensures !(StartsWith(link, "http://") || StartsWith(link, "https://")) ==> r == "https://" + link
  {
    if StartsWith(link, "http://") || StartsWith(link, "https://") then link else "https://" + link
  }

  /** Normalising twice is normalising once. */
  lemma NormaliseLinkIdempotent(link: string)
    ensures NormaliseLink(NormaliseLink(link)) == NormaliseLink(link)
  {
  }

  // ---------------------------------------------------------------------
  // PDF text clean-up

  /** `replace(/(\r\n|\n|\r)/gm, ' ')`: every line break, CRLF counted once, becomes one space. */
  function ReplaceLineBreaks(s: string): (r: string)
    ensures forall i :: 0 <= i < |r| ==> r[i] != '\r' && r[i] != '\n'
    ensures (forall i :: 0 <= i < |s| ==> s[i] != '\r' && s[i] != '\n') ==> r == s
    ensures |r| <= |s|
    ensures NonSpace(r) == NonSpace(s)
  {
    if |s| == 0 then ""
    else if |s| >= 2 && s[0] == '\r' && s[1] == '\n' then
      var t := ReplaceLineBreaks(s[2..]);
      BreakBecomesSpace(s, 2, t);
      " " + t
    else if s[0] == '\r' || s[0] == '\n' then
      var t := ReplaceLineBreaks(s[1..]);
      BreakBecomesSpace(s, 1, t);
      " " + t
    else
      var t := ReplaceLineBreaks(s[1..]);
      OtherCharKept(s, t);
      [s[0]] + t
  }

  /** The four promises of `ReplaceLineBreaks` about input `s` and output `r`. */
  predicate BreaksReplaced(s: string, r: string) {
    && (forall i :: 0 <= i < |r| ==> r[i] != '\r' && r[i] != '\n')
    && ((forall i :: 0 <= i < |s| ==> s[i] != '\r' && s[i] != '\n') ==> r == s)
    && |r| <= |s|
    && NonSpace(r) == NonSpace(s)
  }

  /** One space for a line break of `k` characters keeps the promises. */
  lemma BreakBecomesSpace(s: string, k: nat, t: string)
    requires 1 <= k <= 2 && k <= |s| && (s[0] == '\r' || s[0] == '\n')
    requires k == 2 ==> s[1] == '\n'
    requires BreaksReplaced(s[k..], t)
    ensures BreaksReplaced(s, " " + t)
  {
    assert NonSpace(" " + t) == NonSpace(s) by {
      assert AllSpace(s[..k]);
      NonSpaceDropSpaces(s, k);
      SpaceAddsNoNonSpace(t);
    }
    assert forall i :: 1 <= i < |" " + t| ==> (" " + t)[i] == t[i - 1];
  }

  /** Any other character is copied and keeps the promises. */
  lemma OtherCharKept(s: string, t: string)
    requires |s| > 0 && s[0] != '\r' && s[0] != '\n'
    requires BreaksReplaced(s[1..], t)
    ensures BreaksReplaced(s, [s[0]] + t)
  {
    assert NonSpace([s[0]] + t) == NonSpace(s) by {
      NonSpaceCons(s[0], t);
      NonSpaceCons(s[0], s[1..]);
      assert [s[0]] + s[1..] == s;
    }
    assert forall i :: 1 <= i < |[s[0]] + t| ==> ([s[0]] + t)[i] == t[i - 1];
  }

  /** The only white space is the plain space, and no two spaces are adjacent. */
  predicate Collapsed(s: string) {
    && (forall i :: 0 <= i < |s| ==> IsSpace(s[i]) ==> s[i] == ' ')
    && (forall i :: 0 <= i < |s| - 1 ==> !(s[i] == ' ' && s[i + 1] == ' '))
  }

  /** `replace(/\s+/g, ' ')`: every maximal run of white space becomes one space. */
  function Collapse(s: string): (r: string)
    ensures Collapsed(r)
    ensures |r| == 0 <==> |s| == 0
    ensures |r| > 0 ==> (IsSpace(r[0]) <==> IsSpace(s[0]))
    ensures |r| > 0 ==> (IsSpace(r[|r| - 1]) <==> IsSpace(s[|s| - 1]))
    ensures |r| <= |s|
    ensures NonSpace(r) == NonSpace(s)
    decreases |s|
  {
    if |s| == 0 then ""
    else if IsSpace(s[0]) then
      var n := LeadingSpaces(s);
      var t := Collapse(s[n..]);
      SpaceRunCollapsed(s, n, t);
      " " + t
    else
      var t := Collapse(s[1..]);
      NonSpaceKept(s, t);
      [s[0]] + t
  }

  /** The six promises of `Collapse` about input `s` and output `r`. */
  predicate CollapsesTo(s: string, r: string) {
    && Collapsed(r)
    && (|r| == 0 <==> |s| == 0)
    && (|r| > 0 ==> (IsSpace(r[0]) <==> IsSpace(s[0])))
    && (|r| > 0 ==> (IsSpace(r[|r| - 1]) <==> IsSpace(s[|s| - 1])))
    && |r| <= |s|
    && NonSpace(r) == NonSpace(s)
  }

  /** A run of `n` white-space characters becomes one space and keeps the promises. */
  lemma SpaceRunCollapsed(s: string, n: nat, t: string)
    requires 1 <= n <= |s| && AllSpace(s[..n]) && (n < |s| ==> !IsSpace(s[n]))
    requires CollapsesTo(s[n..], t)
    ensures CollapsesTo(s, " " + t)
  {
    var r := " " + t;
    assert Collapsed(r) by {
      SpaceBeforeCollapsed(t);
    }
    assert |r| > 0 ==> (IsSpace(r[|r| - 1]) <==> IsSpace(s[|s| - 1])) by {
      if |t| == 0 {
        assert IsSpace(s[n - 1]);
      } else {
        LastOfSuffix(s, n);
        assert r[|r| - 1] == t[|t| - 1];
      }
    }
    assert NonSpace(r) == NonSpace(s) by {
      NonSpaceDropSpaces(s, n);
      SpaceAddsNoNonSpace(t);
    }
  }

  /** A space in front of collapsed text that does not start with white space keeps it collapsed. */
  lemma SpaceBeforeCollapsed(t: string)
    requires Collapsed(t) && (|t| > 0 ==> !IsSpace(t[0]))
    ensures Collapsed(" " + t)
  {
    assert forall i :: 1 <= i < |" " + t| ==> (" " + t)[i] == t[i - 1];
  }

  /** A character that is not white space in front of collapsed text keeps it collapsed. */
  lemma NonSpaceBeforeCollapsed(c: char, t: string)
    requires Collapsed(t) && !IsSpace(c)
    ensures Collapsed([c] + t)
  {
    assert forall i :: 1 <= i < |[c] + t| ==> ([c] + t)[i] == t[i - 1];
  }

  lemma SpaceAddsNoNonSpace(t: string)
    ensures NonSpace(" " + t) == NonSpace(t)
  {
    NonSpaceCons(' ', t);
    assert "" + NonSpace(t) == NonSpace(t);
  }

  lemma LastOfSuffix(s: string, n: nat)
    requires n < |s|
    ensures s[n..][|s| - n - 1] == s[|s| - 1]
  {
  }

  /** A character that is not white space is copied and keeps the promises. */
  lemma NonSpaceKept(s: string, t: string)
    requires |s| > 0 && !IsSpace(s[0])
    requires CollapsesTo(s[1..], t)
    ensures CollapsesTo(s, [s[0]] + t)
  {
    var r := [s[0]] + t;
    assert Collapsed(r) by {
      NonSpaceBeforeCollapsed(s[0], t);
    }
    assert |t| > 0 ==> (IsSpace(r[|r| - 1]) <==> IsSpace(s[|s| - 1])) by {
      if |t| > 0 {
        LastOfSuffix(s, 1);
        assert r[|r| - 1] == t[|t| - 1];
      }
    }
    assert NonSpace(r) == NonSpace(s) by {
      NonSpaceCons(s[0], t);
      NonSpaceCons(s[0], s[1..]);
      assert [s[0]] + s[1..] == s;
    }
  }

  /** Text that is already collapsed is left unchanged. */
  lemma {:induction false} CollapseOfCollapsed(s: string)
    requires Collapsed(s)
    ensures Collapse(s) == s
    decreases |s|
  {
    if |s| > 0 {
      var rest := s[1..];
      assert Collapsed(rest);
      CollapseOfCollapsed(rest);
      if IsSpace(s[0]) {
        assert LeadingSpaces(s) == 1 by {
          assert |s| > 1 ==> s[1] != ' ';
        }
        assert Collapse(s) == " " + Collapse(rest);
        assert s == [s[0]] + rest;
      } else {
        assert Collapse(s) == [s[0]] + Collapse(rest);
        assert s == [s[0]] + rest;
      }
    }
  }

  /** The text-cleaning pipeline applied to PDF text. */
  function NormalisePdfText(s: string): (r: string)
    ensures IsTrimmed(r) && Collapsed(r)
    ensures NonSpace(r) == NonSpace(s)
  {
    var c := Collapse(ReplaceLineBreaks(s));
    var r := Trim(c);
    TrimKeepsNonSpace(c);
    var k := LeadingSpaces(c);
    assert forall i :: 0 <= i < |r| ==> r[i] == c[k + i];
    r
  }

  /** Cleaning PDF text a second time changes nothing. */
  lemma NormalisePdfTextIdempotent(s: string)
    ensures NormalisePdfText(NormalisePdfText(s)) == NormalisePdfText(s)
  {
    var t := NormalisePdfText(s);
    assert ReplaceLineBreaks(t) == t;
    CollapseOfCollapsed(t);
    TrimOfTrimmed(t);
  }

  // ---------------------------------------------------------------------
  // documents

  type Bytes = seq<int>

  /** The response of the GET request: the `content-type` header and the raw body. */
  datatype Fetched = Fetched(contentType: Option<string>, data: Bytes)

  /** What the PDF parser returns: the text and the `Title` of the PDF info, when any. */
  datatype PdfInfo = PdfInfo(text: string, title: Option<string>)

  /** A chunk with its metadata. */
  datatype Document = Document(pageContent: string, url: string, title: string)

  /** The collaborators; `None` stands for a call that throws. */
  datatype Loaders = Loaders(
    fetch: string -> Option<Fetched>,
    pdfParse: Bytes -> Option<PdfInfo>,
    htmlToText: Bytes -> Option<string>,
    split: string -> Option<seq<string>>)

  predicate IsPdf(f: Fetched) {
    f.contentType == Some("application/pdf")
  }

  /** Tags each chunk with the same URL and title. */
  function Tag(chunks: seq<string>, url: string, title: string): (r: seq<Document>)
    ensures |r| == |chunks|
    ensures forall i :: 0 <= i < |r| ==> r[i] == Document(chunks[i], url, title)
  {
    if |chunks| == 0 then [] else [Document(chunks[0], url, title)] + Tag(chunks[1..], url, title)
  }

  /** The documents one link contributes; a link whose processing throws contributes none. */
  function LinkDocuments(link: string, ld: Loaders): (r: seq<Document>)
    ensures forall i :: 0 <= i < |r| ==> r[i].url == NormaliseLink(link)
    ensures ld.fetch(NormaliseLink(link)).None? ==> r == []
    ensures ld.fetch(NormaliseLink(link)).Some? && !IsPdf(ld.fetch(NormaliseLink(link)).value) ==>
              forall i :: 0 <= i < |r| ==> r[i].title == NormaliseLink(link)
    ensures ld.fetch(NormaliseLink(link)).Some? && !IsPdf(ld.fetch(NormaliseLink(link)).value) ==>
              var text := ld.htmlToText(ld.fetch(NormaliseLink(link)).value.data);
              (text.None? || ld.split(text.value).None? ==> r == [])
    ensures ld.fetch(NormaliseLink(link)).Some? && IsPdf(ld.fetch(NormaliseLink(link)).value) ==>
              var pdf := ld.pdfParse(ld.fetch(NormaliseLink(link)).value.data);
              (pdf.None? || ld.split(NormalisePdfText(pdf.value.text)).None? ==> r == [])
  {
    var url := NormaliseLink(link);
    match ld.fetch(url)
    case None => []
    case Some(res) =>
      if IsPdf(res) then
        match ld.pdfParse(res.data)
        case None => []
        case Some(pdf) =>
          match ld.split(NormalisePdfText(pdf.text))
          case None => []
          case Some(chunks) =>
            Tag(chunks, url, if Truthy(pdf.title) then pdf.title.value else url)
      else
        match ld.htmlToText(res.data)
        case None => []
        case Some(text) =>
          match ld.split(text)
          case None => []
          case Some(chunks) => Tag(chunks, url, url)
  }

  /** A PDF chunk is cut from the cleaned text and titled by the PDF's title, or its URL when that is empty. */
  lemma PdfDocuments(link: string, ld: Loaders, pdf: PdfInfo, chunks: seq<string>)
    requires ld.fetch(NormaliseLink(link)).Some? && IsPdf(ld.fetch(NormaliseLink(link)).value)
    requires ld.pdfParse(ld.fetch(NormaliseLink(link)).value.data) == Some(pdf)
    requires ld.split(NormalisePdfText(pdf.text)) == Some(chunks)
    ensures |LinkDocuments(link, ld)| == |chunks|
    ensures forall i :: 0 <= i < |chunks| ==>
              LinkDocuments(link, ld)[i].pageContent == chunks[i]
              && LinkDocuments(link, ld)[i].title == (if Truthy(pdf.title) then pdf.title.value else NormaliseLink(link))
  {
  }

  /** An HTML page's chunks are cut from its text and titled by the link. */
  lemma HtmlDocuments(link: string, ld: Loaders, text: string, chunks: seq<string>)
    requires ld.fetch(NormaliseLink(link)).Some? && !IsPdf(ld.fetch(NormaliseLink(link)).value)
    requires ld.htmlToText(ld.fetch(NormaliseLink(link)).value.data) == Some(text)
    requires ld.split(text) == Some(chunks)
    ensures |LinkDocuments(link, ld)| == |chunks|
    ensures forall i :: 0 <= i < |chunks| ==>
              LinkDocuments(link, ld)[i] == Document(chunks[i], NormaliseLink(link), NormaliseLink(link))
  {
  }

  /** `order` lists every link index, each once: the order the fetches completed in. */
  predicate IsPermutation(order: seq<nat>, n: nat) {
    && |order| == n
    && (forall i :: 0 <= i < n ==> order[i] < n)
    && (forall j :: 0 <= j < n ==> j in order)
  }

  /** The documents of the links taken in completion order. */
  function Collect(links: seq<string>, order: seq<nat>, ld: Loaders): (r: seq<Document>)
    requires forall i :: 0 <= i < |order| ==> order[i] < |links|
  {
    if |order| == 0 then [] else LinkDocuments(links[order[0]], ld) + Collect(links, order[1..], ld)
  }

  /** Every document collected comes from a link the order lists. */
  lemma {:induction false} CollectFrom(links: seq<string>, order: seq<nat>, ld: Loaders, d: Document)
    requires forall i :: 0 <= i < |order| ==> order[i] < |links|
    requires d in Collect(links, order, ld)
    ensures exists j :: 0 <= j < |links| && j in order && d in LinkDocuments(links[j], ld)
  {
    if d !in LinkDocuments(links[order[0]], ld) {
      CollectFrom(links, order[1..], ld, d);
    }
  }

  /** Every document of a link the order lists is collected. */
  lemma {:induction false} CollectHas(links: seq<string>, order: seq<nat>, ld: Loaders, j: nat, d: Document)
    requires forall i :: 0 <= i < |order| ==> order[i] < |links|
    requires j in order && d in LinkDocuments(links[j], ld)
    ensures d in Collect(links, order, ld)
  {
    if order[0] != j {
      CollectHas(links, order[1..], ld, j, d);
    }
  }

  /**
   * `getDocumentsFromLinks({ links })`: a document is returned exactly when
   * some link yields it, whatever the completion order.
   */
  function GetDocumentsFromLinks(links: seq<string>, order: seq<nat>, ld: Loaders): (r: seq<Document>)
    requires IsPermutation(order, |links|)
    ensures forall d :: d in r <==> exists j :: 0 <= j < |links| && d in LinkDocuments(links[j], ld)
    ensures forall d :: d in r ==> exists j :: 0 <= j < |links| && d.url == NormaliseLink(links[j])
  {
    var r := Collect(links, order, ld);
    forall d ensures d in r <==> exists j :: 0 <= j < |links| && d in LinkDocuments(links[j], ld) {
      if d in r {
        CollectFrom(links, order, ld, d);
      }
      if exists j :: 0 <= j < |links| && d in LinkDocuments(links[j], ld) {
        var j :| 0 <= j < |links| && d in LinkDocuments(links[j], ld);
        CollectHas(links, order, ld, j, d);
      }
    }
    r
  }
}

=== FILE: errors.dfy ===
/**
 * `isError` and `getErrorMessage` (src/utils/errors.ts): turning an
 * arbitrary thrown value into a message.
 */
module Errors {
  import opened Wrappers
  import opened Strings

  /** The JavaScript values a `catch` clause can receive, as far as the classification can tell them apart. */
  datatype JsValue =
    | ErrorInstance(name: string, message: string)   // `instanceof Error`, any subclass
    | PlainObject(messageField: Option<JsValue>)     // any other non-array object; `None` when it has no `message` property
    | Array(elems: seq<JsValue>)                     // an array, which has no `message` property
    | Str(s: string)
    | Num(repr: string)                              // a number, by its `String(...)` rendering
    | Bool(b: bool)
    | Null
    | Undefined

  const UnknownErrorMessage := "An unknown error occurred"

  /** `isError`: true exactly for `Error` instances. */
  predicate IsError(v: JsValue) {
    v.ErrorInstance?
  }

  /** `String(v)`. */
  function ToJsString(v: JsValue): string
    decreases v, 0
  {
    match v
    case ErrorInstance(name, message) =>
      if message == "" then name else if name == "" then message else name + ": " + message
    case PlainObject(_) => "[object Object]"
    case Array(elems) => JoinElements(elems)
    case Str(s) => s
    case Num(repr) => repr
    case Bool(b) => if b then "true" else "false"
    case Null => "null"
    case Undefined => "undefined"
  }

  /** How `Array.prototype.join` renders one element: `null` and `undefined` become empty. */
  function ElementString(v: JsValue): string
    decreases v, 1
  {
    if v.Null? || v.Undefined? then "" else ToJsString(v)
  }

  /** `elems.join(",")`, which is what `String` gives for an array. */
  function JoinElements(elems: seq<JsValue>): (r: string)
    ensures r == Join(seq(|elems|, i requires 0 <= i < |elems| => ElementString(elems[i])), ',')
    decreases elems
  {
    if |elems| == 0 then ""
    else
      var rest := JoinElements(elems[1..]);
      var all := seq(|elems|, i requires 0 <= i < |elems| => ElementString(elems[i]));
      assert all[1..] == seq(|elems[1..]|, i requires 0 <= i < |elems[1..]| => ElementString(elems[1..][i]));
      if |elems| == 1 then ElementString(elems[0]) else ElementString(elems[0]) + "," + rest
  }

  /** The value is an object (truthy, `typeof` "object") with a `message` property. */
  predicate HasMessageProperty(v: JsValue) {
    (v.ErrorInstance?) || (v.PlainObject? && v.messageField.Some?)
  }

  /**
   * `getErrorMessage`: the checks run in order Error, object with a
   * `message`, string, and everything else is the fixed unknown-error text.
   */
  function GetErrorMessage(v: JsValue): (r: string)
    ensures IsError(v) ==> r == v.message
    ensures !IsError(v) && HasMessageProperty(v) ==> r == ToJsString(v.messageField.value)
    ensures v.Str? ==> r == v.s
    ensures !HasMessageProperty(v) && !v.Str? ==> r == UnknownErrorMessage
  {
    if IsError(v) then v.message
    else if v.PlainObject? && v.messageField.Some? then ToJsString(v.messageField.value)
    else if v.Str? then v.s
    else UnknownErrorMessage
  }

  /**
   * The unknown-error text is returned for a value that carries no message
   * of its own, and for no other value unless that value's own message
   * happens to be the same text.
   */
  lemma UnknownExactlyWithoutMessage(v: JsValue)
    ensures GetErrorMessage(v) == UnknownErrorMessage <==>
              (!HasMessageProperty(v) && !v.Str?)
              || (IsError(v) && v.message == UnknownErrorMessage)
              || (v.PlainObject? && v.messageField.Some? && ToJsString(v.messageField.value) == UnknownErrorMessage)
              || (v.Str? && v.s == UnknownErrorMessage)
  {
  }

  /** An array `message` is rendered as its elements joined with commas. */
  lemma ArrayMessageJoined()
    ensures GetErrorMessage(PlainObject(Some(Array([Num("1"), Num("2")])))) == "1,2"
    ensures GetErrorMessage(PlainObject(Some(Array([Null, Str("x")])))) == ",x"
    ensures GetErrorMessage(Array([Str("x")])) == UnknownErrorMessage
  {
    assert ToJsString(Array([Num("1"), Num("2")])) == "1" + "," + "2";
    assert ToJsString(Array([Null, Str("x")])) == "" + "," + "x";
  }

  /**
   * A `message` that is an array of comma-free strings is rendered so that
   * splitting at the commas gives the strings back.
   */
  lemma ArrayMessageSplits(xs: seq<string>)
    requires |xs| >= 1 && forall i :: 0 <= i < |xs| ==> ',' !in xs[i]
    ensures Split(GetErrorMessage(PlainObject(Some(Array(seq(|xs|, i requires 0 <= i < |xs| => Str(xs[i])))))), ',') == xs
  {
    var elems := seq(|xs|, i requires 0 <= i < |xs| => Str(xs[i]));
    var strs := seq(|elems|, i requires 0 <= i < |elems| => ElementString(elems[i]));
    forall i | 0 <= i < |xs| ensures strs[i] == xs[i] {
      assert elems[i] == Str(xs[i]);
      assert ElementString(elems[i]) == ToJsString(Str(xs[i]));
    }
    assert strs == xs;
    SplitJoin(xs, ',');
  }

  /** An object whose `message` is a string yields that string, even when it is empty. */
  lemma StringMessagePassesThrough(m: string)
    ensures GetErrorMessage(PlainObject(Some(Str(m)))) == m
    ensures GetErrorMessage(Str(m)) == m
  {
  }
}

=== FILE: focus_modes.dfy ===
/**
 * The focus-mode table `searchHandlers` (src/websocket/messageHandler.ts):
 * one search-agent configuration per focus mode. The prompt texts are
 * referred to by name.
 */
module FocusModes {
  import opened Wrappers
  import opened JsObjects

  /** The constructor options of a search agent. */
  datatype AgentConfig = AgentConfig(
    activeEngines: seq<string>,
    queryGeneratorPrompt: string,   // the prompt's name; "" when the mode generates no search query
    responsePrompt: string,
    rerank: bool,
    rerankThreshold: real,
    searchWeb: bool,
    summarizer: bool)

  /** The focus modes, in declaration order. */
  const FocusModeNames: seq<string> :=
    ["webSearch", "academicSearch", "writingAssistant", "wolframAlphaSearch", "youtubeSearch", "redditSearch"]

  const SearchHandlers: Obj<AgentConfig> := [
    ("webSearch", AgentConfig([], "webSearchRetrieverPrompt", "webSearchResponsePrompt", true, 0.3, true, true)),
    ("academicSearch", AgentConfig(["arxiv", "google scholar", "pubmed"], "academicSearchRetrieverPrompt",
                                   "academicSearchResponsePrompt", true, 0.0, true, false)),
    ("writingAssistant", AgentConfig([], "", "writingAssistantPrompt", true, 0.0, false, false)),
    ("wolframAlphaSearch", AgentConfig(["wolframalpha"], "wolframAlphaSearchRetrieverPrompt",
                                       "wolframAlphaSearchResponsePrompt", false, 0.0, true, false)),
    ("youtubeSearch", AgentConfig(["youtube"], "youtubeSearchRetrieverPrompt", "youtubeSearchResponsePrompt",
                                  true, 0.3, true, false)),
    ("redditSearch", AgentConfig(["reddit"], "redditSearchRetrieverPrompt", "redditSearchResponsePrompt",
                                 true, 0.3, true, false))
  ]

  /** `searchHandlers[focusMode]`: the agent of a known focus mode, `None` for any other name. */
  function HandlerFor(focusMode: string): (r: Option<AgentConfig>)
    ensures r.Some? <==> focusMode in FocusModeNames
  {
    assert Keys(SearchHandlers) == FocusModeNames;
    Get(SearchHandlers, focusMode)
  }

  /**
   * The table's shape, for the mode at position `i`: the modes are
   * distinct, exactly one mode skips the web (the writing assistant, which
   * also has no query prompt and no engines), only Wolfram Alpha skips
   * reranking, only web search summarises, and every threshold is 0 or 0.3.
   */
  lemma HandlerTableShape(i: nat)
    requires i < |FocusModeNames|
    ensures ValidObj(SearchHandlers)
    ensures HandlerFor(FocusModeNames[i]).Some?
    ensures !HandlerFor(FocusModeNames[i]).value.searchWeb <==> FocusModeNames[i] == "writingAssistant"
    ensures !HandlerFor(FocusModeNames[i]).value.searchWeb ==>
              HandlerFor(FocusModeNames[i]).value.queryGeneratorPrompt == "" && HandlerFor(FocusModeNames[i]).value.activeEngines == []
    ensures !HandlerFor(FocusModeNames[i]).value.rerank <==> FocusModeNames[i] == "wolframAlphaSearch"
    ensures HandlerFor(FocusModeNames[i]).value.summarizer <==> FocusModeNames[i] == "webSearch"
    ensures HandlerFor(FocusModeNames[i]).value.rerankThreshold == 0.0 || HandlerFor(FocusModeNames[i]).value.rerankThreshold == 0.3
  {
    HandlersDistinct();
    GetAt(SearchHandlers, i);
    assert SearchHandlers[i].0 == FocusModeNames[i];
    EntryShape(i);
  }

  /** The shape of the entry at position `i`, stated by position. */
  lemma EntryShape(i: nat)
    requires i < |SearchHandlers|
    ensures !SearchHandlers[i].1.searchWeb <==> i == 2
    ensures !SearchHandlers[i].1.searchWeb ==> SearchHandlers[i].1.queryGeneratorPrompt == "" && SearchHandlers[i].1.activeEngines == []
    ensures !SearchHandlers[i].1.rerank <==> i == 3
    ensures SearchHandlers[i].1.summarizer <==> i == 0
    ensures SearchHandlers[i].1.rerankThreshold == 0.0 || SearchHandlers[i].1.rerankThreshold == 0.3
    ensures i == 2 <==> SearchHandlers[i].0 == "writingAssistant"
    ensures i == 3 <==> SearchHandlers[i].0 == "wolframAlphaSearch"
    ensures i == 0 <==> SearchHandlers[i].0 == "webSearch"
  {
  }

  /** No focus mode is listed twice: their names all differ in length. */
  lemma HandlersDistinct()
    ensures ValidObj(SearchHandlers)
  {
    forall i, j | 0 <= i < j < |SearchHandlers| ensures SearchHandlers[i].0 != SearchHandlers[j].0 {
      assert |SearchHandlers[i].0| != |SearchHandlers[j].0|;
    }
  }
}

=== FILE: js_objects.dfy ===
/**
 * Plain JavaScript objects used as string-keyed maps. Keys are enumerated
 * in insertion order (`Object.keys`, `for ... in`, spread); assigning to a
 * key that is already present replaces its value in place.
 */
module JsObjects {
  import opened Wrappers

  type Obj<V> = seq<(string, V)>

  function Keys<V>(m: Obj<V>): (ks: seq<string>)
    ensures |ks| == |m|
    ensures forall i :: 0 <= i < |m| ==> ks[i] == m[i].0
  {
    if |m| == 0 then [] else [m[0].0] + Keys(m[1..])
  }

  /** No key is listed twice. */
  predicate ValidObj<V>(m: Obj<V>) {
    forall i, j :: 0 <= i < j < |m| ==> m[i].0 != m[j].0
  }

  predicate HasKey<V>(m: Obj<V>, k: string) {
    k in Keys(m)
  }

  /** `m[k]`, with `None` for `undefined`: the value at the first position holding `k`. */
  function Get<V>(m: Obj<V>, k: string): (r: Option<V>)
    ensures r.Some? <==> HasKey(m, k)
  {
    if |m| == 0 then None
    else if m[0].0 == k then Some(m[0].1)
    else
      assert Keys(m) == [m[0].0] + Keys(m[1..]);
      Get(m[1..], k)
  }

  /** In a valid object, the value stored at position `i` is the one `Get` returns. */
  lemma GetAt<V>(m: Obj<V>, i: nat)
    requires ValidObj(m) && i < |m|
    ensures Get(m, m[i].0) == Some(m[i].1)
  {
    if i > 0 {
      GetAt(m[1..], i - 1);
    }
  }

  /** The first key, as `Object.keys(m)[0]`. */
  function FirstKey<V>(m: Obj<V>): (r: Option<string>)
    ensures r.Some? <==> |m| > 0
    ensures r.Some? ==> HasKey(m, r.value) && r.value == m[0].0
  {
    if |m| == 0 then None else Some(m[0].0)
  }

  /**
   * `m[k] = v`: an existing key keeps its position and takes the new
   * value; a new key is appended.
   */
  function Put<V>(m: Obj<V>, k: string, v: V): (r: Obj<V>)
    ensures HasKey(m, k) ==> Keys(r) == Keys(m)
    ensures !HasKey(m, k) ==> Keys(r) == Keys(m) + [k]
    ensures Get(r, k) == Some(v)
    ensures forall k' :: k' != k ==> Get(r, k') == Get(m, k')
  {
    if |m| == 0 then
      ConsFacts((k, v), []);
      [(k, v)]
    else if m[0].0 == k then
      PutFront(m, k, v);
      [(k, v)] + m[1..]
    else
      var t := Put(m[1..], k, v);
      PutBehind(m, k, v, t);
      [m[0]] + t
  }

  /** What `Put` promises of its result `r`. */
  ghost predicate PutResult<V>(m: Obj<V>, k: string, v: V, r: Obj<V>) {
    && (HasKey(m, k) ==> Keys(r) == Keys(m))
    && (!HasKey(m, k) ==> Keys(r) == Keys(m) + [k])
    && Get(r, k) == Some(v)
    && (forall k' :: k' != k ==> Get(r, k') == Get(m, k'))
  }

  lemma PutFront<V>(m: Obj<V>, k: string, v: V)
    requires |m| > 0 && m[0].0 == k
    ensures PutResult(m, k, v, [(k, v)] + m[1..])
  {
    assert m == [m[0]] + m[1..];
    ConsFacts(m[0], m[1..]);
    ConsFacts((k, v), m[1..]);
  }

  lemma PutBehind<V>(m: Obj<V>, k: string, v: V, t: Obj<V>)
    requires |m| > 0 && m[0].0 != k && PutResult(m[1..], k, v, t)
    ensures PutResult(m, k, v, [m[0]] + t)
  {
    assert m == [m[0]] + m[1..];
    ConsFacts(m[0], m[1..]);
    ConsFacts(m[0], t);
    assert HasKey(m, k) <==> HasKey(m[1..], k);
    if !HasKey(m, k) {
      assert [m[0].0] + (Keys(m[1..]) + [k]) == [m[0].0] + Keys(m[1..]) + [k];
    }
  }

  /** Keys and lookups of an object with one entry in front. */
  lemma ConsFacts<V>(x: (string, V), rest: Obj<V>)
    ensures Keys([x] + rest) == [x.0] + Keys(rest)
    ensures forall k :: Get([x] + rest, k) == if x.0 == k then Some(x.1) else Get(rest, k)
  {
    assert ([x] + rest)[1..] == rest;
  }

  /** Assigning a key keeps the keys distinct. */
  lemma PutValid<V>(m: Obj<V>, k: string, v: V)
    requires ValidObj(m)
    ensures ValidObj(Put(m, k, v))
  {
    var r := Put(m, k, v);
    assert Keys(r) == Keys(m) || Keys(r) == Keys(m) + [k];
    forall i, j | 0 <= i < j < |r| ensures r[i].0 != r[j].0 {
      assert r[i].0 == Keys(r)[i] && r[j].0 == Keys(r)[j];
      if j == |m| {
        assert Keys(r)[j] == k && !HasKey(m, k);
        assert Keys(r)[i] == Keys(m)[i];
      } else {
        assert Keys(r)[i] == Keys(m)[i] && Keys(r)[j] == Keys(m)[j];
      }
    }
  }

  /** The object built by assigning the entries of `b`, in order, onto `a`. */
  function PutAll<V>(a: Obj<V>, b: Obj<V>): Obj<V>
    decreases |b|
  {
    if |b| == 0 then a else PutAll(Put(a, b[0].0, b[0].1), b[1..])
  }

  /** The keys of `b` that `a` lacks, in `b`'s order, each once. */
  function NewKeys<V>(ks: seq<string>, b: Obj<V>): seq<string>
    decreases |b|
  {
    if |b| == 0 then []
    else if b[0].0 in ks then NewKeys(ks, b[1..])
    else [b[0].0] + NewKeys(ks + [b[0].0], b[1..])
  }

  /**
   * `{...a, ...b}`: every key of either side, `b`'s value winning where both
   * have the key; `a`'s keys come first in their order, then the keys only
   * `b` has.
   */
  function Spread<V>(a: Obj<V>, b: Obj<V>): (r: Obj<V>)
    requires ValidObj(a) && ValidObj(b)
    ensures ValidObj(r)
    ensures Keys(r) == Keys(a) + NewKeys(Keys(a), b)
    ensures forall k :: HasKey(r, k) <==> HasKey(a, k) || HasKey(b, k)
    ensures forall k :: HasKey(b, k) ==> Get(r, k) == Get(b, k)
    ensures forall k :: !HasKey(b, k) ==> Get(r, k) == Get(a, k)
  {
    PutAllKeys(a, b);
    PutAllHasKey(a, b);
    PutAllValid(a, b);
    PutAllGet(a, b);
    PutAll(a, b)
  }

  lemma {:induction false} PutAllKeys<V>(a: Obj<V>, b: Obj<V>)
    ensures Keys(PutAll(a, b)) == Keys(a) + NewKeys(Keys(a), b)
    decreases |b|
  {
    if |b| > 0 {
      var a' := Put(a, b[0].0, b[0].1);
      PutAllKeys(a', b[1..]);
    }
  }

  lemma {:induction false} PutAllHasKey<V>(a: Obj<V>, b: Obj<V>)
    ensures forall k :: HasKey(PutAll(a, b), k) <==> HasKey(a, k) || HasKey(b, k)
    decreases |b|
  {
    if |b| > 0 {
      var a' := Put(a, b[0].0, b[0].1);
      PutAllHasKey(a', b[1..]);
      assert Keys(b) == [b[0].0] + Keys(b[1..]);
    }
  }

  lemma {:induction false} PutAllValid<V>(a: Obj<V>, b: Obj<V>)
    requires ValidObj(a)
    ensures ValidObj(PutAll(a, b))
    decreases |b|
  {
    if |b| > 0 {
      PutValid(a, b[0].0, b[0].1);
      PutAllValid(Put(a, b[0].0, b[0].1), b[1..]);
    }
  }

  lemma {:induction false} PutAllGet<V>(a: Obj<V>, b: Obj<V>)
    requires ValidObj(b)
    ensures forall k :: HasKey(b, k) ==> Get(PutAll(a, b), k) == Get(b, k)
    ensures forall k :: !HasKey(b, k) ==> Get(PutAll(a, b), k) == Get(a, k)
    decreases |b|
  {
    if |b| > 0 {
      var a' := Put(a, b[0].0, b[0].1);
      assert ValidObj(b[1..]);
      PutAllGet(a', b[1..]);
      assert Keys(b) == [b[0].0] + Keys(b[1..]);
      assert forall i :: 0 <= i < |b[1..]| ==> Keys(b[1..])[i] != b[0].0 by {
        forall i | 0 <= i < |b[1..]| ensures Keys(b[1..])[i] != b[0].0 {
          assert Keys(b[1..])[i] == b[i + 1].0;
        }
      }
      assert !HasKey(b[1..], b[0].0);
    }
  }

  /** The value at the last position holding `k`: what a run of assignments in list order leaves behind. */
  function GetLast<V>(m: Obj<V>, k: string): (r: Option<V>)
    ensures r.Some? <==> HasKey(m, k)
  {
    if |m| == 0 then None
    else
      assert Keys(m) == [m[0].0] + Keys(m[1..]);
      var t := GetLast(m[1..], k);
      if t.Some? then t else if m[0].0 == k then Some(m[0].1) else None
  }

  /**
   * Assigning the entries of `b` in order, repeated keys included, leaves
   * each key of `b` with its last value and every other key as in `a`.
   */
  lemma {:induction false} PutAllGetLast<V>(a: Obj<V>, b: Obj<V>)
    ensures forall k :: HasKey(b, k) ==> Get(PutAll(a, b), k) == GetLast(b, k)
    ensures forall k :: !HasKey(b, k) ==> Get(PutAll(a, b), k) == Get(a, k)
    decreases |b|
  {
    if |b| > 0 {
      PutAllGetLast(Put(a, b[0].0, b[0].1), b[1..]);
      assert Keys(b) == [b[0].0] + Keys(b[1..]);
    }
  }

  /** In an object without repeated keys the first and the last value of a key coincide. */
  lemma {:induction false} GetLastOfValid<V>(m: Obj<V>, k: string)
    requires ValidObj(m)
    ensures GetLast(m, k) == Get(m, k)
  {
    if |m| > 0 {
      GetLastOfValid(m[1..], k);
      if m[0].0 == k {
        assert forall i :: 0 <= i < |m[1..]| ==> Keys(m[1..])[i] != k by {
          forall i | 0 <= i < |m[1..]| ensures Keys(m[1..])[i] != k {
            assert Keys(m[1..])[i] == m[i + 1].0;
          }
        }
        assert !HasKey(m[1..], k);
      }
    }
  }

  /** The object with every value passed through `f`, keys and order unchanged. */
  function MapValues<V, W>(m: Obj<V>, f: V -> W): (r: Obj<W>)
    ensures |r| == |m| && Keys(r) == Keys(m)
    ensures forall i :: 0 <= i < |m| ==> r[i] == (m[i].0, f(m[i].1))
  {
    seq(|m|, i requires 0 <= i < |m| => (m[i].0, f(m[i].1)))
  }

  /** Looking a key up in the mapped object finds the mapped value. */
  lemma {:induction false} MapValuesGet<V, W>(m: Obj<V>, f: V -> W, k: string)
    ensures Get(MapValues(m, f), k) == if HasKey(m, k) then Some(f(Get(m, k).value)) else None
  {
    if |m| > 0 {
      assert MapValues(m, f)[1..] == MapValues(m[1..], f);
      MapValuesGet(m[1..], f, k);
      assert Keys(m) == [m[0].0] + Keys(m[1..]);
    }
  }

  /** When none of `b`'s keys is in `ks` and `b` repeats none, all of `b`'s keys are new. */
  lemma {:induction false} NewKeysFresh<V>(ks: seq<string>, b: Obj<V>)
    requires ValidObj(b)
    requires forall i :: 0 <= i < |b| ==> b[i].0 !in ks
    ensures NewKeys(ks, b) == Keys(b)
    decreases |b|
  {
    if |b| > 0 {
      assert ValidObj(b[1..]);
      forall i | 0 <= i < |b[1..]| ensures b[1..][i].0 !in ks + [b[0].0] {
        assert b[1..][i] == b[i + 1];
      }
      NewKeysFresh(ks + [b[0].0], b[1..]);
    }
  }

  /**
   * Assigning the entries of a valid object one by one onto `{}` (the
   * `forEach`/`for ... in` copy loop) rebuilds it: same keys in the same
   * order, same values.
   */
  lemma CopyLoop<V>(m: Obj<V>)
    requires ValidObj(m)
    ensures Keys(PutAll([], m)) == Keys(m)
    ensures forall k :: Get(PutAll([], m), k) == Get(m, k)
  {
    PutAllKeys([], m);
    NewKeysFresh([], m);
    PutAllGet([], m);
    PutAllHasKey([], m);
  }
}

=== FILE: message_box.dfy ===
/**
 * The answer-rendering text logic of the chat UI's message box
 * (ui/components/MessageBox.tsx): citation markers `[n]` in an answer are
 * turned into links to the n-th source, stripped for text-to-speech, and
 * stripped together with markdown emphasis characters for the PDF export,
 * whose source list is numbered to match the markers.
 *
 * The regular expression `/\[\d+\]/g` is modelled by a left-to-right
 * scanner: at each position a `[`, one or more ASCII digits and a `]`
 * form a marker; anything else is one plain character and the scan moves
 * on by one.
 */
module MessageBox {
  import opened Wrappers
  import opened Strings
  import opened Store

  // ---------------------------------------------------------------------
  // subsequences

  /** `a` is obtained from `b` by deleting characters. */
  predicate Subseq(a: string, b: string)
    decreases |b|
  {
    if |a| == 0 then true
    else if |b| == 0 then false
    else (a[0] == b[0] && Subseq(a[1..], b[1..])) || Subseq(a, b[1..])
  }

  lemma {:induction false} SubseqTrans(a: string, b: string, c: string)
    requires Subseq(a, b) && Subseq(b, c)
    ensures Subseq(a, c)
    decreases |a| + |b| + |c|
  {
    if |a| > 0 {
      if Subseq(b, c[1..]) {
        SubseqTrans(a, b, c[1..]);
      } else if Subseq(a, b[1..]) {
        SubseqTrans(a, b[1..], c[1..]);
      } else {
        SubseqTrans(a[1..], b[1..], c[1..]);
      }
    }
  }

  lemma {:induction false} SubseqCons(c: char, a: string, b: string)
    requires Subseq(a, b)
    ensures Subseq([c] + a, [c] + b)
  {
    assert ([c] + a)[1..] == a;
    assert ([c] + b)[1..] == b;
  }

  lemma {:induction false} SubseqDrop(a: string, b: string, n: nat)
    requires n <= |b| && Subseq(a, b[n..])
    ensures Subseq(a, b)
    decreases n
  {
    if n > 0 {
      assert b[1..][n - 1..] == b[n..];
      SubseqDrop(a, b[1..], n - 1);
      if |a| > 0 {
        assert Subseq(a, b[1..]);
      }
    }
  }

  // ---------------------------------------------------------------------
  // markdown characters

  /** The characters `/[#*_~`]/g` deletes. */
  predicate IsMarkdownChar(c: char) {
    c == '#' || c == '*' || c == '_' || c == '~' || c == '`'
  }

  /** `text.replace(/[#*_~`]/g, '')`. */
  function RemoveMarkdownChars(s: string): (r: string)
    ensures forall i :: 0 <= i < |r| ==> !IsMarkdownChar(r[i])
    ensures forall c :: !IsMarkdownChar(c) ==> multiset(r)[c] == multiset(s)[c]
    ensures |r| <= |s|
  {
    if |s| == 0 then []
    else
      assert s == [s[0]] + s[1..];
      if IsMarkdownChar(s[0]) then RemoveMarkdownChars(s[1..])
      else [s[0]] + RemoveMarkdownChars(s[1..])
  }

  lemma {:induction false} RemoveMarkdownCharsSubseq(s: string)
    ensures Subseq(RemoveMarkdownChars(s), s)
  {
    if |s| > 0 {
      RemoveMarkdownCharsSubseq(s[1..]);
      if IsMarkdownChar(s[0]) {
        SubseqDrop(RemoveMarkdownChars(s), s, 1);
      } else {
        SubseqCons(s[0], RemoveMarkdownChars(s[1..]), s[1..]);
        assert [s[0]] + s[1..] == s;
      }
    }
  }

  // ---------------------------------------------------------------------
  // citation markers

  datatype Token = Plain(c: char) | Citation(digits: string)

  /** The length of the run of ASCII digits `s` starts with. */
  function DigitPrefix(s: string): (n: nat)
    ensures n <= |s| && AllDigits(s[..n])
    ensures n < |s| ==> !IsDigit(s[n])
  {
    if |s| == 0 || !IsDigit(s[0]) then 0
    else
      var n := 1 + DigitPrefix(s[1..]);
      assert s[..n] == [s[0]] + s[1..][..n - 1];
      n
  }

  /** `s` starts with a marker `[digits]` whose closing bracket is at index `j`. */
  predicate MarkerAt(s: string, j: nat) {
    |s| > 0 && s[0] == '[' && j == 1 + DigitPrefix(s[1..]) && 1 < j < |s| && s[j] == ']'
  }

  /** The matches of `/\[(\d+)\]/g` and the text between them, left to right. */
  function Tokens(s: string): (ts: seq<Token>)
    decreases |s|
  {
    if |s| == 0 then []
    else
      var j := 1 + DigitPrefix(s[1..]);
      if MarkerAt(s, j) then [Citation(s[1..j])] + Tokens(s[j + 1..])
      else [Plain(s[0])] + Tokens(s[1..])
  }

  /** The text a token was scanned from. */
  function Untokenize(ts: seq<Token>): string {
    if |ts| == 0 then []
    else
      match ts[0]
      case Plain(c) => [c] + Untokenize(ts[1..])
      case Citation(d) => "[" + d + "]" + Untokenize(ts[1..])
  }

  /** Scanning loses nothing: the tokens spell out the text. */
  lemma {:induction false} TokensRoundTrip(s: string)
    ensures Untokenize(Tokens(s)) == s
    decreases |s|
  {
    if |s| > 0 {
      var j := 1 + DigitPrefix(s[1..]);
      if MarkerAt(s, j) {
        TokensRoundTrip(s[j + 1..]);
        MarkerRoundTrip(s, j);
      } else {
        TokensRoundTrip(s[1..]);
        assert s == [s[0]] + s[1..];
      }
    }
  }

  lemma MarkerRoundTrip(s: string, j: nat)
    requires MarkerAt(s, j) && Untokenize(Tokens(s[j + 1..])) == s[j + 1..]
    ensures Untokenize(Tokens(s)) == s
  {
    var d, rest := s[1..j], s[j + 1..];
    TokensAtMarker(s, j);
    UntokenizeCitation(d, Tokens(rest));
    Bracketed(s, j);
  }

  lemma Bracketed(s: string, j: nat)
    requires 1 < j < |s| && s[0] == '[' && s[j] == ']'
    ensures s == "[" + s[1..j] + "]" + s[j + 1..]
  {
    var t := "[" + s[1..j] + "]" + s[j + 1..];
    assert |t| == |s|;
    forall k | 0 <= k < |s| ensures t[k] == s[k] {
      if k == 0 {
      } else if k < j {
        assert t[k] == s[1..j][k - 1];
      } else if k == j {
      } else {
        assert t[k] == s[j + 1..][k - j - 1];
      }
    }
  }

  lemma TokensAtMarker(s: string, j: nat)
    requires MarkerAt(s, j)
    ensures Tokens(s) == [Citation(s[1..j])] + Tokens(s[j + 1..])
  {
  }

  lemma UntokenizeCitation(d: string, ts: seq<Token>)
    ensures Untokenize([Citation(d)] + ts) == "[" + d + "]" + Untokenize(ts)
  {
    assert ([Citation(d)] + ts)[1..] == ts;
  }

  /** The text with every marker replaced by `f(digits)`. */
  function Render(ts: seq<Token>, f: string -> string): string {
    if |ts| == 0 then []
    else
      match ts[0]
      case Plain(c) => [c] + Render(ts[1..], f)
      case Citation(d) => f(d) + Render(ts[1..], f)
  }

  /** The replacement that deletes a marker. */
  function Nothing(digits: string): string {
    ""
  }

  /** `text.replace(/\[\d+\]/g, '')`: one pass, every marker deleted. */
  function RemoveCitations(s: string): (r: string)
    ensures '[' !in s ==> r == s
  {
    assert '[' !in s ==> Render(Tokens(s), Nothing) == s by {
      if '[' !in s {
        NoBracketUnchanged(s, Nothing);
      }
    }
    Render(Tokens(s), Nothing)
  }

  lemma {:induction false} RenderEmptySubseq(ts: seq<Token>)
    ensures Subseq(Render(ts, Nothing), Untokenize(ts))
  {
    if |ts| > 0 {
      RenderEmptySubseq(ts[1..]);
      var rest := Render(ts[1..], Nothing);
      match ts[0]
      case Plain(c) =>
        SubseqCons(c, rest, Untokenize(ts[1..]));
      case Citation(d) =>
        var u := Untokenize(ts[1..]);
        var w := "[" + d + "]" + u;
        assert w[|d| + 2..] == u;
        SubseqDrop(rest, w, |d| + 2);
        assert Render(ts, Nothing) == rest;
    }
  }

  /** Every marker the scanner finds consists of digits. */
  lemma {:induction false} CitationsAreDigits(s: string)
    ensures forall i :: 0 <= i < |Tokens(s)| && Tokens(s)[i].Citation? ==> AllDigits(Tokens(s)[i].digits)
    decreases |s|
  {
    if |s| > 0 {
      var j := 1 + DigitPrefix(s[1..]);
      if MarkerAt(s, j) {
        CitationsAreDigits(s[j + 1..]);
        assert s[1..j] == s[1..][..j - 1];
      } else {
        CitationsAreDigits(s[1..]);
      }
    }
  }

  /** Deleting digit markers keeps the count of every character that is neither a digit nor a bracket. */
  lemma {:induction false} RenderEmptyKeepsCount(ts: seq<Token>, c: char)
    requires forall i :: 0 <= i < |ts| && ts[i].Citation? ==> AllDigits(ts[i].digits)
    requires !IsDigit(c) && c != '[' && c != ']'
    ensures multiset(Render(ts, Nothing))[c] == multiset(Untokenize(ts))[c]
  {
    if |ts| > 0 {
      RenderEmptyKeepsCount(ts[1..], c);
      assert ts == [ts[0]] + ts[1..];
      StepCount(ts[0], ts[1..], c);
    }
  }

  /** One more token keeps the counts of the rendered and the scanned text equal. */
  lemma StepCount(t: Token, ts: seq<Token>, c: char)
    requires t.Citation? ==> AllDigits(t.digits)
    requires !IsDigit(c) && c != '[' && c != ']'
    requires multiset(Render(ts, Nothing))[c] == multiset(Untokenize(ts))[c]
    ensures multiset(Render([t] + ts, Nothing))[c] == multiset(Untokenize([t] + ts))[c]
  {
    var rest, u := Render(ts, Nothing), Untokenize(ts);
    match t
    case Plain(x) =>
      RenderPlain(x, ts, Nothing);
      UntokenizePlain(x, ts);
      ConsCount(x, rest, u, c);
    case Citation(d) =>
      RenderCitation(d, ts, Nothing);
      UntokenizeCitation(d, ts);
      MarkerCount(d, u, c);
  }

  lemma ConsCount(x: char, a: string, b: string, c: char)
    requires multiset(a)[c] == multiset(b)[c]
    ensures multiset([x] + a)[c] == multiset([x] + b)[c]
  {
    assert multiset([x] + a) == multiset([x]) + multiset(a);
    assert multiset([x] + b) == multiset([x]) + multiset(b);
  }

  lemma UntokenizePlain(x: char, ts: seq<Token>)
    ensures Untokenize([Plain(x)] + ts) == [x] + Untokenize(ts)
  {
    assert ([Plain(x)] + ts)[1..] == ts;
  }

  /** A marker adds nothing to the count of a character that is neither a digit nor a bracket. */
  lemma MarkerCount(d: string, u: string, c: char)
    requires AllDigits(d) && !IsDigit(c) && c != '[' && c != ']'
    ensures multiset("[" + d + "]" + u)[c] == multiset(u)[c]
  {
    assert multiset("[" + d + "]" + u) == multiset("[") + multiset(d) + multiset("]") + multiset(u);
    assert forall i :: 0 <= i < |d| ==> d[i] != c;
  }

  /** Removing markers keeps every character that cannot be part of one. */
  lemma RemoveCitationsKeepsCount(s: string)
    ensures forall c :: !IsDigit(c) && c != '[' && c != ']' ==> multiset(RemoveCitations(s))[c] == multiset(s)[c]
  {
    CitationsAreDigits(s);
    TokensRoundTrip(s);
    forall c | !IsDigit(c) && c != '[' && c != ']'
      ensures multiset(RemoveCitations(s))[c] == multiset(s)[c]
    {
      RenderEmptyKeepsCount(Tokens(s), c);
    }
  }

  /** Removing markers only deletes characters. */
  lemma RemoveCitationsSubseq(s: string)
    ensures Subseq(RemoveCitations(s), s)
  {
    RenderEmptySubseq(Tokens(s));
    TokensRoundTrip(s);
  }

  /** Text without `[` has no marker and is left as it is. */
  lemma {:induction false} NoBracketUnchanged(s: string, f: string -> string)
    requires '[' !in s
    ensures Render(Tokens(s), f) == s
    decreases |s|
  {
    if |s| > 0 {
      assert s[0] != '[';
      NoBracketUnchanged(s[1..], f);
      assert s == [s[0]] + s[1..];
    }
  }

  /**
   * One pass is not enough: deleting `[1]` from `[[1]2]` joins the outer
   * brackets around `2` into a new marker.
   */
  lemma RemoveCitationsNotIdempotent()
    ensures RemoveCitations("[[1]2]") == "[2]"
    ensures RemoveCitations("[2]") == ""
  {
    var s := "[[1]2]";
    assert DigitPrefix(s[1..]) == 0;
    assert !MarkerAt(s, 1);
    var t := s[1..];
    assert t == "[1]2]";
    assert DigitPrefix(t[1..]) == 1;
    assert MarkerAt(t, 2);
    assert t[1..2] == "1";
    assert t[3..] == "2]";
    assert Tokens("2]") == [Plain('2'), Plain(']')] by {
      assert DigitPrefix("]") == 0;
      assert "2]"[1..] == "]";
      assert "]"[1..] == [];
    }
    assert Tokens(t) == [Citation("1"), Plain('2'), Plain(']')];
    assert Tokens(s) == [Plain('['), Citation("1"), Plain('2'), Plain(']')];
    assert "[2]" == "[" + "2" + "]";
    TokensOfMarker("2");
  }

  /** `stripMarkdownAndCitations`: the text the PDF export prints. */
  function StripMarkdownAndCitations(s: string): (r: string)
    ensures forall i :: 0 <= i < |r| ==> !IsMarkdownChar(r[i])
    ensures Subseq(r, s)
    ensures forall c :: !IsMarkdownChar(c) && !IsDigit(c) && c != '[' && c != ']' ==>
              multiset(r)[c] == multiset(s)[c]
    ensures '[' !in s ==> r == RemoveMarkdownChars(s)
  {
    var t := RemoveMarkdownChars(s);
    RemoveMarkdownCharsSubseq(s);
    RemoveCitationsSubseq(t);
    SubseqTrans(RemoveCitations(t), t, s);
    SubseqChars(RemoveCitations(t), t);
    RemoveCitationsKeepsCount(t);
    assert '[' !in s ==> RemoveCitations(t) == t by {
      if '[' !in s {
        SubseqChars(t, s);
        NoBracketUnchanged(t, Nothing);
      }
    }
    RemoveCitations(t)
  }

  /** Every character of a subsequence occurs in the text. */
  lemma {:induction false} SubseqChars(a: string, b: string)
    requires Subseq(a, b)
    ensures forall i :: 0 <= i < |a| ==> a[i] in b
    decreases |b|
  {
    if |a| > 0 {
      if Subseq(a, b[1..]) {
        SubseqChars(a, b[1..]);
      } else {
        SubseqChars(a[1..], b[1..]);
        forall i | 0 <= i < |a| ensures a[i] in b {
          if i > 0 {
            assert a[i] == a[1..][i - 1];
          }
        }
      }
    }
  }

  // ---------------------------------------------------------------------
  // links to sources

  const AnchorClass := "bg-light-secondary dark:bg-dark-secondary px-1 rounded ml-1 no-underline text-xs text-black/70 dark:text-white/70 relative"

  /**
   * `${message.sources?.[number - 1]?.metadata?.url}`: the url of the
   * numbered source, and the text `undefined` when there is no such source
   * or it has no url.
   */
  function SourceHref(sources: seq<Source>, n: nat): (href: string)
    ensures 1 <= n <= |sources| && sources[n - 1].url.Some? ==> href == sources[n - 1].url.value
    ensures !(1 <= n <= |sources| && sources[n - 1].url.Some?) ==> href == "undefined"
  {
    if 1 <= n <= |sources| && sources[n - 1].url.Some? then sources[n - 1].url.value else "undefined"
  }

  /** The link markup, labelled with the marker's digits. */
  function AnchorHtml(href: string, caption: string): string {
    "<a href=\"" + href + "\" target=\"_blank\" className=\"" + AnchorClass + "\">" + caption + "</a>"
  }

  function Anchor(sources: seq<Source>, digits: string): string
    requires AllDigits(digits)
  {
    AnchorHtml(SourceHref(sources, DigitsValue(digits)), digits)
  }

  /** The replacement callback; markers always consist of digits. */
  function LinkFor(sources: seq<Source>): string -> string {
    d => if AllDigits(d) then Anchor(sources, d) else d
  }

  /** Every marker replaced by a link to the source it numbers. */
  function Linkify(s: string, sources: seq<Source>): (r: string)
    ensures '[' !in s ==> r == s
  {
    assert '[' !in s ==> Render(Tokens(s), LinkFor(sources)) == s by {
      if '[' !in s {
        NoBracketUnchanged(s, LinkFor(sources));
      }
    }
    Render(Tokens(s), LinkFor(sources))
  }

  /** The link for a marker `[n]` with `1 <= n <= |sources|` is labelled n and points at the url of source n. */
  lemma CitationLinksSource(digits: string, sources: seq<Source>, n: nat)
    requires AllDigits(digits) && n == DigitsValue(digits)
    requires 1 <= n <= |sources| && sources[n - 1].url.Some?
    ensures Anchor(sources, digits) == AnchorHtml(sources[n - 1].url.value, digits)
  {
    AnchorOfHref(sources[n - 1].url.value, digits, sources, n);
  }

  lemma AnchorOfHref(h: string, digits: string, sources: seq<Source>, n: nat)
    requires AllDigits(digits) && n == DigitsValue(digits) && SourceHref(sources, n) == h
    ensures Anchor(sources, digits) == AnchorHtml(h, digits)
  {
  }

  /** Each marker becomes the link built for its digits. */
  lemma MarkerLinks(digits: string, sources: seq<Source>)
    requires |digits| > 0 && AllDigits(digits)
    ensures Linkify("[" + digits + "]", sources) == Anchor(sources, digits)
  {
    TokensOfMarker(digits);
    var f := LinkFor(sources);
    assert Render([Citation(digits)], f) == f(digits) + Render([], f);
  }

  /** A marker on its own scans as one citation. */
  lemma TokensOfMarker(digits: string)
    requires |digits| > 0 && AllDigits(digits)
    ensures Tokens("[" + digits + "]") == [Citation(digits)]
  {
    var s := "[" + digits + "]";
    assert s[1..] == digits + "]";
    DigitPrefixOfDigits(digits, "]");
    assert MarkerAt(s, |digits| + 1);
    assert s[1..|digits| + 1] == digits;
    assert s[|digits| + 2..] == [];
  }

  lemma {:induction false} DigitPrefixOfDigits(d: string, rest: string)
    requires AllDigits(d) && (|rest| == 0 || !IsDigit(rest[0]))
    ensures DigitPrefix(d + rest) == |d|
  {
    if |d| > 0 {
      assert (d + rest)[1..] == d[1..] + rest;
      DigitPrefixOfDigits(d[1..], rest);
    } else {
      assert d + rest == rest;
    }
  }

  /** The text of the marker for `d`. */
  function Marker(d: string): string {
    "[" + d + "]"
  }

  /** Text after a marker `[d]` scans as the citation followed by the tokens of the rest. */
  lemma MarkerStart(d: string, b: string)
    requires |d| > 0 && AllDigits(d)
    ensures Tokens(Marker(d) + b) == [Citation(d)] + Tokens(b)
  {
    var s := Marker(d) + b;
    assert s[1..] == d + ("]" + b);
    DigitPrefixOfDigits(d, "]" + b);
    assert MarkerAt(s, |d| + 1);
    assert s[1..|d| + 1] == d;
    assert s[|d| + 2..] == b;
    TokensAtMarker(s, |d| + 1);
  }

  /** A text that does not open with `[` scans as one plain character and the tokens of the rest. */
  lemma TokensPlainStart(s: string)
    requires |s| > 0 && s[0] != '['
    ensures Tokens(s) == [Plain(s[0])] + Tokens(s[1..])
  {
  }

  lemma RenderPlain(c: char, ts: seq<Token>, f: string -> string)
    ensures Render([Plain(c)] + ts, f) == [c] + Render(ts, f)
  {
    assert ([Plain(c)] + ts)[1..] == ts;
  }

  lemma RenderCitation(d: string, ts: seq<Token>, f: string -> string)
    ensures Render([Citation(d)] + ts, f) == f(d) + Render(ts, f)
  {
    assert ([Citation(d)] + ts)[1..] == ts;
  }

  lemma RenderAfterMarker(d: string, b: string, f: string -> string)
    requires |d| > 0 && AllDigits(d)
    ensures Render(Tokens(Marker(d) + b), f) == f(d) + Render(Tokens(b), f)
  {
    MarkerStart(d, b);
    RenderCitation(d, Tokens(b), f);
  }

  /** Text without a `[` is scanned as plain characters, so rendering keeps it as it is. */
  lemma {:induction false} RenderPlainPrefix(a: string, r: string, f: string -> string)
    requires '[' !in a
    ensures Render(Tokens(a + r), f) == a + Render(Tokens(r), f)
    decreases |a|
  {
    if |a| == 0 {
      assert a + r == r;
    } else {
      var s := a + r;
      assert s[0] == a[0] && s[1..] == a[1..] + r;
      RenderPlainStart(s, f);
      RenderPlainPrefix(a[1..], r, f);
      ConsAssoc(a, Render(Tokens(r), f));
    }
  }

  lemma RenderPlainStart(s: string, f: string -> string)
    requires |s| > 0 && s[0] != '['
    ensures Render(Tokens(s), f) == [s[0]] + Render(Tokens(s[1..]), f)
  {
    TokensPlainStart(s);
    RenderPlain(s[0], Tokens(s[1..]), f);
  }

  lemma ConsAssoc(a: string, b: string)
    requires |a| > 0
    ensures [a[0]] + (a[1..] + b) == a + b
  {
    assert a == [a[0]] + a[1..];
  }

  /**
   * The first marker of a text is replaced by `f` of its digits, the text
   * before it is kept as it is, and the scan carries on after its `]`.
   */
  lemma RenderAtFirstMarker(a: string, d: string, b: string, f: string -> string)
    requires '[' !in a && |d| > 0 && AllDigits(d)
    ensures Render(Tokens(a + Marker(d) + b), f) == a + f(d) + Render(Tokens(b), f)
  {
    var r := Marker(d) + b;
    assert a + Marker(d) + b == a + r;
    RenderPlainPrefix(a, r, f);
    RenderAfterMarker(d, b, f);
  }

  /** `[n]` is deleted outright: the text around it is kept and the text after it is processed the same way. */
  lemma RemoveCitationsAtMarker(a: string, d: string, b: string)
    requires '[' !in a && |d| > 0 && AllDigits(d)
    ensures RemoveCitations(a + Marker(d) + b) == a + RemoveCitations(b)
  {
    var rb := Render(Tokens(b), Nothing);
    RenderAtFirstMarker(a, d, b, Nothing);
    assert RemoveCitations(a + Marker(d) + b) == a + Nothing(d) + rb;
    EmptyMiddle(a, Nothing(d), rb);
  }

  lemma EmptyMiddle(a: string, e: string, c: string)
    requires e == ""
    ensures a + e + c == a + c
  {
  }

  /** `[n]` becomes the link for source n, in place, and the text after it is linked the same way. */
  lemma LinkifyAtMarker(a: string, d: string, b: string, sources: seq<Source>)
    requires '[' !in a && |d| > 0 && AllDigits(d)
    ensures Linkify(a + Marker(d) + b, sources) == a + Anchor(sources, d) + Linkify(b, sources)
  {
    RenderAtFirstMarker(a, d, b, LinkFor(sources));
  }

  /** Deleting markdown characters distributes over concatenation. */
  lemma {:induction false} RemoveMarkdownAppend(x: string, y: string)
    ensures RemoveMarkdownChars(x + y) == RemoveMarkdownChars(x) + RemoveMarkdownChars(y)
    decreases |x|
  {
    if |x| == 0 {
      assert x + y == y;
    } else {
      assert (x + y)[0] == x[0];
      assert (x + y)[1..] == x[1..] + y;
      RemoveMarkdownAppend(x[1..], y);
    }
  }

  /** Text without markdown characters is left as it is. */
  lemma {:induction false} MarkdownFreeUnchanged(s: string)
    requires forall i :: 0 <= i < |s| ==> !IsMarkdownChar(s[i])
    ensures RemoveMarkdownChars(s) == s
    decreases |s|
  {
    if |s| > 0 {
      MarkdownFreeUnchanged(s[1..]);
      assert s == [s[0]] + s[1..];
    }
  }

  lemma MarkerMarkdownFree(d: string)
    requires AllDigits(d)
    ensures RemoveMarkdownChars(Marker(d)) == Marker(d)
  {
    var m := Marker(d);
    forall i | 0 <= i < |m| ensures !IsMarkdownChar(m[i]) {
      if 0 < i < |m| - 1 {
        assert m[i] == d[i - 1];
      }
    }
    MarkdownFreeUnchanged(m);
  }

  /**
   * In the PDF text a marker is deleted, the markdown characters before
   * it are deleted, and the text after it is stripped the same way.
   */
  lemma StripMarkdownAtMarker(a: string, d: string, b: string)
    requires '[' !in a && |d| > 0 && AllDigits(d)
    ensures StripMarkdownAndCitations(a + Marker(d) + b) == RemoveMarkdownChars(a) + StripMarkdownAndCitations(b)
  {
    var ra, rb := RemoveMarkdownChars(a), RemoveMarkdownChars(b);
    StripIsComposite(a + Marker(d) + b);
    StripIsComposite(b);
    MarkdownAroundMarker(a, d, b);
    MarkdownKeepsNoBracket(a);
    RemoveCitationsAtMarker(ra, d, rb);
  }

  lemma MarkdownAroundMarker(a: string, d: string, b: string)
    requires AllDigits(d)
    ensures RemoveMarkdownChars(a + Marker(d) + b)
            == RemoveMarkdownChars(a) + Marker(d) + RemoveMarkdownChars(b)
  {
    MarkerMarkdownFree(d);
    MarkdownAround(a, Marker(d), b);
  }

  lemma MarkdownKeepsNoBracket(a: string)
    requires '[' !in a
    ensures '[' !in RemoveMarkdownChars(a)
  {
    assert multiset(RemoveMarkdownChars(a))['['] == multiset(a)['['] == 0;
  }

  lemma StripIsComposite(s: string)
    ensures StripMarkdownAndCitations(s) == RemoveCitations(RemoveMarkdownChars(s))
  {
  }

  lemma MarkdownAround(a: string, m: string, b: string)
    requires RemoveMarkdownChars(m) == m
    ensures RemoveMarkdownChars(a + m + b) == RemoveMarkdownChars(a) + m + RemoveMarkdownChars(b)
  {
    SeqAssoc(a, m, b);
    RemoveMarkdownAppend(a, m + b);
    RemoveMarkdownAppend(m, b);
    SeqAssoc(RemoveMarkdownChars(a), m, RemoveMarkdownChars(b));
  }

  lemma SeqAssoc(x: string, y: string, z: string)
    ensures x + y + z == x + (y + z)
  {
  }

  // ---------------------------------------------------------------------
  // the rendering effect

  datatype ChatMessage = ChatMessage(role: string, content: string, sources: Option<seq<Source>>)

  /** The two pieces of component state the effect sets: the rendered text and the text read aloud. */
  datatype View = View(parsed: string, speech: string)

  /** Both start as the raw content. */
  function InitialView(m: ChatMessage): View {
    View(m.content, m.content)
  }

  predicate HasSources(m: ChatMessage) {
    m.role == "assistant" && m.sources.Some? && |m.sources.value| > 0
  }

  /**
   * The effect as written: an assistant answer with sources gets its links
   * and returns early, leaving the speech text as it was; anything else is
   * shown as is and read without markers.
   */
  function EffectAsWritten(m: ChatMessage, prev: View): (v: View)
    ensures HasSources(m) ==> v.speech == prev.speech
    ensures !HasSources(m) ==> v == View(m.content, RemoveCitations(m.content))
  {
    if HasSources(m) then View(Linkify(m.content, m.sources.value), prev.speech)
    else View(m.content, RemoveCitations(m.content))
  }

  /** An answer with sources, rendered from the initial state, is read aloud with its markers. */
  lemma SpeechKeepsMarkers()
    ensures EffectAsWritten(ChatMessage("assistant", "[1]", Some([Source("", Some("u"), None)])),
                            InitialView(ChatMessage("assistant", "[1]", Some([Source("", Some("u"), None)])))).speech == "[1]"
    ensures RemoveCitations("[1]") == ""
  {
    assert "[1]" == "[" + "1" + "]";
    TokensOfMarker("1");
  }

  /** The effect with the speech text stripped of markers on both branches. */
  function Effect(m: ChatMessage, prev: View): (v: View)
    ensures v.speech == RemoveCitations(m.content)
    ensures HasSources(m) ==> v.parsed == Linkify(m.content, m.sources.value)
    ensures !HasSources(m) ==> v.parsed == m.content
  {
    View(if HasSources(m) then Linkify(m.content, m.sources.value) else m.content, RemoveCitations(m.content))
  }

  /** The corrected effect agrees with the original on everything but the speech of a sourced answer. */
  lemma EffectAgrees(m: ChatMessage, prev: View)
    ensures Effect(m, prev).parsed == EffectAsWritten(m, prev).parsed
    ensures !HasSources(m) ==> Effect(m, prev) == EffectAsWritten(m, prev)
  {
  }

  // ---------------------------------------------------------------------
  // PDF export of sources

  /** `${index + 1}. ${source.metadata?.url || 'N/A'}` for every source, in order. */
  function SourceLines(sources: seq<Source>): (lines: seq<string>)
    ensures |lines| == |sources|
    ensures forall i :: 0 <= i < |sources| ==>
              lines[i] == NatToString(i + 1) + ". " + (if Truthy(sources[i].url) then sources[i].url.value else "N/A")
  {
    seq(|sources|, i requires 0 <= i < |sources| =>
      NatToString(i + 1) + ". " + (if Truthy(sources[i].url) then sources[i].url.value else "N/A"))
  }

  /**
   * The export numbers sources the way the answer cites them: the line for
   * the source a marker `[n]` links to starts with `n. ` followed by that
   * same url.
   */
  lemma ExportMatchesCitation(sources: seq<Source>, n: nat)
    requires 1 <= n <= |sources| && Truthy(sources[n - 1].url)
    ensures SourceLines(sources)[n - 1] == NatToString(n) + ". " + SourceHref(sources, n)
  {
  }
}

=== FILE: model_selection.dfy ===
/**
 * The model-selection steps shared by the WebSocket connection handler and
 * the search route: a requested name, when truthy, wins; otherwise the
 * first key of the registry is taken, and taking the first model of a
 * provider the registry lacks throws (`Object.keys(undefined)`).
 */
module ModelSelection {
  import opened Wrappers
  import opened JsObjects
  import opened Providers

  /** `requested || Object.keys(registry)[0]`; `None` is `undefined`. */
  function PickProvider(requested: Option<string>, registry: Obj<ModelProvider>): (r: Option<string>)
    ensures Truthy(requested) ==> r == requested
    ensures !Truthy(requested) ==> r == FirstKey(registry)
    ensures r.None? <==> !Truthy(requested) && |registry| == 0
  {
    if Truthy(requested) then requested else FirstKey(registry)
  }

  /**
   * `requested || Object.keys(registry[provider])[0]`: fails (throws) when
   * the name is not given and the registry has no such provider.
   */
  function PickModel(requested: Option<string>, registry: Obj<ModelProvider>, provider: Option<string>): (r: Result<Option<string>, string>)
    ensures Truthy(requested) ==> r == Success(requested)
    ensures !Truthy(requested) && (provider.None? || !HasKey(registry, provider.value)) ==> r.Failure?
    ensures !Truthy(requested) && provider.Some? && HasKey(registry, provider.value) ==>
              r == Success(FirstKey(Get(registry, provider.value).value))
  {
    if Truthy(requested) then Success(requested)
    else if provider.None? then Failure("Cannot convert undefined or null to object")
    else
      match Get(registry, provider.value)
      case None => Failure("Cannot convert undefined or null to object")
      case Some(models) => Success(FirstKey(models))
  }

  /** `registry[provider] && registry[provider][model]`: the entry, when both names are present. */
  function Lookup(registry: Obj<ModelProvider>, provider: Option<string>, model: Option<string>): (r: Option<ModelEntry>)
    ensures r.Some? <==> provider.Some? && model.Some? && HasKey(registry, provider.value)
                         && HasKey(Get(registry, provider.value).value, model.value)
    ensures r.Some? ==> r == Get(Get(registry, provider.value).value, model.value)
  {
    if provider.None? || model.None? then None
    else
      match Get(registry, provider.value)
      case None => None
      case Some(models) => Get(models, model.value)
  }

  /** A model picked by default is the first one its provider lists, so looking it up finds it. */
  lemma DefaultModelFound(registry: Obj<ModelProvider>, provider: string)
    requires HasKey(registry, provider) && |Get(registry, provider).value| > 0
    ensures PickModel(None, registry, Some(provider)).Success?
    ensures Lookup(registry, Some(provider), PickModel(None, registry, Some(provider)).value).Some?
  {
  }
}

=== FILE: models_route.dfy ===
/**
 * `GET /api/models` (src/routes/models.ts): both provider registries, with
 * the constructed model object dropped from every entry so that only what
 * can be sent as JSON (the display name) remains.
 */
module ModelsRoute {
  import opened Wrappers
  import opened JsObjects
  import opened Providers

  /** A registry entry without its `model` property. */
  datatype SanitisedEntry = SanitisedEntry(displayName: string)

  datatype Reply =
    | Models(chatModelProviders: Obj<Obj<SanitisedEntry>>, embeddingModelProviders: Obj<Obj<SanitisedEntry>>)
    | ErrorReply(status: nat, error: string)

  /** `const { model: _, ...rest } = entry`. */
  function Strip(e: ModelEntry): SanitisedEntry {
    SanitisedEntry(e.displayName)
  }

  /** The inner `forEach`: each model of the provider assigned, stripped, onto `{}`. */
  function SanitiseProvider(models: ModelProvider): Obj<SanitisedEntry> {
    PutAll([], MapValues(models, Strip))
  }

  /** The outer `forEach`: each provider assigned its sanitised models. */
  function Sanitise(registry: Obj<ModelProvider>): Obj<Obj<SanitisedEntry>> {
    PutAll([], MapValues(registry, SanitiseProvider))
  }

  /** The route once both registries are loaded; a throw from either is a 500. */
  function GetModels(chatsR: Result<Obj<ModelProvider>, string>, embsR: Result<Obj<ModelProvider>, string>): (r: Reply)
    ensures r.ErrorReply? <==> chatsR.Failure? || embsR.Failure?
    ensures r.ErrorReply? ==> r == ErrorReply(500, "Failed to get models")
  {
    if chatsR.Failure? || embsR.Failure? then ErrorReply(500, "Failed to get models")
    else Models(Sanitise(chatsR.value), Sanitise(embsR.value))
  }

  /** The route with the chat and embedding loaders as parameters. */
  function HandleGetModels(chatLoad: Loader, embLoad: Loader): (r: Reply)
    ensures r.Models? <==> GetAvailableChatModelProviders(chatLoad).Success? && GetAvailableEmbeddingModelProviders(embLoad).Success?
  {
    GetModels(GetAvailableChatModelProviders(chatLoad), GetAvailableEmbeddingModelProviders(embLoad))
  }

  /** Stripping a provider keeps its models, in order, each with its display name. */
  lemma SanitiseProviderGet(models: ModelProvider, m: string)
    requires ValidObj(models)
    ensures Keys(SanitiseProvider(models)) == Keys(models)
    ensures Get(SanitiseProvider(models), m) ==
              if HasKey(models, m) then Some(SanitisedEntry(Get(models, m).value.displayName)) else None
  {
    CopyLoop(MapValues(models, Strip));
    MapValuesGet(models, Strip, m);
  }

  /** Sanitising a registry keeps its providers, in order, each with its sanitised models. */
  lemma SanitiseGet(registry: Obj<ModelProvider>, p: string)
    requires ValidObj(registry)
    ensures Keys(Sanitise(registry)) == Keys(registry)
    ensures Get(Sanitise(registry), p) ==
              if HasKey(registry, p) then Some(SanitiseProvider(Get(registry, p).value)) else None
  {
    CopyLoop(MapValues(registry, SanitiseProvider));
    MapValuesGet(registry, SanitiseProvider, p);
  }

  /**
   * Every model a loaded provider lists reaches the client under the same
   * provider and model names with its display name; and `custom_openai`
   * is always listed, with no models.
   */
  lemma ModelsReachClient(chatLoad: Loader, embLoad: Loader, p: string, m: string)
    requires HandleGetModels(chatLoad, embLoad).Models?
    requires p in ChatProviderNames && |chatLoad(p).value| > 0 && ValidObj(chatLoad(p).value) && HasKey(chatLoad(p).value, m)
    ensures HasKey(HandleGetModels(chatLoad, embLoad).chatModelProviders, p)
    ensures Get(Get(HandleGetModels(chatLoad, embLoad).chatModelProviders, p).value, m)
            == Some(SanitisedEntry(Get(chatLoad(p).value, m).value.displayName))
    ensures Get(HandleGetModels(chatLoad, embLoad).chatModelProviders, CustomOpenAI) == Some([])
  {
    var reg := GetAvailableChatModelProviders(chatLoad).value;
    SanitiseGet(reg, p);
    SanitiseGet(reg, CustomOpenAI);
    SanitiseProviderGet(chatLoad(p).value, m);
    assert PutAll([], MapValues([], Strip)) == [];
  }
}

=== FILE: navbar.dfy ===
/**
 * The chat title shown in the navigation bar (ui/components/Navbar.tsx):
 * taken from the first message of the chat, cut to 20 characters, trimmed
 * and marked with `...` when longer. Lengths count Dafny characters.
 */
module Navbar {
  import opened Strings

  const TitleLimit := 20
  const Ellipsis := "..."

  /** The title for a first message with the given content. */
  function TitleOf(content: string): (t: string)
    ensures |content| <= TitleLimit ==> t == content
    ensures |content| > TitleLimit ==> t == Trim(content[..TitleLimit]) + Ellipsis
  {
    if |content| > TitleLimit then Trim(content[..TitleLimit]) + Ellipsis else content
  }

  /** The effect on the message list: no message leaves the title as it was. */
  function NextTitle(firstMessages: seq<string>, title: string): (t: string)
    ensures |firstMessages| == 0 ==> t == title
    ensures |firstMessages| > 0 ==> t == TitleOf(firstMessages[0])
  {
    if |firstMessages| > 0 then TitleOf(firstMessages[0]) else title
  }

  /**
   * A shortened title is at most 23 characters, ends with `...`, and what
   * precedes the dots is a trimmed piece of the message's first 20
   * characters.
   */
  lemma TruncatedTitleShape(content: string)
    requires |content| > TitleLimit
    ensures |TitleOf(content)| <= TitleLimit + |Ellipsis|
    ensures TitleOf(content)[|TitleOf(content)| - 3..] == Ellipsis
    ensures IsTrimmed(TitleOf(content)[..|TitleOf(content)| - 3])
    ensures forall c :: c in TitleOf(content)[..|TitleOf(content)| - 3] ==> c in content[..TitleLimit]
  {
    var t := TitleOf(content);
    var head := Trim(content[..TitleLimit]);
    assert t[..|t| - 3] == head;
    assert t[|t| - 3..] == Ellipsis;
    forall c | c in head ensures c in content[..TitleLimit] {
      TrimKeepsCharacters(content[..TitleLimit], c);
    }
  }

  /** Every title is at most 23 characters long. */
  lemma TitleBounded(content: string)
    ensures |TitleOf(content)| <= TitleLimit + |Ellipsis|
  {
  }
}

=== FILE: output_parsers.dfy ===
/**
 * The two output parsers applied to model replies:
 * `ListLineOutputParser` (src/lib/outputParsers/listLineOutputParser.ts),
 * which extracts one item per line from between `<key>` and `</key>`, and
 * `LineOutputParser` (src/lib/outputParsers/lineOutputParser.ts), which
 * trims a single line.
 */
module OutputParsers {
  import opened Wrappers
  import opened Strings

  // ---------------------------------------------------------------------
  // ListLineOutputParser

  const DefaultListKey := "suggestions"

  datatype ListLineParser = ListLineParser(key: string)

  /** Constructor options: `{ key?: string }`, the whole object itself optional. */
  datatype KeyOptions = KeyOptions(key: Option<string>)

  /** `new ListLineOutputParser(options)`: the key is `options?.key ?? 'suggestions'`. */
  function NewListLineParser(options: Option<KeyOptions>): (p: ListLineParser)
    ensures options.Some? && options.value.key.Some? ==> p.key == options.value.key.value
    ensures (options.None? || options.value.key.None?) ==> p.key == DefaultListKey
  {
    if options.Some? && options.value.key.Some? then ListLineParser(options.value.key.value)
    else ListLineParser(DefaultListKey)
  }

  function OpenTag(key: string): string {
    "<" + key + ">"
  }

  function CloseTag(key: string): string {
    "</" + key + ">"
  }

  /** Every item the parser can return: non-empty, trimmed, on one line. */
  predicate IsItem(s: string) {
    |s| > 0 && IsTrimmed(s) && '\n' !in s
  }

  /** The trimmed pieces that are not empty, in order. */
  function NonEmptyTrimmed(pieces: seq<string>): (r: seq<string>)
    requires forall i :: 0 <= i < |pieces| ==> '\n' !in pieces[i]
    ensures forall i :: 0 <= i < |r| ==> IsItem(r[i])
    ensures |r| <= |pieces|
  {
    if |pieces| == 0 then []
    else
      var t := Trim(pieces[0]);
      var rest := NonEmptyTrimmed(pieces[1..]);
      assert '\n' !in t by {
        if '\n' in t {
          TrimKeepsCharacters(pieces[0], '\n');
        }
      }
      if |t| > 0 then [t] + rest else rest
  }

  /** `text.split('\n').map(l => l.trim()).filter(l => l.length > 0)`. */
  function Lines(text: string): (r: seq<string>)
    ensures forall i :: 0 <= i < |r| ==> IsItem(r[i])
  {
    NonEmptyTrimmed(Split(text, '\n'))
  }

  /** `text.slice(start, end)` for indices inside the text: empty when `end` precedes `start`. */
  function Slice(text: string, start: nat, end: nat): string
    requires start <= |text| && end <= |text|
  {
    if start <= end then text[start..end] else ""
  }

  /**
   * `parse(text)`: without both tags, every non-empty trimmed line of the
   * whole text; with both, only the lines of the trimmed slice between the
   * end of the first open tag and the first close tag.
   */
  function ParseList(p: ListLineParser, text: string): (r: seq<string>)
    ensures forall i :: 0 <= i < |r| ==> IsItem(r[i])
    ensures (IndexOf(text, OpenTag(p.key)).None? || IndexOf(text, CloseTag(p.key)).None?) ==> r == Lines(text)
  {
    var start := IndexOf(text, OpenTag(p.key));
    var end := IndexOf(text, CloseTag(p.key));
    if start.None? || end.None? then Lines(text)
    else Lines(Trim(Slice(text, start.value + |OpenTag(p.key)|, end.value)))
  }

  /**
   * Between the tags: when neither the text before the open tag nor the
   * text between the tags holds a `<`, the items are the lines of the
   * trimmed text between the tags, whatever follows the close tag.
   */
  lemma ParseListBetweenTags(key: string, pre: string, mid: string, post: string)
    requires PlainKey(key) && '<' !in pre && '<' !in mid
    ensures ParseList(ListLineParser(key), pre + OpenTag(key) + mid + CloseTag(key) + post) == Lines(Trim(mid))
  {
    var text := pre + OpenTag(key) + mid + CloseTag(key) + post;
    var s := |pre|;
    var e := |pre| + |OpenTag(key)| + |mid|;
    TagsAfter(key, pre, mid, post);
    MidOfText(pre + OpenTag(key), mid, CloseTag(key) + post);
    assert text == (pre + OpenTag(key)) + mid + (CloseTag(key) + post);
    ParseListAt(ListLineParser(key), text, s, e);
  }

  /** The slice between a prefix and a suffix is the middle part. */
  lemma MidOfText(a: string, m: string, b: string)
    ensures (a + m + b)[|a|..|a| + |m|] == m
  {
  }

  /** With both tags found in order, the items are the lines of the trimmed slice between them. */
  lemma ParseListAt(p: ListLineParser, text: string, s: nat, e: nat)
    requires IndexOf(text, OpenTag(p.key)) == Some(s) && IndexOf(text, CloseTag(p.key)) == Some(e)
    requires s + |OpenTag(p.key)| <= e
    ensures ParseList(p, text) == Lines(Trim(text[s + |OpenTag(p.key)|..e]))
  {
    IndexOfInside(text, CloseTag(p.key));
  }

  /** When the first close tag comes before the first open tag the slice is empty and so is the result. */
  lemma ParseListCloseBeforeOpen(p: ListLineParser, text: string)
    requires IndexOf(text, OpenTag(p.key)).Some? && IndexOf(text, CloseTag(p.key)).Some?
    requires IndexOf(text, CloseTag(p.key)).value < IndexOf(text, OpenTag(p.key)).value
    ensures ParseList(p, text) == []
  {
    assert Trim("") == "";
    assert Split("", '\n') == [""];
  }

  /** A separator-free list of items passes through `NonEmptyTrimmed` unchanged. */
  lemma {:induction false} NonEmptyTrimmedOfItems(xs: seq<string>)
    requires forall i :: 0 <= i < |xs| ==> IsItem(xs[i])
    requires forall i :: 0 <= i < |xs| ==> '\n' !in xs[i]
    ensures NonEmptyTrimmed(xs) == xs
  {
    if |xs| > 0 {
      TrimOfTrimmed(xs[0]);
      NonEmptyTrimmedOfItems(xs[1..]);
      assert xs == [xs[0]] + xs[1..];
    }
  }

  /** A tag name the round trip supports: no `<` or `/`. */
  predicate PlainKey(key: string) {
    '<' !in key && '/' !in key
  }

  /** The reply the format instructions ask for: the items one per line, wrapped in the tags. */
  function FormatList(key: string, items: seq<string>): string {
    OpenTag(key) + Join(items, '\n') + CloseTag(key)
  }

  /** No `<` anywhere in a join of `<`-free items. */
  lemma {:induction false} JoinHasNoAngle(items: seq<string>)
    requires forall i :: 0 <= i < |items| ==> '<' !in items[i]
    ensures '<' !in Join(items, '\n')
  {
    if |items| > 1 {
      JoinHasNoAngle(items[1..]);
    }
  }

  /** A join of items starts and ends with a non-space character. */
  lemma {:induction false} JoinOfItemsTrimmed(items: seq<string>)
    requires |items| >= 1
    requires forall i :: 0 <= i < |items| ==> IsItem(items[i])
    ensures |Join(items, '\n')| > 0
    ensures IsTrimmed(Join(items, '\n'))
  {
    assert IsItem(items[0]);
    if |items| > 1 {
      JoinOfItemsTrimmed(items[1..]);
      var rest := Join(items[1..], '\n');
      var j := items[0] + ['\n'] + rest;
      assert j[0] == items[0][0];
      assert j[|j| - 1] == rest[|rest| - 1];
    }
  }

  /**
   * Round trip: a reply formatted as the instructions ask parses back into
   * exactly the items, when the items and the key contain no `<`.
   */
  lemma ParseFormattedList(key: string, items: seq<string>)
    requires PlainKey(key)
    requires |items| >= 1
    requires forall i :: 0 <= i < |items| ==> IsItem(items[i]) && '<' !in items[i]
    ensures ParseList(ListLineParser(key), FormatList(key, items)) == items
  {
    var j := Join(items, '\n');
    JoinHasNoAngle(items);
    FormattedBetweenTags(key, j);
    JoinOfItemsTrimmed(items);
    TrimOfTrimmed(j);
    LinesOfJoin(items);
  }

  /** A formatted reply is its body between the tags, with nothing before or after. */
  lemma FormattedBetweenTags(key: string, j: string)
    requires PlainKey(key) && '<' !in j
    ensures ParseList(ListLineParser(key), OpenTag(key) + j + CloseTag(key)) == Lines(Trim(j))
  {
    assert OpenTag(key) + j + CloseTag(key) == "" + OpenTag(key) + j + CloseTag(key) + "";
    ParseListBetweenTags(key, "", j, "");
  }

  /** The lines of joined items are the items. */
  lemma LinesOfJoin(items: seq<string>)
    requires |items| >= 1
    requires forall i :: 0 <= i < |items| ==> IsItem(items[i])
    ensures Lines(Join(items, '\n')) == items
  {
    SplitJoin(items, '\n');
    NonEmptyTrimmedOfItems(items);
  }

  /**
   * In `pre + <key> + mid + </key> + post` with no `<` in `pre` or `mid`,
   * the first open tag ends `pre` and the first close tag follows `mid`.
   */
  lemma TagsAfter(key: string, pre: string, mid: string, post: string)
    requires PlainKey(key) && '<' !in pre && '<' !in mid
    ensures IndexOf(pre + OpenTag(key) + mid + CloseTag(key) + post, OpenTag(key)) == Some(|pre|)
    ensures IndexOf(pre + OpenTag(key) + mid + CloseTag(key) + post, CloseTag(key)) == Some(|pre| + |OpenTag(key)| + |mid|)
  {
    var o := OpenTag(key);
    var c := CloseTag(key);
    var text := pre + o + mid + c + post;
    assert OccursAt(text, o, |pre|) by { assert text[|pre|..|pre| + |o|] == o; }
    forall i: nat | i < |pre| ensures !OccursAt(text, o, i) {
      NoTagInPre(pre, o + mid + c + post, o, i);
      assert text == pre + (o + mid + c + post);
    }
    var e := |pre| + |o| + |mid|;
    assert OccursAt(text, c, e) by { assert text[e..e + |c|] == c; }
    forall i: nat | i < e ensures !OccursAt(text, c, i) {
      NoCloseTagBefore(key, pre, mid, post, i);
    }
  }

  /** A tag starts with `<`, so it does not start inside a `<`-free prefix. */
  lemma NoTagInPre(pre: string, rest: string, tag: string, i: nat)
    requires '<' !in pre && i < |pre| && |tag| > 0 && tag[0] == '<'
    ensures !OccursAt(pre + rest, tag, i)
  {
    assert pre[i] in pre;
    assert (pre + rest)[i] == pre[i];
  }

  lemma NoCloseTagBefore(key: string, pre: string, mid: string, post: string, i: nat)
    requires PlainKey(key) && '<' !in pre && '<' !in mid
    requires i < |pre| + |OpenTag(key)| + |mid|
    ensures !OccursAt(pre + OpenTag(key) + mid + CloseTag(key) + post, CloseTag(key), i)
  {
    var o := OpenTag(key);
    var c := CloseTag(key);
    var text := pre + o + mid + c + post;
    if i < |pre| {
      NoTagInPre(pre, o + mid + c + post, c, i);
      assert text == pre + (o + mid + c + post);
    } else if i + |c| <= |text| {
      var w := text[i..i + |c|];
      var k := i - |pre|;
      if k == 0 {
        if |key| > 0 {
          assert text[i + 1] == key[0];
          assert key[0] != '/';
        } else {
          assert text[i + 1] == '>';
        }
        assert w[1] != c[1];
      } else if k < |o| {
        if k < |o| - 1 { assert text[i] == key[k - 1]; } else { assert text[i] == '>'; }
        assert w[0] != c[0];
      } else {
        assert text[i] == mid[k - |o|];
        assert w[0] != c[0];
      }
    }
  }

  /** A reply content part: a bare string, a `{type: 'text'}` part, or some other part. */
  datatype ContentPart = StringPart(s: string) | TextPart(text: string) | OtherPart

  /** `BaseMessageChunk.content`: a string, an array of parts, or a single part. */
  datatype MessageContent = Plain(s: string) | Parts(parts: seq<ContentPart>) | Single(part: ContentPart)

  predicate IsTextContent(p: ContentPart) {
    p.StringPart? || p.TextPart?
  }

  function PartText(p: ContentPart): string
    requires IsTextContent(p)
  {
    if p.StringPart? then p.s else p.text
  }

  /** The texts of the text parts, in order. */
  function TextsOf(parts: seq<ContentPart>): (r: seq<string>)
    ensures |r| <= |parts|
  {
    if |parts| == 0 then []
    else if IsTextContent(parts[0]) then [PartText(parts[0])] + TextsOf(parts[1..])
    else TextsOf(parts[1..])
  }

  /** `extractText`: a string verbatim, text parts joined by newlines, a single text part's text, else empty. */
  function ExtractText(content: MessageContent): (r: string)
    ensures content.Plain? ==> r == content.s
    ensures content.Parts? && TextsOf(content.parts) == [] ==> r == ""
    ensures content.Parts? && |TextsOf(content.parts)| == 1 ==> r == TextsOf(content.parts)[0]
    ensures content.Single? && IsTextContent(content.part) ==> r == PartText(content.part)
    ensures content.Single? && !IsTextContent(content.part) ==> r == ""
  {
    match content
    case Plain(s) => s
    case Parts(parts) => Join(TextsOf(parts), '\n')
    case Single(part) => if IsTextContent(part) then PartText(part) else ""
  }

  /** The text parts can be recovered from the extracted text when none of them spans lines. */
  lemma ExtractTextSplitsIntoParts(parts: seq<ContentPart>)
    requires |TextsOf(parts)| >= 1
    requires forall i :: 0 <= i < |TextsOf(parts)| ==> '\n' !in TextsOf(parts)[i]
    ensures Split(ExtractText(Parts(parts)), '\n') == TextsOf(parts)
  {
    SplitJoin(TextsOf(parts), '\n');
  }

  /** A parser input: a raw string or a message chunk. */
  datatype ParserInput = RawText(s: string) | Chunk(content: MessageContent)

  /** `invoke`: parse a string directly, or the text extracted from a chunk. */
  function Invoke(p: ListLineParser, input: ParserInput): (r: seq<string>)
    ensures forall i :: 0 <= i < |r| ==> IsItem(r[i])
  {
    match input
    case RawText(s) => ParseList(p, s)
    case Chunk(content) => ParseList(p, ExtractText(content))
  }

  /** `getFormatInstructions()`: mentions the open tag of the parser's key. */
  function FormatInstructions(p: ListLineParser): (r: string)
    ensures OccursAt(r, OpenTag(p.key), |InstructionsPrefix|)
  {
    var r := InstructionsPrefix + OpenTag(p.key) + " tags.";
    assert r[|InstructionsPrefix|..|InstructionsPrefix| + |OpenTag(p.key)|] == OpenTag(p.key);
    r
  }

  const InstructionsPrefix := "Return your response as a list, with each item on a new line, wrapped in "

  // ---------------------------------------------------------------------
  // LineOutputParser

  const DefaultLineKey := "questions"

  datatype LineParser = LineParser(key: string)

  datatype LineParserArgs = LineParserArgs(key: Option<string>)

  /**
   * `new LineOutputParser(args)`: `args.key ?? 'questions'`; without an
   * argument the constructor reads `key` of `undefined` and throws.
   */
  function NewLineParser(args: Option<LineParserArgs>): (r: Result<LineParser, string>)
    ensures args.None? <==> r.Failure?
    ensures args.Some? && args.value.key.Some? ==> r == Success(LineParser(args.value.key.value))
    ensures args.Some? && args.value.key.None? ==> r == Success(LineParser(DefaultLineKey))
  {
    match args
    case None => Failure("TypeError: Cannot read properties of undefined (reading 'key')")
    case Some(a) => Success(LineParser(a.key.GetOr(DefaultLineKey)))
  }

  /**
   * `parse(text)`: the text with the white space at both ends dropped; the
   * key plays no part. The result is the slice of `text` that follows its
   * leading white space, only white space follows it, and it keeps every
   * other character of `text`, in order.
   */
  function ParseLine(p: LineParser, text: string): (r: string)
    ensures IsTrimmed(r)
    ensures LeadingSpaces(text) + |r| <= |text| && r == text[LeadingSpaces(text)..LeadingSpaces(text) + |r|]
    ensures AllSpace(text[LeadingSpaces(text) + |r|..])
    ensures NonSpace(r) == NonSpace(text)
  {
    TrimKeepsNonSpace(text);
    Trim(text)
  }

  /** Parsing a parsed line changes nothing. */
  lemma ParseLineIdempotent(p: LineParser, text: string)
    ensures ParseLine(p, ParseLine(p, text)) == ParseLine(p, text)
  {
    TrimIdempotent(text);
  }

  const LineFormatInstructions := "Return your response as a single line of text."
}

=== FILE: pro_mode.dfy ===
/**
 * The six-step wizard of the professional analysis page
 * (ui/app/pro-mode/ProModeContent.js): detail level, report type, company
 * information, website analysis, questions, report. The page is a state
 * value and every click, edit or completed request is an event. A request
 * is split into its start (the click, which sets `loading`) and its
 * completion (the reply arriving, which clears it); while a request is
 * pending no step is rendered, so no other user event can happen.
 */
module ProMode {
  import opened Wrappers
  import opened JsObjects

  datatype DetailLevel = Quick | Detailed

  /** The ids of the six report cards. */
  const ReportTypes: seq<string> :=
    ["market_analysis", "competitor_analysis", "icp_report", "gap_analysis", "market_assessment", "impact_assessment"]

  datatype Field = CompanyName | Industry | WebsiteUrl

  /** `formData`; `focus_areas` starts empty and no input changes it. */
  datatype CompanyInfo = CompanyInfo(companyName: string, industry: string, websiteUrl: string, focusAreas: seq<string>)

  datatype Question = Question(id: string, question: string)

  /** The three requests the page makes. */
  datatype Request = AnalyzeWebsite | GenerateQuestions | GenerateReport

  /** A completed request: the fetch or decoding threw, or a body with its `status === 'success'` test. */
  datatype Reply<T> = Threw | Replied(success: bool, data: T, message: Option<string>)

  /**
   * The page's state. `pending` is the request in flight, so `loading`
   * is `pending.Some?`; `error` is `None` for `null` (and for an
   * `undefined` message).
   */
  datatype Wizard = Wizard(
    step: nat, pending: Option<Request>, error: Option<string>,
    detailLevel: Option<DetailLevel>, reportType: Option<string>, form: CompanyInfo,
    websiteAnalysis: Option<string>, questions: seq<Question>, answers: Obj<string>, report: Option<string>)

  predicate Loading(w: Wizard) {
    w.pending.Some?
  }

  const EmptyInfo := CompanyInfo("", "", "", [])

  /** The state after mounting. */
  const Init := Wizard(1, None, None, None, None, EmptyInfo, None, [], [], None)

  datatype Event =
    | ChooseDetail(level: DetailLevel)
    | ChooseReport(id: string)
    | Continue
    | Back
    | Edit(field: Field, value: string)
    | SubmitCompany
    | RequestQuestions
    | Answer(questionId: string, value: string)
    | RequestReport
    | StartNew
    | AnalysisDone(analysisReply: Reply<string>)
    | QuestionsDone(questionsReply: Reply<seq<Question>>)
    | ReportDone(reportReply: Reply<string>)

  predicate IsCompletion(e: Event) {
    e.AnalysisDone? || e.QuestionsDone? || e.ReportDone?
  }

  /** `Object.keys(answers).length === questions.length`: the Generate Report button is enabled. */
  predicate ReportEnabled(w: Wizard) {
    |Keys(w.answers)| == |w.questions|
  }

  predicate Asked(w: Wizard, id: string) {
    exists i :: 0 <= i < |w.questions| && w.questions[i].id == id
  }

  /** `handleInputChange` on blur of a step-3 input. */
  function EditInfo(info: CompanyInfo, f: Field, v: string): CompanyInfo {
    match f
    case CompanyName => info.(companyName := v)
    case Industry => info.(industry := v)
    case WebsiteUrl => info.(websiteUrl := v)
  }

  /** A click that starts a request: `setLoading(true); setError(null)`. */
  function Begin(w: Wizard, req: Request): Wizard {
    w.(pending := Some(req), error := None)
  }

  /** The error a completion shows: the fixed text for a throw, else the reply's message. */
  function FailureText<T>(r: Reply<T>, thrown: string): Option<string> {
    if r.Threw? then Some(thrown) else r.message
  }

  predicate Succeeded<T>(r: Reply<T>) {
    r.Replied? && r.success
  }

  const AnalyzeFailed := "Failed to analyze website. Please try again."
  const QuestionsFailed := "Failed to generate questions. Please try again."
  const ReportFailed := "Failed to generate report. Please try again."

  /** The user events, which only the rendered step offers. */
  function UserStep(w: Wizard, e: Event): (r: Wizard)
    requires !IsCompletion(e)
    ensures r.step == w.step || (e.Continue? && r.step == w.step + 1) || (e.Back? && r.step + 1 == w.step)
            || (e.StartNew? && r.step == 1)
    ensures r.pending != w.pending ==> r.pending.Some? && r.error.None?
    ensures e.StartNew? || (r.websiteAnalysis == w.websiteAnalysis && r.questions == w.questions && r.report == w.report)
    ensures r.answers == w.answers || e.Answer? || e.StartNew?
  {
    match e
    case ChooseDetail(l) => if w.step == 1 then w.(detailLevel := Some(l)) else w
    case ChooseReport(id) => if w.step == 2 && id in ReportTypes then w.(reportType := Some(id)) else w
    case Continue =>
      if w.step == 1 && w.detailLevel.Some? then w.(step := 2)
      else if w.step == 2 && w.reportType.Some? then w.(step := 3)
      else w
    case Back => if 2 <= w.step <= 6 then w.(step := w.step - 1) else w
    case Edit(f, v) => if w.step == 3 then w.(form := EditInfo(w.form, f, v)) else w
    case SubmitCompany =>
      // the browser submits only when the two `required` inputs are filled
      if w.step == 3 && w.form.companyName != "" && w.form.industry != "" then Begin(w, AnalyzeWebsite) else w
    case RequestQuestions => if w.step == 4 then Begin(w, GenerateQuestions) else w
    case Answer(id, v) => if w.step == 5 && Asked(w, id) then w.(answers := Put(w.answers, id, v)) else w
    case RequestReport => if w.step == 5 && ReportEnabled(w) then Begin(w, GenerateReport) else w
    case StartNew =>
      // `error` and `loading` are not among the states reset
      if w.step == 6 then Init.(pending := w.pending, error := w.error) else w
  }

  /** A reply arriving for the pending request; `finally` clears `loading`. */
  function CompletionStep(w: Wizard, e: Event): (r: Wizard)
    requires IsCompletion(e)
    ensures w.pending.None? ==> r == w
    ensures r != w ==> r.pending.None?
    ensures r.form == w.form && r.detailLevel == w.detailLevel && r.reportType == w.reportType && r.answers == w.answers
    ensures r.step != w.step ==> 4 <= r.step <= 6
  {
    match e
    case AnalysisDone(r) =>
      if w.pending != Some(AnalyzeWebsite) then w
      else if Succeeded(r) then w.(pending := None, websiteAnalysis := Some(r.data), step := 4)
      else w.(pending := None, error := FailureText(r, AnalyzeFailed))
    case QuestionsDone(r) =>
      if w.pending != Some(GenerateQuestions) then w
      else if Succeeded(r) then w.(pending := None, questions := r.data, step := 5)
      else w.(pending := None, error := FailureText(r, QuestionsFailed))
    case ReportDone(r) =>
      if w.pending != Some(GenerateReport) then w
      else if Succeeded(r) then w.(pending := None, report := Some(r.data), step := 6)
      else w.(pending := None, error := FailureText(r, ReportFailed))
  }

  /** One event. While a request is pending only its completion changes anything. */
  function Next(w: Wizard, e: Event): (r: Wizard)
    ensures Loading(w) && !IsCompletion(e) ==> r == w
    ensures IsCompletion(e) && r != w ==> !Loading(r)
  {
    if IsCompletion(e) then CompletionStep(w, e)
    else if Loading(w) then w
    else UserStep(w, e)
  }

  /** The state after a sequence of events. */
  function Run(w: Wizard, es: seq<Event>): Wizard
    decreases |es|
  {
    if |es| == 0 then w else Run(Next(w, es[0]), es[1..])
  }

  /**
   * What holds of every reachable state: the step is 1..6; a later step
   * has its earlier choices made; a pending request belongs to the step
   * that started it and no error shows meanwhile; and the report step is
   * only ever entered by a successful report, so it shows no error.
   */
  predicate Inv(w: Wizard) {
    && 1 <= w.step <= 6
    && (w.step >= 2 ==> w.detailLevel.Some?)
    && (w.reportType.Some? ==> w.reportType.value in ReportTypes)
    && (w.step >= 3 ==> w.reportType.Some?)
    && (w.step >= 4 ==> w.websiteAnalysis.Some?)
    && (w.step == 6 ==> w.report.Some? && w.error.None?)
    && (w.pending == Some(AnalyzeWebsite) ==> w.step == 3)
    && (w.pending == Some(GenerateQuestions) ==> w.step == 4)
    && (w.pending == Some(GenerateReport) ==> w.step == 5)
    && (Loading(w) ==> w.error.None?)
  }

  /** Every event keeps the invariant. */
  lemma NextKeepsInv(w: Wizard, e: Event)
    requires Inv(w)
    ensures Inv(Next(w, e))
  {
    if !IsCompletion(e) && !Loading(w) && e.StartNew? && w.step == 6 {
      assert Next(w, e) == Init.(pending := None, error := w.error);
    }
  }

  lemma {:induction false} RunKeepsInv(w: Wizard, es: seq<Event>)
    requires Inv(w)
    ensures Inv(Run(w, es))
    decreases |es|
  {
    if |es| > 0 {
      NextKeepsInv(w, es[0]);
      RunKeepsInv(Next(w, es[0]), es[1..]);
    }
  }

  /** Every state the page can reach satisfies the invariant. */
  lemma ReachableInv(es: seq<Event>)
    ensures Inv(Run(Init, es))
  {
    RunKeepsInv(Init, es);
  }

  /**
   * Start New Analysis, although it does not reset `error` or `loading`,
   * brings every reachable state back to exactly the initial state.
   */
  lemma StartNewRestoresInit(es: seq<Event>)
    requires Run(Init, es).step == 6 && !Loading(Run(Init, es))
    ensures Next(Run(Init, es), StartNew) == Init
  {
    ReachableInv(es);
  }

  /** Continue leaves step 1 exactly when a detail level was chosen, and step 2 when a report type was. */
  lemma ContinueGuards(w: Wizard)
    requires !Loading(w)
    ensures w.step == 1 ==> (Next(w, Continue).step == 2 <==> w.detailLevel.Some?)
    ensures w.step == 2 ==> (Next(w, Continue).step == 3 <==> w.reportType.Some?)
    ensures w.step !in {1, 2} ==> Next(w, Continue) == w
  {
  }

  /** Back moves from step k to step k-1 for k in 2..6 and changes nothing else. */
  lemma BackStep(w: Wizard)
    requires Inv(w) && !Loading(w)
    ensures w.step >= 2 ==> Next(w, Back) == w.(step := w.step - 1)
    ensures w.step == 1 ==> Next(w, Back) == w
  {
  }

  /**
   * A completion of the pending request: success moves to the next step
   * with the reply's data; failure keeps the step and shows the error;
   * either way `loading` ends.
   */
  lemma AnalysisCompletion(w: Wizard, r: Reply<string>)
    requires w.pending == Some(AnalyzeWebsite)
    ensures !Loading(Next(w, AnalysisDone(r)))
    ensures Succeeded(r) ==> Next(w, AnalysisDone(r)).step == 4 && Next(w, AnalysisDone(r)).websiteAnalysis == Some(r.data)
    ensures !Succeeded(r) ==> Next(w, AnalysisDone(r)) == w.(pending := None, error := FailureText(r, AnalyzeFailed))
  {
  }

  lemma QuestionsCompletion(w: Wizard, r: Reply<seq<Question>>)
    requires w.pending == Some(GenerateQuestions)
    ensures !Loading(Next(w, QuestionsDone(r)))
    ensures Succeeded(r) ==> Next(w, QuestionsDone(r)).step == 5 && Next(w, QuestionsDone(r)).questions == r.data
    ensures !Succeeded(r) ==> Next(w, QuestionsDone(r)) == w.(pending := None, error := FailureText(r, QuestionsFailed))
  {
  }

  lemma ReportCompletion(w: Wizard, r: Reply<string>)
    requires w.pending == Some(GenerateReport)
    ensures !Loading(Next(w, ReportDone(r)))
    ensures Succeeded(r) ==> Next(w, ReportDone(r)).step == 6 && Next(w, ReportDone(r)).report == Some(r.data)
    ensures !Succeeded(r) ==> Next(w, ReportDone(r)) == w.(pending := None, error := FailureText(r, ReportFailed))
  {
  }

  /** A request from a reachable state is always completed with `loading` false. */
  lemma LoadingEndsAfterRequest(es: seq<Event>, e: Event)
    requires Loading(Run(Init, es)) && IsCompletion(e)
    requires (e.AnalysisDone? && Run(Init, es).pending == Some(AnalyzeWebsite))
          || (e.QuestionsDone? && Run(Init, es).pending == Some(GenerateQuestions))
          || (e.ReportDone? && Run(Init, es).pending == Some(GenerateReport))
    ensures !Loading(Run(Init, es + [e]))
    ensures Inv(Run(Init, es + [e]))
  {
    RunSnoc(Init, es, e);
    ReachableInv(es + [e]);
  }

  lemma {:induction false} RunSnoc(w: Wizard, es: seq<Event>, e: Event)
    ensures Run(w, es + [e]) == Next(Run(w, es), e)
    decreases |es|
  {
    if |es| == 0 {
      assert es + [e] == [e];
      assert [e][1..] == [];
    } else {
      assert (es + [e])[1..] == es[1..] + [e];
      RunSnoc(Next(w, es[0]), es[1..], e);
    }
  }

  /** Report generation starts exactly when the number of answers equals the number of questions. */
  lemma RequestReportGuard(w: Wizard)
    requires !Loading(w) && w.step == 5
    ensures Next(w, RequestReport).pending == Some(GenerateReport) <==> ReportEnabled(w)
  {
  }

  /** `handleAnswerChange` sets exactly one answer and leaves the others unchanged. */
  lemma AnswerSetsOneKey(w: Wizard, id: string, v: string, other: string)
    requires !Loading(w) && w.step == 5 && Asked(w, id) && other != id
    ensures Get(Next(w, Answer(id, v)).answers, id) == Some(v)
    ensures Get(Next(w, Answer(id, v)).answers, other) == Get(w.answers, other)
  {
    AnswerStep(w, id, v);
  }

  lemma AnswerStep(w: Wizard, id: string, v: string)
    requires !Loading(w) && w.step == 5 && Asked(w, id)
    ensures Next(w, Answer(id, v)).answers == Put(w.answers, id, v)
  {
    assert UserStep(w, Answer(id, v)) == w.(answers := Put(w.answers, id, v));
  }

  lemma {:induction false} RunAppend(w: Wizard, a: seq<Event>, b: seq<Event>)
    ensures Run(w, a + b) == Run(Run(w, a), b)
    decreases |a|
  {
    if |a| == 0 {
      assert a + b == b;
    } else {
      assert (a + b)[1..] == a[1..] + b;
      RunAppend(Next(w, a[0]), a[1..], b);
    }
  }

  /** One step of a run. */
  lemma RunStep(w: Wizard, es: seq<Event>)
    requires |es| > 0
    ensures Run(w, es) == Run(Next(w, es[0]), es[1..])
  {
  }

  const Q1 := Question("q1", "first")
  const Q2 := Question("q2", "second")

  /** Choose a detail level and a report type. */
  const ChooseBoth: seq<Event> := [ChooseDetail(Quick), Continue, ChooseReport("icp_report"), Continue]

  /** Fill in the company and have the website analysed. */
  const Analyse: seq<Event> :=
    [Edit(CompanyName, "Acme"), Edit(Industry, "retail"), SubmitCompany, AnalysisDone(Replied(true, "site", None))]

  /** Get one question and answer it. */
  const AnswerFirst: seq<Event> := [RequestQuestions, QuestionsDone(Replied(true, [Q1], None)), Answer("q1", "yes")]

  /** Go back and get a different question. */
  const Regenerate: seq<Event> := [Back, RequestQuestions, QuestionsDone(Replied(true, [Q2], None))]

  lemma ChooseBothReaches()
    ensures Run(Init, ChooseBoth) == Init.(detailLevel := Some(Quick), reportType := Some("icp_report"), step := 3)
  {
    var es := ChooseBoth;
    var w1 := Init.(detailLevel := Some(Quick));
    var w2 := w1.(step := 2);
    var w3 := w2.(reportType := Some("icp_report"));
    var w4 := w3.(step := 3);
    RunStep(Init, es);
    assert Next(Init, es[0]) == w1;
    RunStep(w1, es[1..]);
    assert Next(w1, es[1]) == w2;
    RunStep(w2, es[2..]);
    assert Next(w2, es[2]) == w3;
    RunStep(w3, es[3..]);
    assert Next(w3, es[3]) == w4;
    assert es[4..] == [];
  }

  lemma AnalyseReaches(w: Wizard)
    requires w.step == 3 && !Loading(w)
    ensures Run(w, Analyse).step == 4 && !Loading(Run(w, Analyse)) && Run(w, Analyse).answers == w.answers
  {
    var es := Analyse;
    var w1 := w.(form := w.form.(companyName := "Acme"));
    var w2 := w1.(form := w1.form.(industry := "retail"));
    var w3 := Begin(w2, AnalyzeWebsite);
    var w4 := w3.(pending := None, websiteAnalysis := Some("site"), step := 4);
    RunStep(w, es);
    assert Next(w, es[0]) == w1;
    RunStep(w1, es[1..]);
    assert Next(w1, es[1]) == w2;
    RunStep(w2, es[2..]);
    assert Next(w2, es[2]) == w3;
    RunStep(w3, es[3..]);
    assert Next(w3, es[3]) == w4;
    assert es[4..] == [];
  }

  lemma AnswerFirstReaches(w: Wizard)
    requires w.step == 4 && !Loading(w) && w.answers == []
    ensures Run(w, AnswerFirst).step == 5 && !Loading(Run(w, AnswerFirst))
    ensures Run(w, AnswerFirst).answers == [("q1", "yes")]
  {
    var es := AnswerFirst;
    var w1 := Begin(w, GenerateQuestions);
    var w2 := w1.(pending := None, questions := [Q1], step := 5);
    assert Asked(w2, "q1") by { assert w2.questions[0].id == "q1"; }
    var w3 := w2.(answers := [("q1", "yes")]);
    RunStep(w, es);
    assert Next(w, es[0]) == w1;
    RunStep(w1, es[1..]);
    assert Next(w1, es[1]) == w2;
    RunStep(w2, es[2..]);
    assert Next(w2, es[2]) == w3;
    assert es[3..] == [];
  }

  lemma RegenerateReaches(w: Wizard)
    requires w.step == 5 && !Loading(w) && w.answers == [("q1", "yes")]
    ensures Run(w, Regenerate).step == 5 && Run(w, Regenerate).questions == [Q2]
    ensures Run(w, Regenerate).answers == [("q1", "yes")]
  {
    var es := Regenerate;
    var w1 := w.(step := 4);
    var w2 := Begin(w1, GenerateQuestions);
    var w3 := w2.(pending := None, questions := [Q2], step := 5);
    RunStep(w, es);
    assert Next(w, es[0]) == w1;
    RunStep(w1, es[1..]);
    assert Next(w1, es[1]) == w2;
    RunStep(w2, es[2..]);
    assert Next(w2, es[2]) == w3;
    assert es[3..] == [];
  }

  /**
   * The button counts answer keys, not answered questions: an answer kept
   * from an earlier question list enables the report although the current
   * question has no answer.
   */
  lemma StaleAnswersEnableReport()
    ensures var w := Run(Init, ChooseBoth + Analyse + AnswerFirst + Regenerate);
            w.step == 5 && w.questions == [Q2] && Get(w.answers, "q2").None? && ReportEnabled(w)
  {
    RunAppend(Init, ChooseBoth + Analyse + AnswerFirst, Regenerate);
    RunAppend(Init, ChooseBoth + Analyse, AnswerFirst);
    RunAppend(Init, ChooseBoth, Analyse);
    ChooseBothReaches();
    AnalyseReaches(Run(Init, ChooseBoth));
    AnswerFirstReaches(Run(Init, ChooseBoth + Analyse));
    RegenerateReaches(Run(Init, ChooseBoth + Analyse + AnswerFirst));
    var w := Run(Init, ChooseBoth + Analyse + AnswerFirst + Regenerate);
    assert Keys(w.answers) == ["q1"];
  }
}

=== FILE: providers.dfy ===
/**
 * The model-provider registry (src/lib/providers/index.ts) and the Ollama
 * loaders (src/lib/providers/ollama.ts). A provider's models form an
 * object keyed by model name; the registry maps provider names to those
 * objects. Each provider's loader is a parameter that either yields its
 * models or throws (`Failure`).
 */
module Providers {
  import opened Wrappers
  import opened Strings
  import opened JsObjects

  /** The constructed model object; only the Ollama ones are built by code in this model. */
  datatype ModelHandle =
    | ChatOllama(baseUrl: string, model: string, temperature: real, keepAlive: string)
    | OllamaEmbeddings(baseUrl: string, model: string)
    | External(provider: string, name: string)

  /** `{ model, displayName }`. */
  datatype ModelEntry = ModelEntry(model: ModelHandle, displayName: string)

  /** The models of one provider, keyed by model name. */
  type ModelProvider = Obj<ModelEntry>

  /**
   * The loaders of one kind of model, by provider name: its models, or the
   * error it throws. The chat models and the embedding models of a
   * provider come from two different loaders.
   */
  type Loader = string -> Result<ModelProvider, string>

  /** The chat-model providers, in declaration order. */
  const ChatProviderNames: seq<string> := ["openai", "groq", "ollama", "anthropic", "gemini"]

  /** The embedding-model providers, in declaration order. */
  const EmbeddingProviderNames: seq<string> := ["openai", "local", "ollama", "gemini"]

  /** The entry appended for the OpenAI-compatible endpoint configured by URL and key. */
  const CustomOpenAI := "custom_openai"

  predicate Distinct(xs: seq<string>) {
    forall i, j :: 0 <= i < j < |xs| ==> xs[i] != xs[j]
  }

  /** The names whose loader yields at least one model, in order. */
  function NonEmptyProviders(names: seq<string>, load: Loader): seq<string>
    requires forall i :: 0 <= i < |names| ==> load(names[i]).Success?
  {
    if |names| == 0 then []
    else if |load(names[0]).value| > 0 then [names[0]] + NonEmptyProviders(names[1..], load)
    else NonEmptyProviders(names[1..], load)
  }

  /**
   * The loop of `getAvailable...ModelProviders`: loaders run one after the
   * other, the first one that throws aborts the whole call, and a provider
   * with no models is omitted.
   */
  function Gather(names: seq<string>, load: Loader): (r: Result<Obj<ModelProvider>, string>)
    requires Distinct(names)
    ensures r.Success? <==> forall i :: 0 <= i < |names| ==> load(names[i]).Success?
    ensures r.Failure? ==> exists i :: 0 <= i < |names| && load(names[i]) == Failure(r.error)
    ensures r.Success? ==> ValidObj(r.value) && Keys(r.value) == NonEmptyProviders(names, load)
    ensures r.Success? ==> FromLoaders(names, load, r.value)
  {
    if |names| == 0 then Success([])
    else
      match load(names[0])
      case Failure(e) => Failure(e)
      case Success(pm) =>
        assert Distinct(names[1..]);
        var rest := Gather(names[1..], load);
        if rest.Failure? then
          assert exists i :: 0 <= i < |names[1..]| && load(names[1..][i]) == Failure(rest.error);
          Failure(rest.error)
        else if |pm| > 0 then
          GatherCons(names, load, pm, rest.value);
          Success([(names[0], pm)] + rest.value)
        else rest
  }

  /** Every entry is a listed provider with the non-empty models its loader yields. */
  predicate FromLoaders(names: seq<string>, load: Loader, r: Obj<ModelProvider>) {
    forall i :: 0 <= i < |r| ==> r[i].0 in names && load(r[i].0) == Success(r[i].1) && |r[i].1| > 0
  }

  /** The step of `Gather` that keeps a provider with models. */
  lemma GatherCons(names: seq<string>, load: Loader, pm: ModelProvider, rest: Obj<ModelProvider>)
    requires Distinct(names) && |names| > 0 && load(names[0]) == Success(pm) && |pm| > 0
    requires forall i :: 0 <= i < |names| ==> load(names[i]).Success?
    requires ValidObj(rest) && Keys(rest) == NonEmptyProviders(names[1..], load)
    requires FromLoaders(names[1..], load, rest)
    ensures ValidObj([(names[0], pm)] + rest)
    ensures Keys([(names[0], pm)] + rest) == NonEmptyProviders(names, load)
    ensures FromLoaders(names, load, [(names[0], pm)] + rest)
  {
    forall i | 0 <= i < |rest| ensures rest[i].0 != names[0] {
      var k :| 0 <= k < |names[1..]| && names[1..][k] == rest[i].0;
      assert names[k + 1] == rest[i].0;
    }
    ConsEntry(names[0], pm, rest);
    var r := [(names[0], pm)] + rest;
    forall i | 0 <= i < |r| ensures r[i].0 in names && load(r[i].0) == Success(r[i].1) && |r[i].1| > 0 {
      if i > 0 {
        assert r[i] == rest[i - 1];
      }
    }
  }

  /** Putting a fresh provider in front keeps the keys distinct. */
  lemma ConsEntry(n: string, pm: ModelProvider, rest: Obj<ModelProvider>)
    requires ValidObj(rest)
    requires forall i :: 0 <= i < |rest| ==> rest[i].0 != n
    ensures ValidObj([(n, pm)] + rest)
    ensures Keys([(n, pm)] + rest) == [n] + Keys(rest)
  {
    ConsFacts((n, pm), rest);
    var r := [(n, pm)] + rest;
    forall i, j | 0 <= i < j < |r| ensures r[i].0 != r[j].0 {
      assert r[j] == rest[j - 1];
      if i > 0 {
        assert r[i] == rest[i - 1];
      }
    }
  }

  /** Only listed names are kept. */
  lemma {:induction false} NonEmptyListed(names: seq<string>, load: Loader)
    requires forall i :: 0 <= i < |names| ==> load(names[i]).Success?
    ensures forall x :: x in NonEmptyProviders(names, load) ==> x in names
  {
    if |names| > 0 {
      NonEmptyListed(names[1..], load);
    }
  }

  /** `getAvailableChatModelProviders`: the loaded chat providers, then an empty `custom_openai` entry. */
  function GetAvailableChatModelProviders(load: Loader): (r: Result<Obj<ModelProvider>, string>)
    ensures r.Success? <==> forall i :: 0 <= i < |ChatProviderNames| ==> load(ChatProviderNames[i]).Success?
    ensures r.Success? ==> ValidObj(r.value)
    ensures r.Success? ==> Keys(r.value) == NonEmptyProviders(ChatProviderNames, load) + [CustomOpenAI]
    ensures r.Success? ==> Get(r.value, CustomOpenAI) == Some([])
    ensures r.Success? ==> forall p :: p in ChatProviderNames && |load(p).value| > 0 ==> Get(r.value, p) == Some(load(p).value)
  {
    var g := Gather(ChatProviderNames, load);
    if g.Failure? then Failure(g.error)
    else
      NonEmptyListed(ChatProviderNames, load);
      assert CustomOpenAI !in ChatProviderNames;
      assert !HasKey(g.value, CustomOpenAI);
      var r := Put(g.value, CustomOpenAI, []);
      PutValid(g.value, CustomOpenAI, []);
      forall p | p in ChatProviderNames && |load(p).value| > 0 ensures Get(r, p) == Some(load(p).value) {
        GatherHas(ChatProviderNames, load, p);
      }
      Success(r)
  }

  /** `getAvailableEmbeddingModelProviders`: the loaded embedding providers. */
  function GetAvailableEmbeddingModelProviders(load: Loader): (r: Result<Obj<ModelProvider>, string>)
    ensures r.Success? <==> forall i :: 0 <= i < |EmbeddingProviderNames| ==> load(EmbeddingProviderNames[i]).Success?
    ensures r.Success? ==> ValidObj(r.value)
    ensures r.Success? ==> Keys(r.value) == NonEmptyProviders(EmbeddingProviderNames, load)
    ensures r.Success? ==> forall p :: p in EmbeddingProviderNames && |load(p).value| > 0 ==> Get(r.value, p) == Some(load(p).value)
  {
    var g := Gather(EmbeddingProviderNames, load);
    if g.Failure? then g
    else
      forall p | p in EmbeddingProviderNames && |load(p).value| > 0 ensures Get(g.value, p) == Some(load(p).value) {
        GatherHas(EmbeddingProviderNames, load, p);
      }
      g
  }

  /** A name list whose loaders all yield no models keeps nothing. */
  lemma {:induction false} NoneNonEmpty(names: seq<string>, load: Loader)
    requires forall n :: load(n) == Success([])
    ensures NonEmptyProviders(names, load) == []
  {
    if |names| > 0 {
      NoneNonEmpty(names[1..], load);
    }
  }

  /**
   * When no loader yields a model, the chat registry is just the empty
   * `custom_openai` entry and the embedding registry is empty.
   */
  lemma NoModelsRegistries(chatLoad: Loader, embLoad: Loader)
    requires forall n :: chatLoad(n) == Success([])
    requires forall n :: embLoad(n) == Success([])
    ensures GetAvailableChatModelProviders(chatLoad) == Success([(CustomOpenAI, [])])
    ensures GetAvailableEmbeddingModelProviders(embLoad) == Success([])
  {
    NoneNonEmpty(ChatProviderNames, chatLoad);
    NoneNonEmpty(EmbeddingProviderNames, embLoad);
    var chats := GetAvailableChatModelProviders(chatLoad).value;
    assert |chats| == 1 && chats[0].0 == CustomOpenAI;
    GetAt(chats, 0);
    assert chats == [(CustomOpenAI, [])];
    assert |GetAvailableEmbeddingModelProviders(embLoad).value| == 0;
  }

  /** A provider whose loader yields models appears in the gathered registry with those models. */
  lemma {:induction false} GatherHas(names: seq<string>, load: Loader, p: string)
    requires Distinct(names)
    requires Gather(names, load).Success?
    requires p in names && |load(p).value| > 0
    ensures Get(Gather(names, load).value, p) == Some(load(p).value)
  {
    var r := Gather(names, load).value;
    var i :| 0 <= i < |names| && names[i] == p;
    NonEmptyHas(names, load, i);
    assert p in Keys(r);
    var j :| 0 <= j < |r| && Keys(r)[j] == p;
    GetAt(r, j);
  }

  lemma {:induction false} NonEmptyHas(names: seq<string>, load: Loader, i: nat)
    requires forall k :: 0 <= k < |names| ==> load(names[k]).Success?
    requires i < |names| && |load(names[i]).value| > 0
    ensures names[i] in NonEmptyProviders(names, load)
  {
    if i > 0 {
      NonEmptyHas(names[1..], load, i - 1);
    }
  }

  /**
   * `getEmbeddingModel(provider, model)`: the named model of a known
   * provider; an unknown provider and an unknown model each throw with
   * their own message.
   */
  function GetEmbeddingModel(provider: string, model: string, load: Loader): (r: Result<ModelHandle, string>)
    ensures provider !in EmbeddingProviderNames ==> r == Failure("Invalid embedding model provider: " + provider)
    ensures provider in EmbeddingProviderNames && load(provider).Success? && !HasKey(load(provider).value, model) ==>
              r == Failure("Invalid embedding model: " + model)
    ensures r.Success? <==> provider in EmbeddingProviderNames && load(provider).Success? && HasKey(load(provider).value, model)
    ensures r.Success? ==> Get(load(provider).value, model).value.model == r.value
  {
    if provider !in EmbeddingProviderNames then Failure("Invalid embedding model provider: " + provider)
    else
      match load(provider)
      case Failure(e) => Failure(e)
      case Success(pm) =>
        match Get(pm, model)
        case None => Failure("Invalid embedding model: " + model)
        case Some(entry) => Success(entry.model)
  }

  /**
   * A model `getEmbeddingModel` resolves is one the registry lists under
   * the same provider, whenever the registry loads.
   */
  lemma EmbeddingModelListed(provider: string, model: string, load: Loader)
    requires GetEmbeddingModel(provider, model, load).Success?
    requires GetAvailableEmbeddingModelProviders(load).Success?
    ensures HasKey(GetAvailableEmbeddingModelProviders(load).value, provider)
    ensures HasKey(Get(GetAvailableEmbeddingModelProviders(load).value, provider).value, model)
  {
    assert |load(provider).value| > 0;
  }

  // ---------------------------------------------------------------------
  // Ollama

  /** One entry of the `models` array of `GET {endpoint}/api/tags`. */
  datatype OllamaTag = OllamaTag(model: string, name: string)

  const OllamaTemperature := 0.7

  /** The URL the Ollama loaders query. */
  function TagsUrl(endpoint: string): string {
    endpoint + "/api/tags"
  }

  /** The `reduce` of the loaders: one assignment per tag, in order, a repeated model name overwriting in place. */
  function ReduceTags(tags: seq<OllamaTag>, entry: OllamaTag -> ModelEntry): (r: ModelProvider)
    ensures ValidObj(r)
    ensures forall k :: HasKey(r, k) <==> exists i :: 0 <= i < |tags| && tags[i].model == k
  {
    var pairs := TagPairs(tags, entry);
    PutAllValid([], pairs);
    PutAllHasKey([], pairs);
    PutAll([], pairs)
  }

  function TagPairs(tags: seq<OllamaTag>, entry: OllamaTag -> ModelEntry): (r: Obj<ModelEntry>)
    ensures |r| == |tags|
    ensures forall i :: 0 <= i < |tags| ==> r[i] == (tags[i].model, entry(tags[i]))
  {
    if |tags| == 0 then [] else [(tags[0].model, entry(tags[0]))] + TagPairs(tags[1..], entry)
  }

  /** A repeated model name ends up with the entry built from its last tag. */
  lemma ReduceTagsLastWins(tags: seq<OllamaTag>, entry: OllamaTag -> ModelEntry, i: nat)
    requires i < |tags|
    requires forall j :: i < j < |tags| ==> tags[j].model != tags[i].model
    ensures Get(ReduceTags(tags, entry), tags[i].model) == Some(entry(tags[i]))
  {
    var pairs := TagPairs(tags, entry);
    PutAllGetLast([], pairs);
    assert Keys(pairs)[i] == tags[i].model;
    LastAt(pairs, i);
  }

  /** Every tag that is the last with its model name supplies that name's entry. */
  lemma ReduceTagsEntries(tags: seq<OllamaTag>, entry: OllamaTag -> ModelEntry)
    ensures forall i :: 0 <= i < |tags| && (forall j :: i < j < |tags| ==> tags[j].model != tags[i].model) ==>
              Get(ReduceTags(tags, entry), tags[i].model) == Some(entry(tags[i]))
  {
    forall i | 0 <= i < |tags| && (forall j :: i < j < |tags| ==> tags[j].model != tags[i].model)
      ensures Get(ReduceTags(tags, entry), tags[i].model) == Some(entry(tags[i]))
    {
      ReduceTagsLastWins(tags, entry, i);
    }
  }

  /** The value at position `i` is the last one for its key when no later position repeats the key. */
  lemma {:induction false} LastAt<V>(m: Obj<V>, i: nat)
    requires i < |m|
    requires forall j :: i < j < |m| ==> m[j].0 != m[i].0
    ensures GetLast(m, m[i].0) == Some(m[i].1)
  {
    if i == 0 {
      assert forall j :: 0 <= j < |m[1..]| ==> Keys(m[1..])[j] != m[0].0 by {
        forall j | 0 <= j < |m[1..]| ensures Keys(m[1..])[j] != m[0].0 {
          assert Keys(m[1..])[j] == m[j + 1].0;
        }
      }
    } else {
      LastAt(m[1..], i - 1);
    }
  }

  /**
   * `loadOllamaChatModels`: no request without a (non-empty) endpoint; a
   * failed request or malformed reply (`None`) yields no models; otherwise
   * one `ChatOllama` per tag.
   */
  function LoadOllamaChatModels(endpoint: Option<string>, keepAlive: string,
                                fetchTags: string -> Option<seq<OllamaTag>>): (r: ModelProvider)
    ensures !Truthy(endpoint) ==> r == []
    ensures Truthy(endpoint) && fetchTags(TagsUrl(endpoint.value)).None? ==> r == []
    ensures ValidObj(r)
    ensures Truthy(endpoint) && fetchTags(TagsUrl(endpoint.value)).Some? ==>
              forall k :: HasKey(r, k) <==>
                exists i :: 0 <= i < |fetchTags(TagsUrl(endpoint.value)).value| && fetchTags(TagsUrl(endpoint.value)).value[i].model == k
    ensures forall k :: HasKey(r, k) ==>
              Get(r, k).value.model == ChatOllama(endpoint.value, k, OllamaTemperature, keepAlive)
    ensures Truthy(endpoint) && fetchTags(TagsUrl(endpoint.value)).Some? ==>
              var tags := fetchTags(TagsUrl(endpoint.value)).value;
              forall i :: 0 <= i < |tags| && (forall j :: i < j < |tags| ==> tags[j].model != tags[i].model) ==>
                Get(r, tags[i].model) ==
                  Some(ModelEntry(ChatOllama(endpoint.value, tags[i].model, OllamaTemperature, keepAlive), tags[i].name))
  {
    if !Truthy(endpoint) then []
    else
      match fetchTags(TagsUrl(endpoint.value))
      case None => []
      case Some(tags) =>
        var entry := (t: OllamaTag) => ModelEntry(ChatOllama(endpoint.value, t.model, OllamaTemperature, keepAlive), t.name);
        var r := ReduceTags(tags, entry);
        ReduceTagsHandles(tags, entry, (k: string) => ChatOllama(endpoint.value, k, OllamaTemperature, keepAlive));
        ReduceTagsEntries(tags, entry);
        r
  }

  /** `loadOllamaEmbeddingsModels`: as the chat loader, building `OllamaEmbeddings`. */
  function LoadOllamaEmbeddingsModels(endpoint: Option<string>,
                                      fetchTags: string -> Option<seq<OllamaTag>>): (r: ModelProvider)
    ensures !Truthy(endpoint) ==> r == []
    ensures Truthy(endpoint) && fetchTags(TagsUrl(endpoint.value)).None? ==> r == []
    ensures ValidObj(r)
    ensures Truthy(endpoint) && fetchTags(TagsUrl(endpoint.value)).Some? ==>
              forall k :: HasKey(r, k) <==>
                exists i :: 0 <= i < |fetchTags(TagsUrl(endpoint.value)).value| && fetchTags(TagsUrl(endpoint.value)).value[i].model == k
    ensures forall k :: HasKey(r, k) ==> Get(r, k).value.model == OllamaEmbeddings(endpoint.value, k)
    ensures Truthy(endpoint) && fetchTags(TagsUrl(endpoint.value)).Some? ==>
              var tags := fetchTags(TagsUrl(endpoint.value)).value;
              forall i :: 0 <= i < |tags| && (forall j :: i < j < |tags| ==> tags[j].model != tags[i].model) ==>
                Get(r, tags[i].model) == Some(ModelEntry(OllamaEmbeddings(endpoint.value, tags[i].model), tags[i].name))
  {
    if !Truthy(endpoint) then []
    else
      match fetchTags(TagsUrl(endpoint.value))
      case None => []
      case Some(tags) =>
        var entry := (t: OllamaTag) => ModelEntry(OllamaEmbeddings(endpoint.value, t.model), t.name);
        var r := ReduceTags(tags, entry);
        ReduceTagsHandles(tags, entry, (k: string) => OllamaEmbeddings(endpoint.value, k));
        ReduceTagsEntries(tags, entry);
        r
  }

  /** When each entry's handle is determined by the model name, so is every handle in the result. */
  lemma ReduceTagsHandles(tags: seq<OllamaTag>, entry: OllamaTag -> ModelEntry, handle: string -> ModelHandle)
    requires forall t :: entry(t).model == handle(t.model)
    ensures forall k :: HasKey(ReduceTags(tags, entry), k) ==> Get(ReduceTags(tags, entry), k).value.model == handle(k)
  {
    var pairs := TagPairs(tags, entry);
    PutAllGetLast([], pairs);
    forall k | HasKey(ReduceTags(tags, entry), k)
      ensures Get(ReduceTags(tags, entry), k).value.model == handle(k)
    {
      assert HasKey(pairs, k);
      LastHasKey(pairs, k);
    }
  }

  /** The last value for `k` is stored at a position holding `k`. */
  lemma {:induction false} LastHasKey<V>(m: Obj<V>, k: string)
    requires HasKey(m, k)
    ensures exists i :: 0 <= i < |m| && m[i].0 == k && GetLast(m, k) == Some(m[i].1)
  {
    assert Keys(m) == [m[0].0] + Keys(m[1..]);
    if HasKey(m[1..], k) {
      LastHasKey(m[1..], k);
      var i :| 0 <= i < |m[1..]| && m[1..][i].0 == k && GetLast(m[1..], k) == Some(m[1..][i].1);
      assert m[i + 1] == m[1..][i];
    } else {
      assert m[0].0 == k;
    }
  }

  /** The unused `OllamaProvider` class: its (empty) model list and its list-append reducer. */
  datatype OllamaProvider = OllamaProvider(models: seq<OllamaTag>)

  function NewOllamaProvider(): (p: OllamaProvider)
    ensures |p.models| == 0
  {
    OllamaProvider([])
  }

  /** `getAvailableModels(acc, model)`: `[...acc, model]`. */
  function GetAvailableModels<T>(acc: seq<T>, model: T): (r: seq<T>)
    ensures |r| == |acc| + 1 && r[..|acc|] == acc && r[|acc|] == model
  {
    acc + [model]
  }

  /** Folding `getAvailableModels` over a list, starting from `acc`. */
  function FoldAvailable<T>(acc: seq<T>, xs: seq<T>): seq<T>
    decreases |xs|
  {
    if |xs| == 0 then acc else FoldAvailable(GetAvailableModels(acc, xs[0]), xs[1..])
  }

  /** Reducing a list with `getAvailableModels` from `[]` copies it. */
  lemma {:induction false} FoldAvailableCopies<T>(acc: seq<T>, xs: seq<T>)
    ensures FoldAvailable(acc, xs) == acc + xs
    decreases |xs|
  {
    if |xs| > 0 {
      FoldAvailableCopies(acc + [xs[0]], xs[1..]);
      assert acc + [xs[0]] + xs[1..] == acc + xs;
    }
  }
}

=== FILE: search_route.dfy ===
/**
 * The HTTP search endpoint `POST /api/search` (src/routes/search.ts): the
 * order of its checks, the status code and message of each outcome, and
 * the arguments it hands to the focus mode's agent. The provider loaders
 * and the pipeline are parameters.
 */
module SearchRoute {
  import opened Wrappers
  import opened JsObjects
  import opened Providers
  import opened ModelSelection
  import opened FocusModes
  import opened Session

  datatype ChatModelBody = ChatModelBody(
    provider: Option<string>, model: Option<string>,
    customOpenAIBaseURL: Option<string>, customOpenAIKey: Option<string>)

  datatype EmbeddingModelBody = EmbeddingModelBody(provider: Option<string>, model: Option<string>)

  /** The request body; an absent field is `None`. */
  datatype SearchBody = SearchBody(
    optimizationMode: Option<string>, focusMode: Option<string>,
    chatModel: Option<ChatModelBody>, embeddingModel: Option<EmbeddingModelBody>,
    query: Option<string>, history: Option<seq<(string, string)>>)

  /**
   * A JSON reply `{ message }` with its status, or the 200 reply
   * `{ emitter }`. That reply is sent as soon as the agent hands back its
   * event emitter, before any event is emitted, and the emitter serialises
   * without its listeners: the caller receives none of the answer's events.
   */
  datatype Reply = Json(status: nat, message: string) | Emitted(status: nat)

  const MissingFields := Json(400, "Missing focus mode or query")
  const MissingCustom := Json(400, "Missing custom OpenAI base URL or key")
  const InvalidModel := Json(400, "Invalid model selected")
  const InvalidFocus := Json(400, "Invalid focus mode")
  const InternalError := Json(500, "An error has occurred.")

  const DefaultOptimizationMode := "balanced"

  function ChatProviderField(b: SearchBody): Option<string> {
    if b.chatModel.None? then None else b.chatModel.value.provider
  }

  function ChatModelField(b: SearchBody): Option<string> {
    if b.chatModel.None? then None else b.chatModel.value.model
  }

  function EmbeddingProviderField(b: SearchBody): Option<string> {
    if b.embeddingModel.None? then None else b.embeddingModel.value.provider
  }

  function EmbeddingModelField(b: SearchBody): Option<string> {
    if b.embeddingModel.None? then None else b.embeddingModel.value.model
  }

  /** The provider field names `custom_openai` explicitly. */
  predicate AsksCustom(b: SearchBody) {
    ChatProviderField(b) == Some(CustomOpenAI)
  }

  /** Both custom-endpoint fields are truthy. */
  predicate HasCustomEndpoint(b: SearchBody) {
    b.chatModel.Some? && Truthy(b.chatModel.value.customOpenAIBaseURL) && Truthy(b.chatModel.value.customOpenAIKey)
  }

  /**
   * The model checks of the handler: the defaults (which throw for an
   * absent provider), the custom endpoint's fields, then the lookups. The
   * chat model is a custom one only when the body names `custom_openai`; a
   * registry default of `custom_openai` finds no model and ends as an
   * invalid selection.
   */
  function SelectModels(b: SearchBody, chats: Obj<ModelProvider>, embs: Obj<ModelProvider>): (r: Result<(Llm, ModelHandle), Reply>)
    ensures r.Failure? ==> r.error == InternalError || r.error == MissingCustom || r.error == InvalidModel
    ensures r.Failure? && r.error == MissingCustom ==> AsksCustom(b) && !HasCustomEndpoint(b)
    ensures r.Success? && r.value.0.CustomOpenAIModel? ==> AsksCustom(b) && HasCustomEndpoint(b)
    ensures r.Success? && r.value.0.Listed? ==> !AsksCustom(b)
  {
    var chatProvider := PickProvider(ChatProviderField(b), chats);
    var chatModelR := PickModel(ChatModelField(b), chats, chatProvider);
    if chatModelR.Failure? then Failure(InternalError)
    else
      var embProvider := PickProvider(EmbeddingProviderField(b), embs);
      var embModelR := PickModel(EmbeddingModelField(b), embs, embProvider);
      if embModelR.Failure? then Failure(InternalError)
      else if AsksCustom(b) && !HasCustomEndpoint(b) then Failure(MissingCustom)
      else
        var llm :=
          if AsksCustom(b) then
            Some(CustomOpenAIModel(b.chatModel.value.model, b.chatModel.value.customOpenAIKey.value,
                                   b.chatModel.value.customOpenAIBaseURL.value, 0.7))
          else if Lookup(chats, chatProvider, chatModelR.value).Some? then
            Some(Listed(Lookup(chats, chatProvider, chatModelR.value).value.model))
          else None;
        var emb := Lookup(embs, embProvider, embModelR.value);
        if llm.None? || emb.None? then Failure(InvalidModel)
        else Success((llm.value, emb.value.model))
  }

  /**
   * The handler once both registries have been loaded (`Failure` when a
   * loader throws): fields, registries, models, then the focus mode and
   * the pipeline.
   */
  function Search(b: SearchBody, chatsR: Result<Obj<ModelProvider>, string>, embsR: Result<Obj<ModelProvider>, string>,
                  pipeline: Pipeline): (r: Reply)
    ensures !Truthy(b.focusMode) || !Truthy(b.query) ==> r == MissingFields
    ensures Truthy(b.focusMode) && Truthy(b.query) && (chatsR.Failure? || embsR.Failure?) ==> r == InternalError
    ensures r.Json? ==> r.status == 400 || r.status == 500
    ensures r.Emitted? ==> r.status == 200 && Truthy(b.focusMode) && Truthy(b.query) && b.focusMode.value in FocusModeNames
    ensures r == MissingCustom ==> AsksCustom(b) && !HasCustomEndpoint(b)
    ensures r == InvalidFocus ==> b.focusMode.value !in FocusModeNames
  {
    if !Truthy(b.focusMode) || !Truthy(b.query) then MissingFields
    else if chatsR.Failure? || embsR.Failure? then InternalError
    else
      match SelectModels(b, chatsR.value, embsR.value)
      case Failure(reply) => reply
      case Success((llm, emb)) => Dispatch(b, llm, emb, pipeline)
  }

  /**
   * The last part of the handler: the history (default empty) and
   * optimisation mode (default `balanced`) with the selected models go to
   * the focus mode's agent, always with no files.
   */
  function Dispatch(b: SearchBody, llm: Llm, emb: ModelHandle, pipeline: Pipeline): (r: Reply)
    requires Truthy(b.focusMode) && Truthy(b.query)
    ensures r == InvalidFocus <==> b.focusMode.value !in FocusModeNames
    ensures r.Json? ==> r == InvalidFocus || r == InternalError
    ensures r.Emitted? ==> r.status == 200 && b.focusMode.value in FocusModeNames
  {
    var history := if b.history.None? then [] else b.history.value;
    var mode := if Truthy(b.optimizationMode) then b.optimizationMode.value else DefaultOptimizationMode;
    match HandlerFor(b.focusMode.value)
    case None => InvalidFocus
    case Some(agent) =>
      match pipeline(AgentCall(agent, b.query.value, ToTurns(history), llm, emb, mode, []))
      case None => InternalError
      case Some(_) => Emitted(200)
  }

  /** `POST /api/search` with the chat and embedding loaders as parameters. */
  function HandleSearch(b: SearchBody, chatLoad: Loader, embLoad: Loader, pipeline: Pipeline): (r: Reply)
    ensures !Truthy(b.focusMode) || !Truthy(b.query) ==> r == MissingFields
    ensures r.Json? ==> r.status == 400 || r.status == 500
  {
    Search(b, GetAvailableChatModelProviders(chatLoad), GetAvailableEmbeddingModelProviders(embLoad), pipeline)
  }

  /**
   * An invalid model is reported before an invalid focus mode: a body whose
   * focus mode is unknown and whose chat model is unlisted gets the model
   * error.
   */
  lemma ModelCheckedBeforeFocusMode(b: SearchBody, chats: Obj<ModelProvider>, embs: Obj<ModelProvider>, pipeline: Pipeline)
    requires Truthy(b.focusMode) && Truthy(b.query) && b.focusMode.value !in FocusModeNames
    requires b.chatModel.Some? && Truthy(b.chatModel.value.provider) && Truthy(b.chatModel.value.model)
    requires b.chatModel.value.provider.value != CustomOpenAI
    requires Lookup(chats, b.chatModel.value.provider, b.chatModel.value.model).None?
    requires b.embeddingModel.Some? && Truthy(b.embeddingModel.value.provider) && Truthy(b.embeddingModel.value.model)
    ensures Search(b, Success(chats), Success(embs), pipeline) == InvalidModel
  {
    UnlistedChatModel(b, chats, embs);
  }

  /** Naming a chat model that is not listed is an invalid selection. */
  lemma UnlistedChatModel(b: SearchBody, chats: Obj<ModelProvider>, embs: Obj<ModelProvider>)
    requires b.chatModel.Some? && Truthy(b.chatModel.value.provider) && Truthy(b.chatModel.value.model)
    requires b.chatModel.value.provider.value != CustomOpenAI
    requires Lookup(chats, b.chatModel.value.provider, b.chatModel.value.model).None?
    requires b.embeddingModel.Some? && Truthy(b.embeddingModel.value.provider) && Truthy(b.embeddingModel.value.model)
    ensures SelectModels(b, chats, embs) == Failure(InvalidModel)
  {
  }

  /**
   * A well-formed request for listed models reaches the agent of its focus
   * mode with the named models, an empty file list, and the `balanced` mode
   * and an empty history when those are not given. The reply is the bare
   * 200 when the agent starts and the generic 500 when it throws.
   */
  lemma AcceptedSearch(b: SearchBody, chats: Obj<ModelProvider>, embs: Obj<ModelProvider>, pipeline: Pipeline,
                       agent: AgentConfig)
    requires Truthy(b.focusMode) && Truthy(b.query) && HandlerFor(b.focusMode.value) == Some(agent)
    requires b.optimizationMode.None? && b.history.None?
    requires b.chatModel.Some? && Truthy(b.chatModel.value.provider) && Truthy(b.chatModel.value.model)
    requires b.chatModel.value.provider.value != CustomOpenAI
    requires Lookup(chats, b.chatModel.value.provider, b.chatModel.value.model).Some?
    requires b.embeddingModel.Some? && Truthy(b.embeddingModel.value.provider) && Truthy(b.embeddingModel.value.model)
    requires Lookup(embs, b.embeddingModel.value.provider, b.embeddingModel.value.model).Some?
    ensures Search(b, Success(chats), Success(embs), pipeline) ==
              if pipeline(AgentCall(agent, b.query.value, [],
                                    Listed(Lookup(chats, b.chatModel.value.provider, b.chatModel.value.model).value.model),
                                    Lookup(embs, b.embeddingModel.value.provider, b.embeddingModel.value.model).value.model,
                                    DefaultOptimizationMode, [])).Some?
              then Emitted(200) else InternalError
  {
    var llm := Listed(Lookup(chats, b.chatModel.value.provider, b.chatModel.value.model).value.model);
    var emb := Lookup(embs, b.embeddingModel.value.provider, b.embeddingModel.value.model).value.model;
    SelectListed(b, chats, embs);
    DispatchDefaults(b, llm, emb, pipeline, agent);
  }

  /**
   * A request without optimisation mode and history reaches its focus
   * mode's agent with an empty history, the `balanced` mode and no files.
   */
  lemma DispatchDefaults(b: SearchBody, llm: Llm, emb: ModelHandle, pipeline: Pipeline, agent: AgentConfig)
    requires Truthy(b.focusMode) && Truthy(b.query) && HandlerFor(b.focusMode.value) == Some(agent)
    requires b.optimizationMode.None? && b.history.None?
    ensures Dispatch(b, llm, emb, pipeline) ==
              if pipeline(AgentCall(agent, b.query.value, [], llm, emb, DefaultOptimizationMode, [])).Some?
              then Emitted(200) else InternalError
  {
    assert ToTurns([]) == [];
  }

  /**
   * The reply does not depend on what the agent goes on to emit: two
   * agents that both start give the same reply to the same request.
   */
  lemma ReplyIgnoresEvents(b: SearchBody, chatsR: Result<Obj<ModelProvider>, string>,
                           embsR: Result<Obj<ModelProvider>, string>, p1: Pipeline, p2: Pipeline)
    requires forall call :: p1(call).Some? <==> p2(call).Some?
    ensures Search(b, chatsR, embsR, p1) == Search(b, chatsR, embsR, p2)
  {
  }

  /** Naming listed models selects exactly those models. */
  lemma SelectListed(b: SearchBody, chats: Obj<ModelProvider>, embs: Obj<ModelProvider>)
    requires b.chatModel.Some? && Truthy(b.chatModel.value.provider) && Truthy(b.chatModel.value.model)
    requires b.chatModel.value.provider.value != CustomOpenAI
    requires Lookup(chats, b.chatModel.value.provider, b.chatModel.value.model).Some?
    requires b.embeddingModel.Some? && Truthy(b.embeddingModel.value.provider) && Truthy(b.embeddingModel.value.model)
    requires Lookup(embs, b.embeddingModel.value.provider, b.embeddingModel.value.model).Some?
    ensures SelectModels(b, chats, embs) ==
              Success((Listed(Lookup(chats, b.chatModel.value.provider, b.chatModel.value.model).value.model),
                       Lookup(embs, b.embeddingModel.value.provider, b.embeddingModel.value.model).value.model))
  {
  }

  /**
   * With no embedding provider that has models, a request naming no model
   * gets the generic 500 reply: the embedding registry is empty, and taking
   * the first model of its (absent) first provider throws.
   */
  lemma NoProvidersInvalidModel(b: SearchBody, chatLoad: Loader, embLoad: Loader, pipeline: Pipeline)
    requires forall n :: embLoad(n) == Success([])
    requires Truthy(b.focusMode) && Truthy(b.query) && b.chatModel.None? && b.embeddingModel.None?
    ensures HandleSearch(b, chatLoad, embLoad, pipeline) == InternalError
  {
    NoneNonEmpty(EmbeddingProviderNames, embLoad);
    var embs := GetAvailableEmbeddingModelProviders(embLoad).value;
    assert |embs| == 0;
    if GetAvailableChatModelProviders(chatLoad).Success? {
      NoEmbeddingsThrows(b, GetAvailableChatModelProviders(chatLoad).value);
    }
  }

  /** No model named and no embedding provider: picking the embedding model throws. */
  lemma NoEmbeddingsThrows(b: SearchBody, chats: Obj<ModelProvider>)
    requires b.embeddingModel.None?
    ensures SelectModels(b, chats, []) == Failure(InternalError)
  {
  }

  /**
   * With only the default `custom_openai` chat entry and a listed embedding
   * model named in the body, the reply is "Invalid model selected".
   */
  lemma DefaultCustomIsInvalid(b: SearchBody, chats: Obj<ModelProvider>, embs: Obj<ModelProvider>, pipeline: Pipeline)
    requires chats == [(CustomOpenAI, [])]
    requires Truthy(b.focusMode) && Truthy(b.query) && b.chatModel.None?
    requires b.embeddingModel.Some? && Truthy(b.embeddingModel.value.provider) && Truthy(b.embeddingModel.value.model)
    requires Lookup(embs, b.embeddingModel.value.provider, b.embeddingModel.value.model).Some?
    ensures Search(b, Success(chats), Success(embs), pipeline) == InvalidModel
  {
    DefaultCustomSelect(b, embs);
  }

  lemma DefaultCustomSelect(b: SearchBody, embs: Obj<ModelProvider>)
    requires b.chatModel.None?
    requires b.embeddingModel.Some? && Truthy(b.embeddingModel.value.provider) && Truthy(b.embeddingModel.value.model)
    requires Lookup(embs, b.embeddingModel.value.provider, b.embeddingModel.value.model).Some?
    ensures SelectModels(b, [(CustomOpenAI, [])], embs) == Failure(InvalidModel)
  {
    var chats: Obj<ModelProvider> := [(CustomOpenAI, [])];
    assert Keys(chats) == [CustomOpenAI];
    assert Get(chats, CustomOpenAI) == Some([]);
    assert PickModel(None, chats, Some(CustomOpenAI)) == Success(None);
  }
}

=== FILE: searxng.dfy ===
/**
 * The SearxNG client (src/lib/searxng.ts): the query parameters of the
 * search request and the option merge of `SearxngSearch.search`. The HTTP
 * request itself is a parameter.
 */
module Searxng {
  import opened Wrappers
  import opened Strings
  import opened JsObjects

  /** An option value: an array (sent comma-joined) or a scalar (sent as its string form). */
  datatype OptionValue = Scalar(text: string) | List(items: seq<string>)

  type SearchOptions = Obj<OptionValue>

  /** The value sent for an option. */
  function Encode(v: OptionValue): string {
    match v
    case List(items) => Join(items, ',')
    case Scalar(text) => text
  }

  /**
   * The query parameters in the order they are appended: `format=json`,
   * then `q`, then one parameter per option key in key order.
   */
  function QueryParams(query: string, opts: Option<SearchOptions>): (r: seq<(string, string)>)
    ensures |r| >= 2 && r[0] == ("format", "json") && r[1] == ("q", query)
    ensures opts.None? ==> |r| == 2
    ensures opts.Some? ==> |r| == 2 + |opts.value|
    ensures opts.Some? ==> forall i :: 0 <= i < |opts.value| ==>
              r[2 + i].0 == opts.value[i].0
              && (opts.value[i].1.List? ==> r[2 + i].1 == Join(opts.value[i].1.items, ','))
              && (opts.value[i].1.Scalar? ==> r[2 + i].1 == opts.value[i].1.text)
  {
    var extra := if opts.None? then [] else OptionParams(opts.value);
    [("format", "json"), ("q", query)] + extra
  }

  function OptionParams(opts: SearchOptions): (r: seq<(string, string)>)
    ensures |r| == |opts|
    ensures forall i :: 0 <= i < |opts| ==> r[i] == (opts[i].0, Encode(opts[i].1))
  {
    if |opts| == 0 then [] else [(opts[0].0, Encode(opts[0].1))] + OptionParams(opts[1..])
  }

  /**
   * A list option whose items contain no comma can be recovered from the
   * parameter sent for it.
   */
  lemma ListOptionRecoverable(query: string, opts: SearchOptions, i: nat)
    requires i < |opts| && opts[i].1.List?
    requires |opts[i].1.items| >= 1
    requires forall j :: 0 <= j < |opts[i].1.items| ==> ',' !in opts[i].1.items[j]
    ensures Split(QueryParams(query, Some(opts))[2 + i].1, ',') == opts[i].1.items
  {
    SplitJoin(opts[i].1.items, ',');
  }

  /** The response fields the client reads. */
  datatype SearchResult = SearchResult(title: string, url: string, content: Option<string>)
  datatype SearchResponse = SearchResponse(results: seq<SearchResult>, suggestions: seq<string>)

  /** What one search sends and returns. */
  datatype SearchOutcome = SearchOutcome(params: seq<(string, string)>, results: seq<SearchResult>, suggestions: seq<string>)

  /**
   * `searchSearxng(query, opts)`: sends the parameters to the backend (a
   * parameter here) and returns its results and suggestions unchanged.
   */
  function SearchSearxng(query: string, opts: Option<SearchOptions>,
                         backend: seq<(string, string)> -> SearchResponse): (r: SearchOutcome)
    ensures r.params == QueryParams(query, opts)
    ensures r.results == backend(r.params).results && r.suggestions == backend(r.params).suggestions
  {
    var params := QueryParams(query, opts);
    var resp := backend(params);
    SearchOutcome(params, resp.results, resp.suggestions)
  }

  /** A client configured with constructor options. */
  datatype SearxngSearch = SearxngSearch(options: SearchOptions)

  /**
   * `search(query, options)`: the per-call options override the
   * constructor's key by key, keys present on one side only are kept, and
   * the constructor's keys come first.
   */
  function Search(client: SearxngSearch, query: string, options: SearchOptions,
                  backend: seq<(string, string)> -> SearchResponse): (r: SearchOutcome)
    requires ValidObj(client.options) && ValidObj(options)
    ensures |r.params| == 2 + |Spread(client.options, options)|
    ensures forall k :: HasKey(options, k) ==> Get(Spread(client.options, options), k) == Get(options, k)
    ensures forall k :: !HasKey(options, k) ==> Get(Spread(client.options, options), k) == Get(client.options, k)
    ensures forall k :: HasKey(Spread(client.options, options), k) <==> HasKey(client.options, k) || HasKey(options, k)
    ensures Keys(Spread(client.options, options)) == Keys(client.options) + NewKeys(Keys(client.options), options)
    ensures r == SearchSearxng(query, Some(Spread(client.options, options)), backend)
  {
    SearchSearxng(query, Some(Spread(client.options, options)), backend)
  }

  /** With no per-call options the constructor options are sent as they are. */
  lemma SearchWithoutOverrides(client: SearxngSearch, query: string,
                               backend: seq<(string, string)> -> SearchResponse)
    requires ValidObj(client.options)
    ensures Search(client, query, [], backend).params == QueryParams(query, Some(client.options))
  {
  }
}

=== FILE: session.dfy ===
/**
 * The WebSocket message handler (src/websocket/messageHandler.ts): the
 * checks `handleMessage` runs on an inbound message, the chat and message
 * rows it writes, and the relay of the answering pipeline's events to the
 * client (`handleEmitterEvents`). The pipeline (`searchAndAnswer`), the
 * random ids and the clock are parameters.
 */
module Session {
  import opened Wrappers
  import opened Strings
  import opened Store
  import opened FocusModes
  import Providers
  import JsObjects

  // ---------------------------------------------------------------------
  // messages to the client

  datatype Outbound =
    | MessageOut(data: string, messageId: string)
    | SourcesOut(sources: seq<Source>, messageId: string)
    | MessageEndOut(messageId: string)
    | ErrorOut(data: string, key: string)
    | SignalOpen

  const ProcessingError := ErrorOut("Failed to process message", "MESSAGE_PROCESSING_ERROR")
  const InvalidFormat := ErrorOut("Invalid message format", "INVALID_FORMAT")
  const InvalidFocusMode := ErrorOut("Invalid focus mode", "INVALID_FOCUS_MODE")

  function ChainError(data: string): Outbound {
    ErrorOut(data, "CHAIN_ERROR")
  }

  // ---------------------------------------------------------------------
  // what the pipeline receives and emits

  /** The chat model a connection or request resolved to. */
  datatype Llm =
    | Listed(handle: Providers.ModelHandle)
    | CustomOpenAIModel(modelName: Option<string>, apiKey: string, baseUrl: string, temperature: real)

  datatype ChatTurn = Human(content: string) | Ai(content: string)

  /** A history pair `[role, content]` becomes a human turn when the role is `human` and an AI turn otherwise. */
  function ToTurns(history: seq<(string, string)>): (r: seq<ChatTurn>)
    ensures |r| == |history|
    ensures forall i :: 0 <= i < |history| ==> r[i].content == history[i].1
    ensures forall i :: 0 <= i < |history| ==> (r[i].Human? <==> history[i].0 == "human")
  {
    if |history| == 0 then []
    else [if history[0].0 == "human" then Human(history[0].1) else Ai(history[0].1)] + ToTurns(history[1..])
  }

  /** The arguments of `searchAndAnswer`, with the agent the focus mode selected. */
  datatype AgentCall = AgentCall(
    agent: AgentConfig, query: string, history: seq<ChatTurn>, llm: Llm,
    embeddings: Providers.ModelHandle, optimizationMode: string, files: seq<string>)

  /** The pipeline's events, already decoded from their JSON payloads. */
  datatype PipelineEvent =
    | Response(text: string)           // `data` event of type `response`
    | SourcesEvent(sources: seq<Source>) // `data` event of type `sources`
    | OtherData                        // a `data` event of any other type
    | End
    | Error(data: string)

  /** The pipeline: its events, or `None` when `searchAndAnswer` throws. */
  type Pipeline = AgentCall -> Option<seq<PipelineEvent>>

  // ---------------------------------------------------------------------
  // relay

  /**
   * The relay's closure variables, the store it writes and what it has
   * sent. `endInsertFails` says whether the un-awaited insert of the answer
   * row rejects; its rejection is never caught, so the client still gets
   * the end message and the row is simply not stored.
   */
  datatype RelayState = RelayState(received: string, sources: seq<Source>, db: Db, sent: seq<Outbound>, endInsertFails: bool)

  /** What one event sends; it depends on the event alone. */
  function OutFor(e: PipelineEvent, messageId: string): seq<Outbound> {
    match e
    case Response(text) => [MessageOut(text, messageId)]
    case SourcesEvent(s) => [SourcesOut(s, messageId)]
    case OtherData => []
    case End => [MessageEndOut(messageId)]
    case Error(data) => [ChainError(data)]
  }

  /** The handler of one event. */
  function Step(st: RelayState, e: PipelineEvent, messageId: string, chatId: string, now: string): RelayState {
    var sent := st.sent + OutFor(e, messageId);
    match e
    case Response(text) => st.(received := st.received + text, sent := sent)
    case SourcesEvent(s) => st.(sources := s, sent := sent)
    case OtherData => st
    case End =>
      var meta := if |st.sources| > 0 then Some(st.sources) else None;
      var db := if st.endInsertFails then st.db else InsertMessage(st.db, st.received, chatId, messageId, Assistant, now, meta);
      st.(db := db, sent := sent)
    case Error(_) => st.(sent := sent)
  }

  /** The events handled in order. */
  function Relay(st: RelayState, events: seq<PipelineEvent>, messageId: string, chatId: string, now: string): (r: RelayState)
    ensures |st.sent| <= |r.sent| && r.sent[..|st.sent|] == st.sent
    decreases |events|
  {
    if |events| == 0 then st else Relay(Step(st, events[0], messageId, chatId, now), events[1..], messageId, chatId, now)
  }

  function ResponseText(events: seq<PipelineEvent>): string {
    if |events| == 0 then ""
    else (if events[0].Response? then events[0].text else "") + ResponseText(events[1..])
  }

  function Outs(events: seq<PipelineEvent>, messageId: string): seq<Outbound> {
    if |events| == 0 then [] else OutFor(events[0], messageId) + Outs(events[1..], messageId)
  }

  /** The sources held after the events: those of the last `sources` event, or the initial ones. */
  function LastSources(init: seq<Source>, events: seq<PipelineEvent>): seq<Source>
    decreases |events|
  {
    if |events| == 0 then init
    else LastSources(if events[0].SourcesEvent? then events[0].sources else init, events[1..])
  }

  predicate NoEnd(events: seq<PipelineEvent>) {
    forall i :: 0 <= i < |events| ==> !events[i].End?
  }

  /**
   * The relay sends, event by event, a message per response chunk, a
   * sources message, an end message or a chain error, and nothing for any
   * other event.
   */
  lemma {:induction false} RelaySent(st: RelayState, events: seq<PipelineEvent>, messageId: string, chatId: string, now: string)
    ensures Relay(st, events, messageId, chatId, now).sent == st.sent + Outs(events, messageId)
    decreases |events|
  {
    if |events| > 0 {
      var st1 := Step(st, events[0], messageId, chatId, now);
      RelayUnfold(st, events, messageId, chatId, now);
      StepFacts(st, events[0], messageId, chatId, now);
      RelaySent(st1, events[1..], messageId, chatId, now);
      assert st.sent + OutFor(events[0], messageId) + Outs(events[1..], messageId) == st.sent + Outs(events, messageId);
    }
  }

  /** The relay handles the first event, then the rest. */
  lemma RelayUnfold(st: RelayState, events: seq<PipelineEvent>, messageId: string, chatId: string, now: string)
    requires |events| > 0
    ensures Relay(st, events, messageId, chatId, now) == Relay(Step(st, events[0], messageId, chatId, now), events[1..], messageId, chatId, now)
  {
  }

  /** What one event adds to the sent messages, the answer and the sources. */
  lemma StepFacts(st: RelayState, e: PipelineEvent, messageId: string, chatId: string, now: string)
    ensures Step(st, e, messageId, chatId, now).sent == st.sent + OutFor(e, messageId)
    ensures Step(st, e, messageId, chatId, now).received == st.received + (if e.Response? then e.text else "")
    ensures Step(st, e, messageId, chatId, now).sources == (if e.SourcesEvent? then e.sources else st.sources)
    ensures Step(st, e, messageId, chatId, now).endInsertFails == st.endInsertFails
  {
    if e.OtherData? {
      assert st.sent + OutFor(e, messageId) == st.sent;
    }
    if !e.Response? {
      assert st.received + "" == st.received;
    }
  }

  /** The accumulated answer is the concatenation of the response chunks, in order. */
  lemma {:induction false} RelayReceived(st: RelayState, events: seq<PipelineEvent>, messageId: string, chatId: string, now: string)
    ensures Relay(st, events, messageId, chatId, now).received == st.received + ResponseText(events)
    ensures Relay(st, events, messageId, chatId, now).sources == LastSources(st.sources, events)
    ensures Relay(st, events, messageId, chatId, now).endInsertFails == st.endInsertFails
    decreases |events|
  {
    if |events| > 0 {
      var st1 := Step(st, events[0], messageId, chatId, now);
      RelayUnfold(st, events, messageId, chatId, now);
      StepFacts(st, events[0], messageId, chatId, now);
      RelayReceived(st1, events[1..], messageId, chatId, now);
      var t := if events[0].Response? then events[0].text else "";
      assert ResponseText(events) == t + ResponseText(events[1..]);
      assert st.received + t + ResponseText(events[1..]) == st.received + ResponseText(events);
    }
  }

  /** Before the end event nothing is written to the store. */
  lemma {:induction false} RelayNoEndNoWrite(st: RelayState, events: seq<PipelineEvent>, messageId: string, chatId: string, now: string)
    requires NoEnd(events)
    ensures Relay(st, events, messageId, chatId, now).db == st.db
    decreases |events|
  {
    if |events| > 0 {
      RelayNoEndNoWrite(Step(st, events[0], messageId, chatId, now), events[1..], messageId, chatId, now);
    }
  }

  /**
   * A stream that ends once stores one assistant row holding the whole
   * answer, with the latest sources when there are any.
   */
  lemma StoredAnswer(st: RelayState, events: seq<PipelineEvent>, messageId: string, chatId: string, now: string)
    requires NoEnd(events) && !st.endInsertFails
    ensures Relay(st, events + [End], messageId, chatId, now).db.messages ==
              st.db.messages + [MessageRow(st.db.nextId, st.received + ResponseText(events), chatId, messageId, Assistant, now,
                                           if |LastSources(st.sources, events)| > 0 then Some(LastSources(st.sources, events)) else None)]
  {
    RelaySplit(st, events, [End], messageId, chatId, now);
    RelayNoEndNoWrite(st, events, messageId, chatId, now);
    RelayReceived(st, events, messageId, chatId, now);
  }

  /** When the answer insert rejects, the relay stores nothing, and still sends every message. */
  lemma {:induction false} FailedInsertStoresNothing(st: RelayState, events: seq<PipelineEvent>, messageId: string, chatId: string, now: string)
    requires st.endInsertFails
    ensures Relay(st, events, messageId, chatId, now).db == st.db
    ensures Relay(st, events, messageId, chatId, now).sent == st.sent + Outs(events, messageId)
    decreases |events|
  {
    RelaySent(st, events, messageId, chatId, now);
    if |events| > 0 {
      FailedInsertStoresNothing(Step(st, events[0], messageId, chatId, now), events[1..], messageId, chatId, now);
    }
  }

  lemma {:induction false} RelaySplit(st: RelayState, a: seq<PipelineEvent>, b: seq<PipelineEvent>, messageId: string, chatId: string, now: string)
    ensures Relay(st, a + b, messageId, chatId, now) == Relay(Relay(st, a, messageId, chatId, now), b, messageId, chatId, now)
    decreases |a|
  {
    if |a| > 0 {
      assert (a + b)[0] == a[0] && (a + b)[1..] == a[1..] + b;
      RelaySplit(Step(st, a[0], messageId, chatId, now), a[1..], b, messageId, chatId, now);
    } else {
      assert a + b == b;
    }
  }

  // ---------------------------------------------------------------------
  // handleMessage

  datatype InboundMessage = InboundMessage(messageId: Option<string>, chatId: string, content: Option<string>)

  /** The decoded frame; an absent field is `None`. */
  datatype WsMessage = WsMessage(
    message: Option<InboundMessage>, optimizationMode: string, focusMode: Option<string>,
    history: Option<seq<(string, string)>>, files: Option<seq<string>>)

  /** The database calls `handleMessage` awaits, in order. */
  datatype DbStep = FindChatStep | InsertChatStep | FindMessageStep | WriteMessageStep

  /** The awaited database call that throws, if any. */
  datatype DbFault = NoFault | FailAt(step: DbStep)

  /**
   * The random ids, the clock, and the database's failures in one call:
   * which awaited call throws, and whether the un-awaited answer insert
   * rejects.
   */
  datatype Env = Env(randomHumanId: string, aiMessageId: string, now: string, fault: DbFault, endInsertFails: bool)

  datatype HandleResult = HandleResult(sent: seq<Outbound>, db: Db)

  /** The focus mode's agent, `None` when the field is absent or names no mode. */
  function Agent(focusMode: Option<string>): (r: Option<AgentConfig>)
    ensures r.Some? <==> focusMode.Some? && focusMode.value in FocusModeNames
  {
    if focusMode.None? then None else HandlerFor(focusMode.value)
  }

  /** The chat row and the user row for an accepted message, or the pruning of a re-sent one. */
  function Reconcile(db: Db, chatId: string, content: string, focusMode: string, files: seq<FileDetails>,
                     humanId: string, now: string): (r: Db)
    ensures FindChat(r, chatId).Some?
    ensures FindChat(db, chatId).Some? ==> r.chats == db.chats
    ensures FindChat(db, chatId).None? ==> r.chats == db.chats + [Chat(chatId, content, now, focusMode, files)]
    ensures FindMessage(db, humanId).None? ==>
              r.messages == db.messages + [MessageRow(db.nextId, content, chatId, humanId, User, now, None)]
    ensures FindMessage(db, humanId).Some? ==>
              forall m :: m in r.messages <==>
                m in db.messages && !(m.chatId == chatId && m.id > FindMessage(db, humanId).value.id)
    ensures WellFormed(db) ==> WellFormed(r)
  {
    var db1 := if FindChat(db, chatId).None? then InsertChat(db, Chat(chatId, content, now, focusMode, files)) else db;
    assert FindChat(db1, chatId).Some? by {
      if FindChat(db, chatId).None? {
        assert db1.chats[|db.chats|].id == chatId;
      }
    }
    assert FindMessage(db1, humanId) == FindMessage(db, humanId);
    match FindMessage(db1, humanId)
    case None => InsertMessage(db1, content, chatId, humanId, User, now, None)
    case Some(existing) => DeleteMessagesAfter(db1, chatId, existing.id)
  }

  /**
   * The awaited database calls of `handleMessage` when `fault` names the
   * one that throws: `Failure` carries the store as the calls before it
   * left it. A call that throws writes nothing, and the chat insert is
   * only reached for a new chat.
   */
  function ReconcileWithFault(db: Db, chatId: string, content: string, focusMode: string, files: seq<FileDetails>,
                              humanId: string, now: string, fault: DbFault): (r: Result<Db, Db>)
    ensures fault.NoFault? ==> r == Success(Reconcile(db, chatId, content, focusMode, files, humanId, now))
    ensures fault == FailAt(InsertChatStep) && FindChat(db, chatId).Some? ==>
              r == Success(Reconcile(db, chatId, content, focusMode, files, humanId, now))
    ensures r.Failure? <==> fault.FailAt? && (fault.step != InsertChatStep || FindChat(db, chatId).None?)
    ensures r.Failure? ==> r.error.messages == db.messages && r.error.nextId == db.nextId
    ensures r.Failure? && fault.step in {FindChatStep, InsertChatStep} ==> r.error == db
    ensures r.Failure? && fault.step in {FindMessageStep, WriteMessageStep} ==> FindChat(r.error, chatId).Some?
    ensures r.Failure? && WellFormed(db) ==> WellFormed(r.error)
  {
    if fault == FailAt(FindChatStep) then Failure(db)
    else if FindChat(db, chatId).None? && fault == FailAt(InsertChatStep) then Failure(db)
    else
      var db1 := if FindChat(db, chatId).None? then InsertChat(db, Chat(chatId, content, now, focusMode, files)) else db;
      assert FindChat(db1, chatId).Some? by {
        if FindChat(db, chatId).None? {
          assert db1.chats[|db.chats|].id == chatId;
        }
      }
      if fault == FailAt(FindMessageStep) || fault == FailAt(WriteMessageStep) then Failure(db1)
      else
        assert fault.NoFault? || fault.step == InsertChatStep;
        Success(Reconcile(db, chatId, content, focusMode, files, humanId, now))
  }

  /**
   * `handleMessage(message, ws, llm, embeddings)`. `raw` is the decoded
   * frame, `None` when it is not JSON (or is `null`).
   */
  function HandleMessage(raw: Option<WsMessage>, llm: Llm, embeddings: Providers.ModelHandle, db: Db, env: Env,
                         pipeline: Pipeline, fileDetails: string -> FileDetails): (r: HandleResult)
    ensures raw.None? || raw.value.files.None? || raw.value.message.None? ==> r == HandleResult([ProcessingError], db)
    ensures raw.Some? && raw.value.files.Some? && raw.value.message.Some? && !Truthy(raw.value.message.value.content) ==>
              r == HandleResult([InvalidFormat], db)
    ensures (raw.Some? && raw.value.files.Some? && raw.value.message.Some? && Truthy(raw.value.message.value.content)
             && Agent(raw.value.focusMode).None?) ==> r == HandleResult([InvalidFocusMode], db)
    ensures WellFormed(db) ==> WellFormed(r.db)
  {
    if raw.None? || raw.value.files.None? || raw.value.message.None? then HandleResult([ProcessingError], db)
    else
      var w := raw.value;
      var msg := w.message.value;
      var humanId := msg.messageId.GetOr(env.randomHumanId);
      if !Truthy(msg.content) then HandleResult([InvalidFormat], db)
      else
        match Agent(w.focusMode)
        case None => HandleResult([InvalidFocusMode], db)
        case Some(agent) => RunAgent(w, agent, llm, embeddings, db, env, pipeline, fileDetails)
  }

  /**
   * The accepted part of `handleMessage`: the history converted, the
   * agent run, and on its stream the chat and message rows reconciled and
   * the events relayed; a throw is the generic processing error.
   */
  function RunAgent(w: WsMessage, agent: AgentConfig, llm: Llm, embeddings: Providers.ModelHandle, db: Db, env: Env,
                    pipeline: Pipeline, fileDetails: string -> FileDetails): (r: HandleResult)
    requires w.files.Some? && w.message.Some? && Truthy(w.message.value.content) && w.focusMode.Some?
    ensures WellFormed(db) ==> WellFormed(r.db)
  {
    var msg := w.message.value;
    var humanId := msg.messageId.GetOr(env.randomHumanId);
    if w.history.None? then HandleResult([ProcessingError], db)
    else
      var call := AgentCall(agent, msg.content.value, ToTurns(w.history.value), llm, embeddings,
                            w.optimizationMode, w.files.value);
      match pipeline(call)
      case None => HandleResult([ProcessingError], db)
      case Some(events) =>
        match ReconcileWithFault(db, msg.chatId, msg.content.value, w.focusMode.value,
                                 FileDetailsOf(w.files.value, fileDetails), humanId, env.now, env.fault)
        case Success(db1) => RunRelay(db1, events, env.aiMessageId, msg.chatId, env.now, env.endInsertFails)
        case Failure(db1) =>
          var relayed := RunRelay(db1, events, env.aiMessageId, msg.chatId, env.now, env.endInsertFails);
          HandleResult([ProcessingError] + relayed.sent, relayed.db)
  }

  /**
   * Relays the whole event stream from a fresh closure state. The
   * listeners are attached before the database calls, so the stream is
   * relayed whether or not those calls throw.
   */
  function RunRelay(db: Db, events: seq<PipelineEvent>, messageId: string, chatId: string, now: string,
                    endInsertFails: bool): (r: HandleResult)
    ensures r.sent == Outs(events, messageId)
    ensures |r.db.messages| >= |db.messages|
    ensures endInsertFails ==> r.db == db
    ensures WellFormed(db) ==> WellFormed(r.db)
  {
    var st0 := RelayState("", [], db, [], endInsertFails);
    assert endInsertFails ==> Relay(st0, events, messageId, chatId, now).db == db by {
      if endInsertFails {
        FailedInsertStoresNothing(st0, events, messageId, chatId, now);
      }
    }
    RelaySent(st0, events, messageId, chatId, now);
    RelayGrows(st0, events, messageId, chatId, now);
    if WellFormed(db) then
      RelayWellFormed(st0, events, messageId, chatId, now);
      var st := Relay(st0, events, messageId, chatId, now);
      HandleResult(st.sent, st.db)
    else
      var st := Relay(st0, events, messageId, chatId, now);
      HandleResult(st.sent, st.db)
  }

  function FileDetailsOf(files: seq<string>, fileDetails: string -> FileDetails): (r: seq<FileDetails>)
    ensures |r| == |files| && forall i :: 0 <= i < |files| ==> r[i] == fileDetails(files[i])
  {
    if |files| == 0 then [] else [fileDetails(files[0])] + FileDetailsOf(files[1..], fileDetails)
  }

  lemma {:induction false} RelayWellFormed(st: RelayState, events: seq<PipelineEvent>, messageId: string, chatId: string, now: string)
    requires WellFormed(st.db)
    ensures WellFormed(Relay(st, events, messageId, chatId, now).db)
    decreases |events|
  {
    if |events| > 0 {
      RelayWellFormed(Step(st, events[0], messageId, chatId, now), events[1..], messageId, chatId, now);
    }
  }

  /** The only errors the relay sends are chain errors. */
  lemma {:induction false} ChainErrorsOnly(events: seq<PipelineEvent>, messageId: string)
    ensures forall i :: 0 <= i < |Outs(events, messageId)| ==>
              Outs(events, messageId)[i].ErrorOut? ==> Outs(events, messageId)[i].key == "CHAIN_ERROR"
  {
    if |events| > 0 {
      ChainErrorsOnly(events[1..], messageId);
    }
  }

  /**
   * An accepted message with a fresh message id stores the chat (when new)
   * and the user's row, then everything the stream produces; the client
   * receives exactly the relayed events.
   */
  lemma AcceptedMessage(w: WsMessage, llm: Llm, embeddings: Providers.ModelHandle, db: Db, env: Env,
                        pipeline: Pipeline, fileDetails: string -> FileDetails, agent: AgentConfig, events: seq<PipelineEvent>)
    requires w.files.Some? && w.message.Some? && Truthy(w.message.value.content) && w.history.Some?
    requires Agent(w.focusMode) == Some(agent)
    requires pipeline(AgentCall(agent, w.message.value.content.value, ToTurns(w.history.value), llm, embeddings,
                                w.optimizationMode, w.files.value)) == Some(events)
    requires w.message.value.messageId.Some? && FindMessage(db, w.message.value.messageId.value).None?
    requires env.fault == NoFault
    ensures HandleMessage(Some(w), llm, embeddings, db, env, pipeline, fileDetails).sent == Outs(events, env.aiMessageId)
    ensures |HandleMessage(Some(w), llm, embeddings, db, env, pipeline, fileDetails).db.messages| >= |db.messages| + 1
  {
    var msg := w.message.value;
    var db1 := Reconcile(db, msg.chatId, msg.content.value, w.focusMode.value,
                         FileDetailsOf(w.files.value, fileDetails), msg.messageId.value, env.now);
    assert HandleMessage(Some(w), llm, embeddings, db, env, pipeline, fileDetails)
        == RunAgent(w, agent, llm, embeddings, db, env, pipeline, fileDetails);
    assert RunAgent(w, agent, llm, embeddings, db, env, pipeline, fileDetails)
        == RunRelay(db1, events, env.aiMessageId, msg.chatId, env.now, env.endInsertFails);
  }

  /**
   * A database call that throws after the agent has started is reported
   * as the processing error, the events are relayed all the same, and
   * none of the message rows of the call are written except the answer.
   */
  lemma StoreFaultReported(w: WsMessage, llm: Llm, embeddings: Providers.ModelHandle, db: Db, env: Env,
                           pipeline: Pipeline, fileDetails: string -> FileDetails, agent: AgentConfig, events: seq<PipelineEvent>)
    requires w.files.Some? && w.message.Some? && Truthy(w.message.value.content) && w.history.Some?
    requires Agent(w.focusMode) == Some(agent)
    requires pipeline(AgentCall(agent, w.message.value.content.value, ToTurns(w.history.value), llm, embeddings,
                                w.optimizationMode, w.files.value)) == Some(events)
    requires env.fault.FailAt? && env.fault.step != InsertChatStep
    requires NoEnd(events) || env.endInsertFails
    ensures HandleMessage(Some(w), llm, embeddings, db, env, pipeline, fileDetails).sent ==
              [ProcessingError] + Outs(events, env.aiMessageId)
    ensures HandleMessage(Some(w), llm, embeddings, db, env, pipeline, fileDetails).db.messages == db.messages
  {
    var msg := w.message.value;
    var humanId := msg.messageId.GetOr(env.randomHumanId);
    var rec := ReconcileWithFault(db, msg.chatId, msg.content.value, w.focusMode.value,
                                  FileDetailsOf(w.files.value, fileDetails), humanId, env.now, env.fault);
    assert rec.Failure?;
    HandleRunsAgent(w, llm, embeddings, db, env, pipeline, fileDetails, agent);
    RunAgentOnFault(w, agent, llm, embeddings, db, env, pipeline, fileDetails, events, rec.error);
    var st0 := RelayState("", [], rec.error, [], env.endInsertFails);
    if !env.endInsertFails {
      RelayNoEndNoWrite(st0, events, env.aiMessageId, msg.chatId, env.now);
    }
  }

  /** An accepted message with a known focus mode is handed to the agent run. */
  lemma HandleRunsAgent(w: WsMessage, llm: Llm, embeddings: Providers.ModelHandle, db: Db, env: Env,
                        pipeline: Pipeline, fileDetails: string -> FileDetails, agent: AgentConfig)
    requires w.files.Some? && w.message.Some? && Truthy(w.message.value.content)
    requires Agent(w.focusMode) == Some(agent)
    ensures HandleMessage(Some(w), llm, embeddings, db, env, pipeline, fileDetails)
              == RunAgent(w, agent, llm, embeddings, db, env, pipeline, fileDetails)
  {
  }

  /** A failed reconciliation prefixes the relayed stream with the processing error. */
  lemma RunAgentOnFault(w: WsMessage, agent: AgentConfig, llm: Llm, embeddings: Providers.ModelHandle, db: Db, env: Env,
                        pipeline: Pipeline, fileDetails: string -> FileDetails, events: seq<PipelineEvent>, db1: Db)
    requires w.files.Some? && w.message.Some? && Truthy(w.message.value.content) && w.focusMode.Some? && w.history.Some?
    requires pipeline(AgentCall(agent, w.message.value.content.value, ToTurns(w.history.value), llm, embeddings,
                                w.optimizationMode, w.files.value)) == Some(events)
    requires ReconcileWithFault(db, w.message.value.chatId, w.message.value.content.value, w.focusMode.value,
                                FileDetailsOf(w.files.value, fileDetails),
                                w.message.value.messageId.GetOr(env.randomHumanId), env.now, env.fault) == Failure(db1)
    ensures var relayed := RunRelay(db1, events, env.aiMessageId, w.message.value.chatId, env.now, env.endInsertFails);
            RunAgent(w, agent, llm, embeddings, db, env, pipeline, fileDetails)
              == HandleResult([ProcessingError] + relayed.sent, relayed.db)
  {
  }

  lemma {:induction false} RelayGrows(st: RelayState, events: seq<PipelineEvent>, messageId: string, chatId: string, now: string)
    ensures |Relay(st, events, messageId, chatId, now).db.messages| >= |st.db.messages|
    decreases |events|
  {
    if |events| > 0 {
      RelayGrows(Step(st, events[0], messageId, chatId, now), events[1..], messageId, chatId, now);
    }
  }

  /**
   * Attaching files does not change the agent: a message with files and a
   * known focus mode runs the agent of that mode, with its file ids, and
   * that agent is not web search's unless the mode is web search, because
   * the assignment of `webSearch` made when files are present is to a
   * field the handler no longer reads.
   */
  lemma FilesKeepRequestedMode(w: WsMessage, mode: string, llm: Llm, embeddings: Providers.ModelHandle, db: Db, env: Env,
                               pipeline: Pipeline, fileDetails: string -> FileDetails)
    requires w.files.Some? && |w.files.value| > 0
    requires w.focusMode == Some(mode) && mode in FocusModeNames
    requires w.message.Some? && Truthy(w.message.value.content) && w.history.Some?
    requires env.fault == NoFault
    ensures HandleMessage(Some(w), llm, embeddings, db, env, pipeline, fileDetails).sent ==
              var call := AgentCall(HandlerFor(mode).value, w.message.value.content.value, ToTurns(w.history.value),
                                    llm, embeddings, w.optimizationMode, w.files.value);
              if pipeline(call).None? then [ProcessingError] else Outs(pipeline(call).value, env.aiMessageId)
    ensures mode != "webSearch" ==> HandlerFor(mode) != HandlerFor("webSearch")
  {
    var agent := HandlerFor(mode).value;
    assert HandleMessage(Some(w), llm, embeddings, db, env, pipeline, fileDetails)
        == RunAgent(w, agent, llm, embeddings, db, env, pipeline, fileDetails);
    var i :| 0 <= i < |FocusModeNames| && FocusModeNames[i] == mode;
    HandlerTableShape(i);
    HandlerTableShape(0);
  }

  // ---------------------------------------------------------------------
  // MessageHandler class

  /** The `MessageHandler` class: the agents it dispatches to and the sources it collects. */
  datatype MessageHandler = MessageHandler(agents: JsObjects.Obj<AgentConfig>, sources: seq<Source>)

  function NewMessageHandler(agents: JsObjects.Obj<AgentConfig>): (h: MessageHandler)
    ensures h.agents == agents && GetSources(h) == []
  {
    MessageHandler(agents, [])
  }

  function GetSources(h: MessageHandler): seq<Source> {
    h.sources
  }

  function ClearSources(h: MessageHandler): (r: MessageHandler)
    ensures GetSources(r) == [] && r.agents == h.agents
  {
    h.(sources := [])
  }

  function AddSource(h: MessageHandler, s: Source): (r: MessageHandler)
    ensures GetSources(r) == GetSources(h) + [s] && r.agents == h.agents
  {
    h.(sources := h.sources + [s])
  }

  /** Adding sources one by one collects them in order after what was there. */
  lemma {:induction false} AddSourcesInOrder(h: MessageHandler, ss: seq<Source>)
    ensures GetSources(AddAll(h, ss)) == GetSources(h) + ss
    decreases |ss|
  {
    if |ss| > 0 {
      AddSourcesInOrder(AddSource(h, ss[0]), ss[1..]);
      assert GetSources(h) + [ss[0]] + ss[1..] == GetSources(h) + ss;
    }
  }

  function AddAll(h: MessageHandler, ss: seq<Source>): MessageHandler
    decreases |ss|
  {
    if |ss| == 0 then h else AddAll(AddSource(h, ss[0]), ss[1..])
  }

  /** `handleSearch(type)`: throws for a type with no agent, and otherwise does nothing. */
  function HandleSearch(h: MessageHandler, searchType: string): (r: Result<MessageHandler, string>)
    ensures r.Failure? <==> !JsObjects.HasKey(h.agents, searchType)
    ensures r.Failure? ==> r.error == "Unknown search type: " + searchType
    ensures r.Success? ==> r.value == h
  {
    if JsObjects.Get(h.agents, searchType).None? then Failure("Unknown search type: " + searchType) else Success(h)
  }
}

=== FILE: similarity.dfy ===
/**
 * `computeSimilarity` (src/utils/computeSimilarity.ts): a total scoring
 * function whose every validation branch, unknown measure, missing library
 * result and thrown error yields 0.
 */
module Similarity {
  import opened Wrappers

  /** An argument as received: possibly not an array, possibly holding `null`/`undefined` elements (`None`). */
  datatype Vector = NotArray | Array(elems: seq<Option<real>>)

  /** What a similarity library call produced. */
  datatype LibraryResult = Value(x: real) | NullResult | Threw

  predicate AllPresent(v: seq<Option<real>>) {
    forall i :: 0 <= i < |v| ==> v[i].Some?
  }

  function Values(v: seq<Option<real>>): (r: seq<real>)
    requires AllPresent(v)
    ensures |r| == |v|
    ensures forall i :: 0 <= i < |v| ==> r[i] == v[i].value
  {
    if |v| == 0 then [] else [v[0].value] + Values(v[1..])
  }

  /** Sum of pairwise products. */
  function Dot(x: seq<real>, y: seq<real>): real
    requires |x| == |y|
  {
    if |x| == 0 then 0.0 else x[0] * y[0] + Dot(x[1..], y[1..])
  }

  /** The dot product does not depend on argument order. */
  lemma {:induction false} DotSymmetric(x: seq<real>, y: seq<real>)
    requires |x| == |y|
    ensures Dot(x, y) == Dot(y, x)
  {
    if |x| > 0 {
      DotSymmetric(x[1..], y[1..]);
    }
  }

  /**
   * The score of `x` against `y` under the configured `measure`; `cosine`
   * is the cosine-similarity library, left uninterpreted.
   */
  function ComputeSimilarity(x: Vector, y: Vector, measure: string,
                             cosine: (seq<real>, seq<real>) -> LibraryResult): (r: real)
    ensures (x.NotArray? || y.NotArray?) ==> r == 0.0
    ensures x.Array? && y.Array? && |x.elems| != |y.elems| ==> r == 0.0
    ensures x.Array? && y.Array? && (!AllPresent(x.elems) || !AllPresent(y.elems)) ==> r == 0.0
    ensures measure != "cosine" && measure != "dot" ==> r == 0.0
    ensures x.Array? && y.Array? && |x.elems| == |y.elems| && AllPresent(x.elems) && AllPresent(y.elems) ==>
              (measure == "dot" ==> r == Dot(Values(x.elems), Values(y.elems)))
              && (measure == "cosine" ==>
                    r == match cosine(Values(x.elems), Values(y.elems))
                         case Value(c) => c
                         case _ => 0.0)
  {
    if x.NotArray? || y.NotArray? || |x.elems| != |y.elems| then 0.0
    else if !AllPresent(x.elems) || !AllPresent(y.elems) then 0.0
    else if measure == "cosine" then
      match cosine(Values(x.elems), Values(y.elems))
      case Value(c) => c
      case NullResult => 0.0
      case Threw => 0.0
    else if measure == "dot" then Dot(Values(x.elems), Values(y.elems))
    else 0.0
  }

  /** Under the dot measure the score is symmetric in its two vectors. */
  lemma DotScoreSymmetric(x: Vector, y: Vector, cosine: (seq<real>, seq<real>) -> LibraryResult)
    ensures ComputeSimilarity(x, y, "dot", cosine) == ComputeSimilarity(y, x, "dot", cosine)
  {
    if x.Array? && y.Array? && |x.elems| == |y.elems| && AllPresent(x.elems) && AllPresent(y.elems) {
      DotSymmetric(Values(x.elems), Values(y.elems));
    }
  }

  /** The score is not confined to [0, 1]: under the dot measure [2] against [3] scores 6. */
  lemma DotScoreUnbounded(cosine: (seq<real>, seq<real>) -> LibraryResult)
    ensures ComputeSimilarity(Array([Some(2.0)]), Array([Some(3.0)]), "dot", cosine) == 6.0
  {
    var v := Values([Some(2.0)]);
    var w := Values([Some(3.0)]);
    assert v == [2.0] && w == [3.0];
    assert Dot(v, w) == 2.0 * 3.0 + Dot([], []);
  }
}

=== FILE: store.dfy ===
/**
 * The two database tables the server writes, `chats` and `messages`, as an
 * immutable value. Message rows carry an auto-increment `id`; the other
 * columns are what the server stores. The database itself is not part of
 * this model: every query here succeeds.
 */
module Store {
  import opened Wrappers

  /** A search result as forwarded to the client and stored with an answer. */
  datatype Source = Source(pageContent: string, url: Option<string>, title: Option<string>)

  /** What `getFileDetails` returns for an uploaded file id. */
  datatype FileDetails = FileDetails(name: string, fileId: string)

  datatype Chat = Chat(id: string, title: string, createdAt: string, focusMode: string, files: seq<FileDetails>)

  datatype Role = User | Assistant

  /** A `messages` row; `sources` is the optional `sources` field of the metadata JSON. */
  datatype MessageRow = MessageRow(
    id: nat, content: string, chatId: string, messageId: string,
    role: Role, createdAt: string, sources: Option<seq<Source>>)

  datatype Db = Db(chats: seq<Chat>, messages: seq<MessageRow>, nextId: nat)

  /** Message ids increase along the table and stay below the next id to hand out. */
  predicate WellFormed(db: Db) {
    && (forall i, j :: 0 <= i < j < |db.messages| ==> db.messages[i].id < db.messages[j].id)
    && (forall i :: 0 <= i < |db.messages| ==> db.messages[i].id < db.nextId)
  }

  const Empty := Db([], [], 1)

  lemma EmptyWellFormed()
    ensures WellFormed(Empty) && |Empty.chats| == 0 && |Empty.messages| == 0
  {
  }

  /** The elements of `xs` satisfying `p`, in their order. */
  function Filter<T(!new)>(xs: seq<T>, p: T -> bool): (r: seq<T>)
    ensures |r| <= |xs|
    ensures forall x :: x in r <==> x in xs && p(x)
    ensures (forall x :: x in xs ==> !p(x)) ==> r == []
  {
    if |xs| == 0 then []
    else
      var t := Filter(xs[1..], p);
      assert forall x :: x in xs <==> x == xs[0] || x in xs[1..];
      if p(xs[0]) then [xs[0]] + t else t
  }

  predicate IdsIncreasing(rows: seq<MessageRow>) {
    forall i, j :: 0 <= i < j < |rows| ==> rows[i].id < rows[j].id
  }

  predicate IdsBelow(rows: seq<MessageRow>, bound: nat) {
    forall i :: 0 <= i < |rows| ==> rows[i].id < bound
  }

  /** Filtering keeps the ids increasing and below the next id. */
  lemma {:induction false} FilterKeepsOrder(rows: seq<MessageRow>, p: MessageRow -> bool, bound: nat)
    requires IdsIncreasing(rows) && IdsBelow(rows, bound)
    ensures IdsIncreasing(Filter(rows, p)) && IdsBelow(Filter(rows, p), bound)
  {
    if |rows| > 0 {
      TailOrdered(rows, bound);
      FilterKeepsOrder(rows[1..], p, bound);
      if p(rows[0]) {
        var t := Filter(rows[1..], p);
        assert forall x :: x in t ==> x in rows[1..];
        ConsOrdered(rows[0], t, bound);
      }
    }
  }

  lemma TailOrdered(rows: seq<MessageRow>, bound: nat)
    requires |rows| > 0 && IdsIncreasing(rows) && IdsBelow(rows, bound)
    ensures IdsIncreasing(rows[1..]) && IdsBelow(rows[1..], bound)
    ensures rows[0].id < bound
    ensures forall x :: x in rows[1..] ==> rows[0].id < x.id
  {
    var tail := rows[1..];
    forall i, j | 0 <= i < j < |tail| ensures tail[i].id < tail[j].id {
      assert tail[i] == rows[i + 1] && tail[j] == rows[j + 1];
    }
    forall i | 0 <= i < |tail| ensures tail[i].id < bound {
      assert tail[i] == rows[i + 1];
    }
    forall x | x in tail ensures rows[0].id < x.id {
      var k :| 0 <= k < |tail| && tail[k] == x;
      assert tail[k] == rows[k + 1];
    }
  }

  lemma ConsOrdered(h: MessageRow, t: seq<MessageRow>, bound: nat)
    requires IdsIncreasing(t) && IdsBelow(t, bound) && h.id < bound
    requires forall x :: x in t ==> h.id < x.id
    ensures IdsIncreasing([h] + t) && IdsBelow([h] + t, bound)
  {
    var r := [h] + t;
    forall i | 0 <= i < |r| ensures r[i].id < bound {
      if i > 0 { assert r[i] == t[i - 1]; }
    }
    forall i, j | 0 <= i < j < |r| ensures r[i].id < r[j].id {
      assert r[j] == t[j - 1];
      if i == 0 {
        assert t[j - 1] in t;
      } else {
        assert r[i] == t[i - 1];
      }
    }
  }

  lemma FilterWellFormed(db: Db, p: MessageRow -> bool)
    ensures WellFormed(db) ==> WellFormed(db.(messages := Filter(db.messages, p)))
  {
    if WellFormed(db) {
      FilterKeepsOrder(db.messages, p, db.nextId);
    }
  }

  /** `findFirst` over a table: the first row whose key column holds `k`. */
  function First<T(==)>(xs: seq<T>, key: T -> string, k: string): (r: Option<T>)
    ensures r.Some? <==> exists i :: 0 <= i < |xs| && key(xs[i]) == k
    ensures r.Some? ==> key(r.value) == k && r.value in xs
    ensures r.Some? ==> exists i :: 0 <= i < |xs| && xs[i] == r.value && forall j :: 0 <= j < i ==> key(xs[j]) != k
  {
    if |xs| == 0 then None
    else if key(xs[0]) == k then Some(xs[0])
    else
      var t := First(xs[1..], key, k);
      assert forall i :: 1 <= i < |xs| ==> xs[i] == xs[1..][i - 1];
      if t.Some? then
        var i :| 0 <= i < |xs[1..]| && xs[1..][i] == t.value && forall j :: 0 <= j < i ==> key(xs[1..][j]) != k;
        assert xs[i + 1] == t.value && forall j :: 0 <= j < i + 1 ==> key(xs[j]) != k;
        t
      else t
  }

  function ChatId(c: Chat): string {
    c.id
  }

  function RowMessageId(m: MessageRow): string {
    m.messageId
  }

  /** `findFirst` on `chats` by id. */
  function FindChat(db: Db, id: string): (r: Option<Chat>)
    ensures r.Some? <==> exists i :: 0 <= i < |db.chats| && db.chats[i].id == id
    ensures r.Some? ==> r.value.id == id && r.value in db.chats
  {
    First(db.chats, ChatId, id)
  }

  /** `findFirst` on `messages` by `messageId`, over every chat. */
  function FindMessage(db: Db, messageId: string): (r: Option<MessageRow>)
    ensures r.Some? <==> exists i :: 0 <= i < |db.messages| && db.messages[i].messageId == messageId
    ensures r.Some? ==> r.value.messageId == messageId && r.value in db.messages
  {
    First(db.messages, RowMessageId, messageId)
  }

  function InsertChat(db: Db, c: Chat): (r: Db)
    ensures r.chats == db.chats + [c] && r.messages == db.messages && r.nextId == db.nextId
    ensures WellFormed(db) ==> WellFormed(r)
  {
    db.(chats := db.chats + [c])
  }

  /** Inserts a message row under the next auto-increment id. */
  function InsertMessage(db: Db, content: string, chatId: string, messageId: string,
                         role: Role, createdAt: string, sources: Option<seq<Source>>): (r: Db)
    ensures r.chats == db.chats
    ensures r.messages == db.messages + [MessageRow(db.nextId, content, chatId, messageId, role, createdAt, sources)]
    ensures r.nextId > db.nextId
    ensures WellFormed(db) ==> WellFormed(r)
  {
    Db(db.chats, db.messages + [MessageRow(db.nextId, content, chatId, messageId, role, createdAt, sources)], db.nextId + 1)
  }

  /**
   * The rows of one chat, in table order: in a well-formed table the ids
   * increase, so the rows come back in the order they were inserted.
   */
  function MessagesOf(db: Db, chatId: string): (r: seq<MessageRow>)
    ensures forall m :: m in r <==> m in db.messages && m.chatId == chatId
    ensures (forall m :: m in db.messages ==> m.chatId != chatId) ==> r == []
    ensures WellFormed(db) ==> IdsIncreasing(r)
  {
    var p := (m: MessageRow) => m.chatId == chatId;
    if WellFormed(db) then
      FilterKeepsOrder(db.messages, p, db.nextId);
      Filter(db.messages, p)
    else Filter(db.messages, p)
  }

  /** `DELETE FROM messages WHERE id > after AND chatId = chatId`. */
  function DeleteMessagesAfter(db: Db, chatId: string, after: nat): (r: Db)
    ensures r.chats == db.chats && r.nextId == db.nextId
    ensures forall m :: m in r.messages <==> m in db.messages && !(m.chatId == chatId && m.id > after)
    ensures WellFormed(db) ==> WellFormed(r)
  {
    var p := (m: MessageRow) => !(m.chatId == chatId && m.id > after);
    FilterWellFormed(db, p);
    db.(messages := Filter(db.messages, p))
  }

  /** Deletes a chat and its messages. */
  function DeleteChat(db: Db, id: string): (r: Db)
    ensures forall c :: c in r.chats <==> c in db.chats && c.id != id
    ensures forall m :: m in r.messages <==> m in db.messages && m.chatId != id
    ensures r.nextId == db.nextId
    ensures WellFormed(db) ==> WellFormed(r)
  {
    var p := (m: MessageRow) => m.chatId != id;
    FilterWellFormed(db, p);
    Db(Filter(db.chats, (c: Chat) => c.id != id), Filter(db.messages, p), db.nextId)
  }
}

=== FILE: strings.dfy ===
/**
 * String primitives of JavaScript that the modelled code relies on: the
 * whitespace class shared by `trim()` and the regular-expression class `\s`,
 * `trim`, `split`/`join` on a one-character separator, `indexOf`,
 * `startsWith`, and decimal numerals.
 */
module Strings {
  import opened Wrappers

  /** Characters JavaScript treats as white space or line terminators. */
  predicate IsSpace(c: char) {
    || c == ' ' || c == '\t' || c == '\n' || c == '\r'
    || c == '\U{000B}' || c == '\U{000C}' || c == '\U{00A0}' || c == '\U{FEFF}'
    || c == '\U{1680}' || ('\U{2000}' <= c <= '\U{200A}')
    || c == '\U{2028}' || c == '\U{2029}' || c == '\U{202F}' || c == '\U{205F}'
    || c == '\U{3000}'
  }

  predicate AllSpace(s: string) {
    forall i :: 0 <= i < |s| ==> IsSpace(s[i])
  }

  /** Neither end of `s` is white space. */
  predicate IsTrimmed(s: string) {
    |s| == 0 || (!IsSpace(s[0]) && !IsSpace(s[|s| - 1]))
  }

  /** Number of white-space characters at the front of `s`. */
  function LeadingSpaces(s: string): (n: nat)
    ensures n <= |s|
    ensures forall i :: 0 <= i < n ==> IsSpace(s[i])
    ensures n < |s| ==> !IsSpace(s[n])
  {
    if |s| == 0 || !IsSpace(s[0]) then 0 else 1 + LeadingSpaces(s[1..])
  }

  /** Number of white-space characters at the back of `s`. */
  function TrailingSpaces(s: string): (n: nat)
    ensures n <= |s|
    ensures forall i :: |s| - n <= i < |s| ==> IsSpace(s[i])
    ensures n < |s| ==> !IsSpace(s[|s| - 1 - n])
  {
    if |s| == 0 || !IsSpace(s[|s| - 1]) then 0 else 1 + TrailingSpaces(s[..|s| - 1])
  }

  /**
   * `s.trim()`: the longest slice of `s` whose ends are not white space,
   * obtained by dropping only white space from both ends.
   */
  function Trim(s: string): (r: string)
    ensures IsTrimmed(r)
    ensures LeadingSpaces(s) + |r| <= |s|
    ensures r == s[LeadingSpaces(s)..LeadingSpaces(s) + |r|]
    ensures AllSpace(s[..LeadingSpaces(s)]) && AllSpace(s[LeadingSpaces(s) + |r|..])
  {
    var t := s[LeadingSpaces(s)..];
    var r := t[..|t| - TrailingSpaces(t)];
    assert |r| > 0 ==> !IsSpace(r[0]) by {
      if |r| > 0 {
        assert r[0] == s[LeadingSpaces(s)];
      }
    }
    r
  }

  /** A string that is already trimmed is its own trim. */
  lemma {:induction false} TrimOfTrimmed(s: string)
    requires IsTrimmed(s)
    ensures Trim(s) == s
  {
    assert LeadingSpaces(s) == 0;
    var t := s[LeadingSpaces(s)..];
    assert t == s;
    assert TrailingSpaces(t) == 0;
  }

  /** `trim` is idempotent. */
  lemma TrimIdempotent(s: string)
    ensures Trim(Trim(s)) == Trim(s)
  {
    TrimOfTrimmed(Trim(s));
  }

  /** The characters of `s` that are not white space, in order. */
  function NonSpace(s: string): string {
    if |s| == 0 then "" else (if IsSpace(s[0]) then "" else [s[0]]) + NonSpace(s[1..])
  }

  lemma {:induction false} NonSpaceAppend(a: string, b: string)
    ensures NonSpace(a + b) == NonSpace(a) + NonSpace(b)
  {
    if |a| > 0 {
      assert (a + b)[0] == a[0] && (a + b)[1..] == a[1..] + b;
      NonSpaceAppend(a[1..], b);
    } else {
      assert a + b == b;
    }
  }

  lemma {:induction false} NonSpaceOfSpaces(s: string)
    requires AllSpace(s)
    ensures NonSpace(s) == ""
  {
    if |s| > 0 {
      NonSpaceOfSpaces(s[1..]);
    }
  }

  /** One step of `NonSpace`. */
  lemma NonSpaceCons(c: char, t: string)
    ensures NonSpace([c] + t) == (if IsSpace(c) then "" else [c]) + NonSpace(t)
  {
    assert ([c] + t)[1..] == t;
  }

  /** Dropping leading white space keeps the other characters. */
  lemma NonSpaceDropSpaces(s: string, n: nat)
    requires n <= |s| && AllSpace(s[..n])
    ensures NonSpace(s[n..]) == NonSpace(s)
  {
    assert s == s[..n] + s[n..];
    NonSpaceAppend(s[..n], s[n..]);
    NonSpaceOfSpaces(s[..n]);
  }

  /** Trimming only removes white space: the other characters stay, in order. */
  lemma TrimKeepsNonSpace(s: string)
    ensures NonSpace(Trim(s)) == NonSpace(s)
  {
    var r := Trim(s);
    var k := LeadingSpaces(s);
    assert s == s[..k] + r + s[k + |r|..];
    NonSpaceAppend(s[..k] + r, s[k + |r|..]);
    NonSpaceAppend(s[..k], r);
    NonSpaceOfSpaces(s[..k]);
    NonSpaceOfSpaces(s[k + |r|..]);
  }

  /** Every character of `Trim(s)` is a character of `s`. */
  lemma TrimKeepsCharacters(s: string, c: char)
    requires c in Trim(s)
    ensures c in s
  {
    var r := Trim(s);
    var k :| 0 <= k < |r| && r[k] == c;
    assert s[LeadingSpaces(s) + k] == c;
  }

  // ---------------------------------------------------------------------
  // split / join on a single-character separator

  /**
   * `s.split(sep)`: the pieces between occurrences of `sep`, never empty
   * (the empty string splits into one empty piece).
   */
  function Split(s: string, sep: char): (r: seq<string>)
    ensures |r| >= 1
    ensures forall i :: 0 <= i < |r| ==> sep !in r[i]
  {
    if |s| == 0 then [""]
    else
      var rest := Split(s[1..], sep);
      if s[0] == sep then [""] + rest
      else [[s[0]] + rest[0]] + rest[1..]
  }

  /** `xs.join(sep)`; the empty list joins to the empty string. */
  function Join(xs: seq<string>, sep: char): string {
    if |xs| == 0 then ""
    else if |xs| == 1 then xs[0]
    else xs[0] + [sep] + Join(xs[1..], sep)
  }

  /** Joining the pieces of a split restores the original string. */
  lemma {:induction false} JoinSplit(s: string, sep: char)
    ensures Join(Split(s, sep), sep) == s
  {
    if |s| > 0 {
      var rest := Split(s[1..], sep);
      JoinSplit(s[1..], sep);
      if s[0] == sep {
        assert Split(s, sep) == [""] + rest;
        assert Join([""] + rest, sep) == "" + [sep] + Join(rest, sep);
        assert [s[0]] + s[1..] == s;
      } else {
        var r := Split(s, sep);
        assert r == [[s[0]] + rest[0]] + rest[1..];
        if |rest| == 1 {
          assert Join(r, sep) == [s[0]] + rest[0];
        } else {
          assert Join(rest, sep) == rest[0] + [sep] + Join(rest[1..], sep);
          assert r[1..] == rest[1..];
          assert Join(r, sep) == [s[0]] + rest[0] + [sep] + Join(rest[1..], sep);
        }
        assert [s[0]] + s[1..] == s;
      }
    }
  }

  /** Splitting a join of separator-free pieces gives the pieces back. */
  lemma {:induction false} SplitJoin(xs: seq<string>, sep: char)
    requires |xs| >= 1
    requires forall i :: 0 <= i < |xs| ==> sep !in xs[i]
    ensures Split(Join(xs, sep), sep) == xs
    decreases |xs|, |xs[0]|
  {
    if |xs[0]| == 0 {
      if |xs| == 1 {
        assert Join(xs, sep) == "";
      } else {
        var tail := Join(xs[1..], sep);
        assert Join(xs, sep) == [sep] + tail;
        SplitJoin(xs[1..], sep);
        SplitCons(sep, tail, sep);
        assert xs == [xs[0]] + xs[1..];
      }
    } else {
      var c := xs[0][0];
      var ys := [xs[0][1..]] + xs[1..];
      JoinFirstChar(xs, sep);
      SplitJoin(ys, sep);
      SplitCons(c, Join(ys, sep), sep);
      assert [c] + ys[0] == xs[0];
      assert ys[1..] == xs[1..];
      assert xs == [xs[0]] + xs[1..];
    }
  }

  /** One step of `Split`: the first character opens a new piece or extends the first one. */
  lemma SplitCons(c: char, s: string, sep: char)
    ensures Split([c] + s, sep) ==
      if c == sep then [""] + Split(s, sep) else [[c] + Split(s, sep)[0]] + Split(s, sep)[1..]
  {
    assert ([c] + s)[1..] == s;
  }

  /** Moving the first character of the first piece out of a join. */
  lemma JoinFirstChar(xs: seq<string>, sep: char)
    requires |xs| >= 1 && |xs[0]| > 0
    requires forall i :: 0 <= i < |xs| ==> sep !in xs[i]
    ensures xs[0][0] != sep
    ensures Join(xs, sep) == [xs[0][0]] + Join([xs[0][1..]] + xs[1..], sep)
    ensures forall i :: 0 <= i < |xs| ==> sep !in ([xs[0][1..]] + xs[1..])[i]
    ensures |[xs[0][1..]] + xs[1..]| == |xs|
  {
    var ys := [xs[0][1..]] + xs[1..];
    assert xs[0][0] in xs[0];
    forall i | 0 <= i < |ys| ensures sep !in ys[i] {
      if i == 0 {
        assert forall k :: 0 <= k < |ys[0]| ==> ys[0][k] == xs[0][k + 1];
      } else {
        assert ys[i] == xs[i];
      }
    }
    assert ys[1..] == xs[1..];
    assert [xs[0][0]] + xs[0][1..] == xs[0];
  }

  // ---------------------------------------------------------------------
  // search

  predicate StartsWith(s: string, prefix: string) {
    |prefix| <= |s| && s[..|prefix|] == prefix
  }

  /** `pat` occurs in `text` at position `i`. */
  predicate OccursAt(text: string, pat: string, i: nat) {
    i + |pat| <= |text| && text[i..i + |pat|] == pat
  }

  /** `text.indexOf(pat, from)`, with `None` for -1. */
  function IndexOfFrom(text: string, pat: string, from: nat): (r: Option<nat>)
    ensures r.Some? ==> from <= r.value && OccursAt(text, pat, r.value)
    ensures r.Some? ==> forall j :: from <= j < r.value ==> !OccursAt(text, pat, j)
    ensures r.None? ==> forall j :: from <= j ==> !OccursAt(text, pat, j)
    decreases |text| - from
  {
    if from + |pat| > |text| then None
    else if text[from..from + |pat|] == pat then Some(from)
    else IndexOfFrom(text, pat, from + 1)
  }

  /** `text.indexOf(pat)`: the first occurrence of `pat`, if any. */
  function IndexOf(text: string, pat: string): (r: Option<nat>)
    ensures r.Some? ==> OccursAt(text, pat, r.value)
    ensures r.Some? ==> forall j: nat :: j < r.value ==> !OccursAt(text, pat, j)
    ensures r.None? ==> forall j: nat :: !OccursAt(text, pat, j)
  {
    IndexOfFrom(text, pat, 0)
  }

  /** A found pattern lies wholly inside the text. */
  lemma IndexOfInside(text: string, pat: string)
    ensures IndexOf(text, pat).Some? ==> IndexOf(text, pat).value + |pat| <= |text|
  {
  }

  // ---------------------------------------------------------------------
  // decimal numerals

  predicate IsDigit(c: char) {
    '0' <= c <= '9'
  }

  predicate AllDigits(s: string) {
    forall i :: 0 <= i < |s| ==> IsDigit(s[i])
  }

  /** The value of a string of decimal digits (leading zeros allowed, as in `Number("007")`). */
  function DigitsValue(s: string): nat
    requires AllDigits(s)
  {
    if |s| == 0 then 0
    else 10 * DigitsValue(s[..|s| - 1]) + ((s[|s| - 1] as int) - ('0' as int))
  }

  /** `String(n)` for a natural number: its shortest decimal numeral. */
  function NatToString(n: nat): (r: string)
    ensures |r| >= 1 && AllDigits(r)
    ensures DigitsValue(r) == n
  {
    var d := ((n % 10) + ('0' as int)) as char;
    if n < 10 then [d]
    else
      var p := NatToString(n / 10);
      var r := p + [d];
      assert r[..|r| - 1] == p;
      r
  }
}

=== FILE: wrappers.dfy ===
/** Option and Result, the model's stand-ins for `undefined` and for thrown errors. */
module Wrappers {

  datatype Option<+T> = None | Some(value: T) {

    /** The value, or `default` when absent (JavaScript's `??`). */
    function GetOr(default: T): T {
      match this
      case Some(v) => v
      case None => default
    }
  }

  /** A computation that either produced a value or threw. */
  datatype Result<+R, +E> = Success(value: R) | Failure(error: E) {

    predicate IsFailure() {
      Failure?
    }

    function PropagateFailure<U>(): Result<U, E>
      requires Failure?
    {
      Failure(error)
    }

    function Extract(): R
      requires Success?
    {
      value
    }
  }

  /** JavaScript truthiness of an optional string: present and non-empty. */
  predicate Truthy(s: Option<string>) {
    s.Some? && s.value != ""
  }
}
